=== FILE: README.md ===
# Attendance system core, modelled in Dafny

This project models the decision logic of a Flask/MySQL school attendance
system and proves properties of it. The system recognises students in a
class photo against an enrolled face store, marks attendance by face or by
scanned QR code, reads admission forms through OCR text, and keeps students
and users in MySQL. The model keeps the logic and turns everything around it
into inputs:

- the face detector's output and the distance between encodings;
- the JSON codec, OCR text extraction and MIME detection;
- the password hash;
- the database's answer to a statement (whether a row was affected, the id it
  assigned).

The database itself is an immutable value: a map of attendance records keyed
by row id, and sequences of rows for the students and users tables.

Modules, one per source component:

| file | module | models |
|---|---|---|
| `wrappers.dfy` | `Wrappers` | `Option` and `Result` |
| `seqs.dfy` | `Seqs` | list comprehensions (filter, map) |
| `text.dfy` | `Text` | the Python `str` operations the code relies on: `strip`, `lower`, `find`, `split`, `join`, `in` |
| `face_store.dfy` | `FaceStore` | the three parallel lists of enrolled faces, add / remove / update, the pickle file |
| `matching.dfy` | `Matching` | per-face matching (argmin, tolerance gate, confidence) and group recognition |
| `attendance.dfy` | `Attendance` | the attendance table; `mark_attendance`, `update_attendance`, `delete_attendance` |
| `reconcile.dfy` | `Reconcile` | the teacher routes `process_attendance`, `scan_qr` and the attendance summary |
| `qr_code.dfy` | `QrCode` | the QR payload, its decoding and batch generation |
| `ocr.dfy` | `Ocr` | form-text parsing, cleaning and validation |
| `security.dfy` | `Security` | password strength, input sanitising, safe file names, salted hashing |
| `file_validator.dfy` | `FileValidator` | the extension whitelist and the order of the upload checks |
| `sql.dfy` | `Sql` | SQL values with NULL semantics, the dynamic UPDATE builder, SELECT conditions with positional `%s` binding |
| `student_model.dfy` | `StudentModel` | `update_student`, `create_student`, `check_roll_number_exists` |
| `user_model.dfy` | `UserModel` | `update_user`, `change_password`, `check_username_exists`, `check_email_exists` |

## Model

| member | source | states |
|---|---|---|
| FaceStore.Save | attendance_system-main/utils/face_recognition.py:32-47 | the saved dict carries all three lists |
| FaceStore.Load | attendance_system-main/utils/face_recognition.py:19-30 | no file gives the empty store; otherwise the ids come from the file |
| FaceStore.SaveLoadRoundTrip | attendance_system-main/utils/face_recognition.py:19-47 | loading what was saved gives back the same three lists, so a manager that has just saved is persisted |
| FaceStore.LoadMayMisalign | attendance_system-main/utils/face_recognition.py:19-30 | the loader does not check alignment: a file without the names key loads into lists of different lengths |
| FaceStore.IndexOf | attendance_system-main/utils/face_recognition.py:154 | `ids.index(id)`: absent iff the id is not enrolled; otherwise the first position holding it |
| FaceStore.AddStudentFace | attendance_system-main/utils/face_recognition.py:49-75 | success iff exactly one face was detected. The outcomes are no face, several faces and a detection error, and every failure leaves store and file unchanged. Success appends (encoding, name, id) at the end of each list, even for an id already enrolled. It keeps the lists aligned and saves them |
| FaceStore.RemoveStudentFace | attendance_system-main/utils/face_recognition.py:151-166 | an unknown id gives "not found" and changes nothing; otherwise it drops the first index holding the id from all three lists, keeps the rest in order, and saves |
| FaceStore.RemoveDropsOneOccurrence | attendance_system-main/utils/face_recognition.py:154-158 | removing deletes exactly one occurrence of the id: the multiset of ids loses that id once |
| FaceStore.UpdateStudentFace | attendance_system-main/utils/face_recognition.py:131-149 | an unknown id changes nothing. A known id's first entry is removed in memory and re-added at the end under its old name. If the re-add fails, memory keeps the removal while the file keeps the old lists |
| FaceStore.UpdateFailureDiverges | attendance_system-main/utils/face_recognition.py:135-145 | after a failed re-enrolment, memory and the pickle file disagree |
| FaceStore.UpdateMovesEntryToEnd | attendance_system-main/utils/face_recognition.py:135-145 | a successful re-enrolment keeps the number of faces and puts the student's entry, with the new encoding, last |
| Matching.FaceDistance | attendance_system-main/utils/face_recognition.py:96-98 | one distance per enrolled encoding, in store order: entry i is the distance from enrolled encoding i to the probe |
| Matching.CompareFaces | attendance_system-main/utils/face_recognition.py:93-95 | entry i matches iff distance i is at most the tolerance |
| Matching.ArgMin | attendance_system-main/utils/face_recognition.py:101 | `np.argmin`: a minimal distance, at the lowest index holding one |
| Matching.MatchFace | attendance_system-main/utils/face_recognition.py:100-111 | a face is recognised iff some distance is within tolerance. It takes the id and name at the argmin, with confidence 1 - distance, which is at least 1 - tolerance |
| Matching.InnerToleranceCheckRedundant | attendance_system-main/utils/face_recognition.py:100-102 | once some entry matches, the entry at the argmin matches too, so the inner `matches[best]` test never fails |
| Matching.RecognizeFaces | attendance_system-main/utils/face_recognition.py:77-129 | a detection error gives the failure report. Otherwise the faces detected equal the recognised entries plus the unrecognised count, and the recognised list is the per-face matches in face order |
| Matching.EmptyStoreRecognisesNobody | attendance_system-main/utils/face_recognition.py:100 | with nothing enrolled, no face is recognised |
| Matching.DuplicatesAreKept | attendance_system-main/utils/face_recognition.py:107-111 | two faces of one student in a photo are both reported |
| Matching.ExactFaceFullConfidence | attendance_system-main/utils/face_recognition.py:100-105 | a probe at distance 0 from the only enrolled face is recognised with confidence 1 |
| Matching.ConfidenceBounds | attendance_system-main/utils/face_recognition.py:105 | with non-negative distances every confidence lies in [1 - tolerance, 1] |
| Attendance.AtMostOneRecord | attendance_system-main/models/attendance.py:20-22 | under the one-record-per-(student, day) invariant, a student has at most one record a day, and is marked iff there is exactly one |
| Attendance.Insert | attendance_system-main/models/attendance.py:29-42 | the new row gets the next auto-increment id. The insert keeps the table well formed and keeps the invariant when the student was not yet marked that day |
| Attendance.MarkAttendance | attendance_system-main/models/attendance.py:13-47 | an existing (student, today) record gives "already marked" and inserts nothing; a refused insert gives "failed" and changes nothing; otherwise exactly one record is added with the given class, teacher, status, method and confidence; the invariant is kept |
| Attendance.MarkDefaults | attendance_system-main/models/attendance.py:13-14 | omitted arguments give status 'present' and method 'manual' |
| Attendance.MarkTwiceOneRecord | attendance_system-main/models/attendance.py:20-47 | two identical calls on one day: the first marks, the second reports already marked, and one record remains |
| Attendance.MarkedInOneClassBlocksAnother | attendance_system-main/models/attendance.py:20-22 | the duplicate test keys on (student, date) only: marked in one class, the student cannot be marked in another the same day |
| Attendance.UpdateAttendance | attendance_system-main/models/attendance.py:125-142 | only status, notes and time_marked of the row with that id change; an unknown id changes nothing |
| Attendance.DeleteAttendance | attendance_system-main/models/attendance.py:145-158 | only the row with that id goes; an unknown id changes nothing |
| Reconcile.ResolveKey | attendance_system-main/routes/teacher.py:197-210 | the `(SELECT id FROM students WHERE student_id = %s)` subquery, with student_id taken to be unique: the key of a row carrying that student_id, none iff no row has it |
| Reconcile.MarkOne | attendance_system-main/routes/teacher.py:195-220 | one pass of the loop: the entry is counted iff the lookup finds no record of the student today. A row is written iff the student resolves, has no record and the database accepts the INSERT. Afterwards exactly the students marked before, plus this one on an accepted INSERT, are marked |
| Reconcile.MarkRecognised | attendance_system-main/routes/teacher.py:191-220 | the loop only adds rows, all of them face-path rows of this class and teacher. The count is the inserts, plus the unresolved ids, plus the refused INSERTs the route counts anyway (`Refusals`, an independent count by student keys). Afterwards exactly the students marked before and those whose INSERT was accepted are marked today |
| Reconcile.RefusalsSeeOnlyMarked | attendance_system-main/routes/teacher.py:197-204 | the refusal count depends on a table only through which students already have a record today, as the existence check does |
| Reconcile.AllAcceptedNoRefusals | attendance_system-main/routes/teacher.py:218-220 | when the database accepts every INSERT, no entry is counted without a row |
| Reconcile.RefusedInsertStillCounted | attendance_system-main/routes/teacher.py:218-220 | a refused INSERT writes no row but is still counted in `attendance_marked` |
| Reconcile.RecognisedIds | attendance_system-main/routes/teacher.py:223 | the recognised student_ids, duplicates included, in order |
| Reconcile.Absentees | attendance_system-main/routes/teacher.py:222-230 | the active rows of the class whose student_id was not recognised, in roster order |
| Reconcile.ProcessAttendance | attendance_system-main/routes/teacher.py:136-244 | the guards come in order: access denied, no photo, empty filename, recognition failure, session insert refused. Each returns with the database unchanged. Success writes a 'completed' session row with the face counts and reports the absentees. Its attendance table and marked count are exactly those of the marking loop over the recognised students. So the count is the inserts, plus the unresolved ids, plus the refused INSERTs. Every resolvable recognised student whose INSERT is accepted is marked today, and every new row is a face-path row of this class |
| Reconcile.DuplicateRecognitionOneRecord | attendance_system-main/routes/teacher.py:195-220 | a student recognised twice in one photo ends up with one record and is counted once |
| Reconcile.NoMembershipCheck | attendance_system-main/routes/teacher.py:195-219 | a recognised student of another class still gets a record under this class |
| Reconcile.AbsentDespiteRecord | attendance_system-main/routes/teacher.py:223-230 | a student marked earlier today but not in the photo is still reported absent |
| Reconcile.FindInClass | attendance_system-main/routes/teacher.py:289-296 | the first active row of the class whose student_id equals the decoded one, none iff there is no such row |
| Reconcile.ScanGuards | attendance_system-main/routes/teacher.py:276-299 | the guards come in order: missing data, decode error (with its message), no student in this class |
| Reconcile.ScanQr | attendance_system-main/routes/teacher.py:273-346 | any guard failure, an existing record today, or a refused insert leaves the table unchanged. Success inserts one 'present' record with method 'qr_code', no confidence or photo, and the note 'QR code scan', and keeps the invariant |
| Reconcile.ScanGeneratedCard | attendance_system-main/routes/teacher.py:273-346 | scanning a freshly generated card of an active class member marks that student by QR |
| Reconcile.PresentToday | attendance_system-main/routes/teacher.py:418-428 | the rows of the class with a 'present' record today |
| Reconcile.AbsentToday | attendance_system-main/routes/teacher.py:430-439 | the active rows of the class with no 'present' record today |
| Reconcile.SummaryPartition | attendance_system-main/routes/teacher.py:418-439 | present and absent are disjoint, and every active row of the class is on exactly one of them |
| Reconcile.FaceMarkShowsPresent | attendance_system-main/routes/teacher.py:195-220 | a face-path record makes the student present in that class's summary |
| QrCode.Payload | attendance_system-main/utils/qr_code.py:17-24 | exactly the keys student_id, name, class, section, roll_number and type, with type 'student_attendance' and each other key copied from its column |
| QrCode.GenerateStudentQr | attendance_system-main/utils/qr_code.py:13-51 | success iff every column is present and the card was saved; failure is (False, None, None) |
| QrCode.DecodeQrData | attendance_system-main/utils/qr_code.py:124-136 | success iff the text parses to an object whose type is 'student_attendance', returning the whole object. Another type gives "Invalid QR code type"; unparseable text gives "Invalid QR code data format" |
| QrCode.GenerateDecodeRoundTrip | attendance_system-main/utils/qr_code.py:33-47 | decoding a generated payload succeeds with the same field values |
| QrCode.BareTagAccepted | attendance_system-main/utils/qr_code.py:127-129 | only the tag is checked: an object with nothing but the tag decodes successfully |
| QrCode.BatchGenerate | attendance_system-main/utils/qr_code.py:138-149 | no list iff some student lacks 'student_id'. Otherwise one entry per student, in input order: entry i is that student's id together with the success flag, file name and QR data `generate_student_qr` returned for it |
| Ocr.DropSeparators | attendance_system-main/utils/ocr_processor.py:172-175 | none of the separators is left, the result is a contiguous piece of the input, and an input without separators is unchanged |
| Ocr.ExtractValueAfterPattern | attendance_system-main/utils/ocr_processor.py:160-188 | none when the lower-cased line lacks the pattern. A value is non-empty, shorter than 100, stripped, free of ':', '-', '=' and '\|', and a contiguous piece of the original line |
| Ocr.ExtractFindsValue | attendance_system-main/utils/ocr_processor.py:160-188 | the converse: when the first occurrence of the label is followed by whitespace, one separator, whitespace and a stripped value without separators, extraction gives exactly that value if it is shorter than 100 characters, and none otherwise |
| Ocr.FirstPattern | attendance_system-main/utils/ocr_processor.py:143-149 | the first of the field's patterns the line contains, none iff it contains none |
| Ocr.ParseFields | attendance_system-main/utils/ocr_processor.py:142-149 | a field already read is never overwritten, and a new entry is that line's value for that field |
| Ocr.FirstLineValue | attendance_system-main/utils/ocr_processor.py:139-149 | the value of the first line that yields one for the field, none iff no line does |
| Ocr.ParseLinesFirstWins | attendance_system-main/utils/ocr_processor.py:139-149 | the parsed form holds a field iff some line yields it, with the value of the first such line |
| Ocr.ParsedFieldComesFromFirstLine | attendance_system-main/utils/ocr_processor.py:118-154 | a field is present after `parse_student_form` iff some line yields a value for it and the first such value does not clean to the empty string; the field then holds that cleaned value |
| Ocr.FatherLineAlsoReadsStudentName | attendance_system-main/utils/ocr_processor.py:126-127 | a line labelled "father name" is also read for student_name through its pattern "name" |
| Ocr.CleanName | attendance_system-main/utils/ocr_processor.py:203-206 | letters separated by single spaces, nothing else, using only characters of the input; its letters are exactly the input's letters, in order |
| Ocr.CleanValue | attendance_system-main/utils/ocr_processor.py:199-218 | names are single-spaced letters, roll number and student id alphanumeric, phone digits, the date is the parser's result, and the other fields are stripped. Apart from dates, nothing is introduced but spaces. Names keep exactly the input's letters, in order; roll number and student id are exactly the input's letters and digits; phone is exactly its digits; class, section and address are the stripped input |
| Ocr.CleanFormData | attendance_system-main/utils/ocr_processor.py:190-224 | a field is kept iff its raw value is non-empty and its cleaned value is non-empty, and then holds the cleaned value |
| Ocr.ParseStudentForm | attendance_system-main/utils/ocr_processor.py:118-154 | every parsed field is non-empty and has its field's character shape. For every field, the entry is the cleaned value of the first line that yields one, and absent when there is no such line or the value cleans to nothing |
| Ocr.ValidationErrors | attendance_system-main/utils/ocr_processor.py:266-289 | each rule fails iff its message is listed: missing name or roll, name length outside 2..50, roll not alphanumeric or over 10, phone given and outside 10..15 |
| Ocr.ValidateFormData | attendance_system-main/utils/ocr_processor.py:263-294 | valid iff no errors, iff a name of 2 to 50 characters and an alphanumeric roll of at most 10 are present and a given phone has 10 to 15 characters |
| Ocr.ParsedRollFailsOnlyOnLength | attendance_system-main/utils/ocr_processor.py:208-210 | on parsed data the roll-number rule fails only on length |
| Ocr.ExtractFormData | attendance_system-main/utils/ocr_processor.py:98-116 | an extraction error is passed on, empty text gives "No text found in image", otherwise the parsed form |
| Ocr.ProcessForm | attendance_system-main/utils/ocr_processor.py:302-320 | one image: the extraction error, or the data with its validation verdict |
| Ocr.ProcessBatchForms | attendance_system-main/utils/ocr_processor.py:296-326 | one result per image, in order, each the per-image result of `ProcessForm`: a failure carries the extraction error, and a read form carries the extracted data with the verdict and error list of `validate_form_data` |
| Security.PasswordErrors | attendance_system-main/utils/security.py:73-86 | a rule is listed iff the password breaks it, each once, in checking order; none iff the password is strong |
| Security.ValidatePasswordStrength | attendance_system-main/utils/security.py:69-88 | valid iff no messages, iff the password is strong (length 8, upper, lower, digit, special). The messages follow the broken rules. A password under 8 characters is invalid with the length message first |
| Security.RemoveAll | attendance_system-main/utils/security.py:97-99 | the repeated `replace(c, '')` calls equal one filter (`Text.Keep`) that drops the listed characters and keeps every other one, in order |
| Security.SanitizeInput | attendance_system-main/utils/security.py:91-101 | non-strings give their text unchanged. A string comes out as exactly `strip()` of the string with <, >, ", ', & and NUL filtered out, every other character kept in order. `strip()` removes Python whitespace (the full `isspace` set). A clean, stripped string is unchanged |
| Text.Strip | attendance_system-main/utils/security.py:101 | `strip()`: the result sits between whitespace-only ends of the input and has no whitespace at either end |
| Text.StripUnique | attendance_system-main/utils/security.py:101 | those two facts determine the result, so any piece with whitespace-only surroundings and no whitespace at its ends is the stripped text |
| Security.SanitizeIdempotent | attendance_system-main/utils/security.py:91-101 | sanitising twice is sanitising once |
| Security.IsSafeFilename | attendance_system-main/utils/security.py:104-115 | safe iff non-empty and none of the ten dangerous patterns occurs |
| Security.SafeFilenameByCharacters | attendance_system-main/utils/security.py:106-115 | safe iff non-empty, none of / \\ : * ? " < > \| present, and no two dots in a row |
| Security.HashPassword | attendance_system-main/utils/security.py:47-60 | the given salt is kept, a fresh one is used otherwise, and the digest is the key derivation of (password, salt) |
| Security.VerifyPassword | attendance_system-main/utils/security.py:63-66 | true iff recomputing under the stored salt gives the stored digest |
| Security.HashVerifyRoundTrip | attendance_system-main/utils/security.py:47-66 | a password verifies against the digest and salt hashing it produced |
| FileValidator.IsAllowedExtension | attendance_system-main/utils/file_validator.py:80-86 | false without a dot; true only when the lower-cased text after some dot is whitelisted |
| FileValidator.ExtensionDecides | attendance_system-main/utils/file_validator.py:85-86 | for name.ext with a dot-free ext, allowed iff lower(ext) is whitelisted |
| FileValidator.OnlyLastExtensionCounts | attendance_system-main/utils/file_validator.py:85 | an allowed inner extension changes nothing: only the last one counts |
| FileValidator.ExtensionCaseInsensitive | attendance_system-main/utils/file_validator.py:86 | an extension is allowed iff its lower-case form is |
| FileValidator.ValidateFile | attendance_system-main/utils/file_validator.py:20-78 | accepted iff every check passes, with the cleaned name, size and detected type (or "unknown"). The order is: missing file or name, then size over 16 MiB, then extension, then MIME type. A failed detection falls back to the extension verdict |
| Sql.Bind | attendance_system-main/models/student.py:114-124 | one (column, value) pair per `%s` of the SET list, each column named by the list |
| Sql.BindSetList | attendance_system-main/models/student.py:111-124 | the SET list built from the writes binds each column to its own value: binding gives the writes back |
| Sql.BuildUpdate | attendance_system-main/models/student.py:117-123 | no statement iff there are no writes. Otherwise one fragment per write, then "updated_at" last, with as many placeholders as parameters, the key as last parameter, and columns only from the writes |
| Sql.Assigned | attendance_system-main/models/student.py:123 | the SET writes change only the columns they name |
| Sql.ApplyUpdate | attendance_system-main/models/student.py:123-124 | rows whose key column does not equal the key are unchanged, and a column not named (other than updated_at) keeps its value in every row |
| Sql.OnlyNamedColumnsChange | attendance_system-main/models/student.py:111-124 | a statement naming only allowed columns leaves every other column except updated_at as it was, in every row |
| Sql.Excluding | attendance_system-main/models/student.py:217-219 | the clause is added only for a truthy exclusion value. A row is then selected iff it was before and its column differs from that value |
| Sql.SatisfiesAppend | attendance_system-main/models/student.py:217-221 | an appended `column != %s` condition with an appended parameter is conjoined to the rest |
| StudentModel.StudentWrites | attendance_system-main/models/student.py:111-115 | a pair is kept iff its key is in the nine-column whitelist |
| StudentModel.UpdateStudent | attendance_system-main/models/student.py:104-133 | "No valid fields to update" iff no whitelisted key. Otherwise it updates students by student_id, with placeholders matching parameters and updated_at last. Only whitelisted columns are written, each bound to its own value. Success iff a row was affected |
| StudentModel.UpdateKeepsProtectedColumns | attendance_system-main/models/student.py:111-123 | student_id, class_id, roll_number and is_active never change, in any row |
| StudentModel.CreateParams | attendance_system-main/models/student.py:23-37 | fails iff a required column is missing, naming the first missing one; otherwise each column gets its value or its default |
| StudentModel.CreateStudent | attendance_system-main/models/student.py:13-48 | success iff all required columns are present and the insert affected a row, returning the new id; a missing column gives "Error: 'column'"; a refused insert gives "Failed to create student" with no id |
| StudentModel.CreateDefaults | attendance_system-main/models/student.py:28-36 | with only the required columns, the others get '' (parents, address, phone), NULL (birth date, photo, QR), today (enrolment) and false (consent) |
| StudentModel.RollNumberQueryMeaning | attendance_system-main/models/student.py:211-219 | selected iff the roll number and class equal the given ones, the row is active, and for a truthy exclusion its student_id differs |
| StudentModel.RollNumberExists | attendance_system-main/models/student.py:208-222 | true iff some row is selected |
| StudentModel.FalsyExclusionIgnored | attendance_system-main/models/student.py:217 | an exclusion of 0 or '' excludes nobody, like None |
| UserModel.UserWrites | attendance_system-main/models/user.py:141-148 | only full_name, email and role are written as given, and a password only as password_hash of its hash. Every valid key is written. Username is never written, and none at all iff no valid key |
| UserModel.UpdateUser | attendance_system-main/models/user.py:134-166 | "No valid fields to update" iff no valid key. Otherwise it updates users by id, with placeholders matching parameters, updated_at last and only allowed columns. Success iff a row was affected |
| UserModel.UpdateKeepsUsername | attendance_system-main/models/user.py:141-156 | username, id and is_active never change, in any row |
| UserModel.ChangePassword | attendance_system-main/models/user.py:189-216 | missing or inactive user gives "User not found", then a wrong current password gives "Current password is incorrect", both with nothing changed. Success iff both pass and the update affected a row, and then only that user's hash changes; a refused update gives "Failed to change password" with nothing changed |
| UserModel.ChangeThenChangeAgain | attendance_system-main/models/user.py:193-206 | after a successful change, the new password passes both guards of the next change |
| UserModel.ActiveUserQueryMeaning | attendance_system-main/models/user.py:222-227 | selected iff the column equals the value, the user is active, and for a truthy exclusion the id differs |
| UserModel.UsernameExists | attendance_system-main/models/user.py:219-234 | true iff some row is selected by the username query |
| UserModel.EmailExists | attendance_system-main/models/user.py:237-252 | true iff some row is selected by the e-mail query |
| UserModel.OwnRowNotCounted | attendance_system-main/models/user.py:225-227 | excluding a user's own id, their own row never makes their username count as taken |

## Left out

- Face detection, encoding and the distance function are parameters. The model does not look inside encodings.
- Confidence is a real number; floating-point rounding is not modelled.
- Pickle I/O is a faithful store of the three lists (or of an absent file). Unreadable files are not modelled separately from absent ones.
- MySQL is replaced by immutable values. The model leaves out every SQL aggregate, `ORDER BY` (roster order stands in for query order), `GROUP BY` and the statistics queries.
- Read queries such as `get_student_by_id` and `get_all_users` are left out, beyond the lookups the modelled operations make.
- The race between the face and QR paths is not modelled: calls are sequential.
- Flask routing, sessions, templates, decorators, `routes/api.py`, `routes/principal.py`, `routes/auth.py` and `app.py` are left out. The `allowed_file` in `app.py` repeats the extension check.
- The JSON codec (RFC 8259) is an opaque, faithful serialiser: decoding takes the outcome of `json.loads`.
- ID-card and QR image rendering are left out; whether the card was saved is a parameter.
- OCR image preprocessing and Tesseract are left out. `parse_date` is a parameter.
- Letters, digits and case are ASCII: Python's Unicode `isalpha`, `isdigit` and `lower` are not modelled beyond ASCII. Whitespace is Python's full `isspace` set, including U+0085, U+00A0, U+1680, U+2000–U+200A, U+2028, U+2029, U+202F, U+205F and U+3000.
- Security.HashPassword: the key derivation (PBKDF2-HMAC-SHA256) and the random salt are parameters.
- UserModel.UserWrites: werkzeug's `generate_password_hash` is a deterministic function parameter. In the application each call draws a fresh salt.
- UserModel.ChangePassword: `check_password_hash` is a parameter, so ChangeThenChangeAgain assumes the new hash checks against the new password.
- FileValidator.ValidateFile: MIME detection, the PIL integrity check and `secure_filename` are parameters. An empty `allowed_types` stands for both `None` and `[]`. The order of the allowed-extension listing in the message is a parameter, since Python set order is unspecified.
- `_validate_image`, `sanitize_filename` and `get_safe_path` in `file_validator.py` are left out beyond the integrity verdict; they wrap library calls.
- `validate_file_upload`, `require_https`, `rate_limit` and `generate_secure_token` in `security.py` are left out: they are request plumbing or token generation.
- The outer `except` handlers ("Error: ...", "File validation failed", "Internal server error") are not modelled in general. Four exceptions are modelled: the KeyError of `create_student`; in `process_attendance`, the failed session insert, which raises on `session_result['last_id']`; in `scan_qr`, the KeyError of a decoded payload without 'student_id'; and in `batch_generate_qr_codes`, the KeyError of a student without 'student_id' (utils/qr_code.py line 144), which QrCode.BatchGenerate's None stands for.
- StudentModel.CreateStudent: a database error other than a refused insert is not modelled.
- `check_student_id_exists`, `delete_student`, `delete_user`, `create_user` and `authenticate_user` are left out: they follow the same patterns as the modelled members.
- Reconcile.MarkRecognised: the face path ignores the insert's result. The model takes the database's verdict on each INSERT as the parameter `accepted`. A student_id no row carries is assumed to insert nothing, though it is still counted in `attendance_marked`. A failed existence check (`execute_query` returning None) is not modelled apart from "no record found".
- Reconcile.ScanGuards: the request fields are narrowed. `qr_data` is taken as a string and `class_id` as an integer, although `request.json.get` (routes/teacher.py lines 276-277) can return any JSON value. So a string class_id such as "0", which is truthy in Python and passes the `not class_id` guard, is modelled by the integer 0, which fails it. A truthy non-string qr_data makes `json.loads` raise TypeError, which `decode_qr_data` reports as "Error decoding QR code: ..." (utils/qr_code.py lines 134-136); that path is not modelled.
- Reconcile.ScanGuards: the QR payload's student_id is compared as a string, so a JSON number there matches no row. This is a simplification: MySQL would convert the number and compare it with the varchar column.
- Reconcile.ProcessAttendance: class_id is taken as an integer. `int(request.form['class_id'])` (routes/teacher.py line 141) raises on a missing or malformed value, which the route reports as "Internal server error"; that path is not modelled.
- Sql.SqlEq: string comparison is exact. The database is created with the `utf8mb4_unicode_ci` collation (setup.py line 155), under which `=` ignores letter case and trailing spaces. So `check_username_exists` (models/user.py line 222) finds 'Alice' when asked for 'alice', and the `scan_qr` student lookup (routes/teacher.py lines 290-296) matches a student_id that differs only in case. UserModel.UsernameExists, UserModel.EmailExists, Reconcile.ResolveKey and Reconcile.FindInClass use exact equality instead.
- Reconcile.ResolveKey: student_id is taken to be unique. With two rows carrying one student_id, MySQL's scalar subquery raises an error; the model uses the first row.
- FaceStore.RemoveStudentFace, FaceStore.UpdateStudentFace and Matching.RecognizeFaces require the three lists to be aligned, so a misaligned pickle file (FaceStore.LoadMayMisalign) is excluded. On such a file the Python code raises IndexError part-way: removal and update have already popped an encoding, and the handler reports "Error removing face: ..." or "Error updating face: ...". That path is not modelled.
- Ocr.ValidationErrors: the contract states which messages appear. The order of the listed messages follows the rule order in the body and is not stated separately.
- Settings other than the face tolerance (0.6, `config.py` line 26), the allowed extensions and the 16 MiB limit are left out.

=== FILE: attendance.dfy ===
/**
 * The `attendance` table and `AttendanceModel`'s writes to it. The table is
 * a map from row id to record with an auto-increment counter; the database's
 * answer "how many rows did the INSERT affect" is an input (`accepted`).
 * Students are identified by their internal row id (`students.id`).
 */
module Attendance {
  import opened Wrappers

  type StudentKey = nat
  /** A calendar day. */
  type Day = int
  /** A point in time, for `time_marked`. */
  type Instant = int

  const Present := "present"
  const Manual := "manual"
  const FaceRecognitionMethod := "face_recognition"
  const QrCodeMethod := "qr_code"

  datatype Record = Record(
    student: StudentKey,
    classId: int,
    teacherId: int,
    date: Day,
    status: string,
    via: string,
    confidence: Option<real>,
    photo: Option<string>,
    notes: Option<string>,
    timeMarked: Instant)

  datatype Table = Table(rows: map<nat, Record>, nextId: nat)

  const EmptyTable := Table(map[], 1)

  /** Every row id was handed out by the counter. */
  predicate WellFormed(t: Table) {
    forall id :: id in t.rows ==> id < t.nextId
  }

  /** At most one record per (student, day), whatever its class. */
  predicate OnePerDay(t: Table) {
    forall i, j ::
      (i in t.rows && j in t.rows && t.rows[i].student == t.rows[j].student && t.rows[i].date == t.rows[j].date)
      ==> i == j
  }

  predicate Valid(t: Table) { WellFormed(t) && OnePerDay(t) }

  /** `SELECT id FROM attendance WHERE student_id = %s AND attendance_date = %s` is non-empty. */
  predicate MarkedOn(t: Table, s: StudentKey, d: Day) {
    exists id :: id in t.rows && t.rows[id].student == s && t.rows[id].date == d
  }

  /** The ids of the records for (s, d). */
  function RecordsFor(t: Table, s: StudentKey, d: Day): set<nat> {
    set id | id in t.rows && t.rows[id].student == s && t.rows[id].date == d
  }

  lemma AtMostOneRecord(t: Table, s: StudentKey, d: Day)
    requires OnePerDay(t)
    ensures |RecordsFor(t, s, d)| <= 1
    ensures MarkedOn(t, s, d) <==> |RecordsFor(t, s, d)| == 1
  {
    var ids := RecordsFor(t, s, d);
    if ids != {} {
      var i :| i in ids;
      assert ids == {i};
    }
    if MarkedOn(t, s, d) {
      var id :| id in t.rows && t.rows[id].student == s && t.rows[id].date == d;
      assert id in ids;
    }
  }

  /** An INSERT: the new row gets the next auto-increment id. */
  function Insert(t: Table, r: Record): (t': Table)
    requires WellFormed(t)
    ensures WellFormed(t') && t.nextId !in t.rows
    ensures t'.rows == t.rows[t.nextId := r]
    ensures OnePerDay(t) && !MarkedOn(t, r.student, r.date) ==> OnePerDay(t')
    ensures MarkedOn(t', r.student, r.date)
  {
    var t' := Table(t.rows[t.nextId := r], t.nextId + 1);
    assert t'.rows[t.nextId] == r;
    t'
  }

  datatype MarkOutcome = Marked | AlreadyMarked | InsertFailed {
    predicate Success() { Marked? }

    function Message(): string {
      match this
      case Marked => "Attendance marked successfully"
      case AlreadyMarked => "Attendance already marked for this student today"
      case InsertFailed => "Failed to mark attendance"
    }
  }

  /** `mark_attendance`: check for a record of (student, today), then insert one. */
  function MarkAttendance(
    t: Table, student: StudentKey, classId: int, teacherId: int, today: Day, now: Instant, accepted: bool,
    status: string := Present, via: string := Manual,
    confidence: Option<real> := None, photo: Option<string> := None, notes: Option<string> := None)
    : (r: (Table, MarkOutcome))
    requires WellFormed(t)
    ensures WellFormed(r.0)
    ensures Valid(t) ==> Valid(r.0)
    // the existence check looks at (student, day) only: the class plays no part
    ensures MarkedOn(t, student, today) ==> r == (t, AlreadyMarked)
    ensures !MarkedOn(t, student, today) && !accepted ==> r == (t, InsertFailed)
    ensures r.1 == Marked <==> !MarkedOn(t, student, today) && accepted
    // a successful call adds exactly one record, for today, and touches no other
    ensures r.1 == Marked ==>
      && t.nextId !in t.rows
      && r.0.rows.Keys == t.rows.Keys + {t.nextId}
      && (forall id :: id in t.rows ==> r.0.rows[id] == t.rows[id])
      && r.0.rows[t.nextId] == Record(student, classId, teacherId, today, status, via, confidence, photo, notes, now)
  {
    if MarkedOn(t, student, today) then (t, AlreadyMarked)
    else if !accepted then (t, InsertFailed)
    else
      var rec := Record(student, classId, teacherId, today, status, via, confidence, photo, notes, now);
      (Insert(t, rec), Marked)
  }

  /** Omitted arguments give a 'present' record marked 'manual'. */
  lemma MarkDefaults(t: Table, student: StudentKey, classId: int, teacherId: int, today: Day, now: Instant)
    requires WellFormed(t) && !MarkedOn(t, student, today)
    ensures var r := MarkAttendance(t, student, classId, teacherId, today, now, true);
      r.1 == Marked && r.0.rows[t.nextId].status == "present" && r.0.rows[t.nextId].via == "manual"
      && r.0.rows[t.nextId].confidence.None?
  {
  }

  /** Two identical calls on one day: the first marks, the second reports
      already-marked, and exactly one record of that student and day exists. */
  lemma MarkTwiceOneRecord(t: Table, student: StudentKey, classId: int, teacherId: int, today: Day, now: Instant, later: Instant)
    requires Valid(t) && !MarkedOn(t, student, today)
    ensures var (t1, o1) := MarkAttendance(t, student, classId, teacherId, today, now, true);
      var (t2, o2) := MarkAttendance(t1, student, classId, teacherId, today, later, true);
      o1 == Marked && o2 == AlreadyMarked && t2 == t1 && |RecordsFor(t2, student, today)| == 1
  {
    var (t1, o1) := MarkAttendance(t, student, classId, teacherId, today, now, true);
    AtMostOneRecord(t1, student, today);
  }

  /** Being marked in one class blocks marking in any other class on the same day. */
  lemma MarkedInOneClassBlocksAnother(t: Table, student: StudentKey, classA: int, classB: int, teacher: int, today: Day, now: Instant)
    requires WellFormed(t) && !MarkedOn(t, student, today) && classA != classB
    ensures var (t1, _) := MarkAttendance(t, student, classA, teacher, today, now, true);
      MarkAttendance(t1, student, classB, teacher, today, now, true).1 == AlreadyMarked
  {
  }

  datatype ChangeOutcome = Changed | NoRowAffected

  /** `update_attendance`: sets status, notes and time_marked of row `id`. */
  function UpdateAttendance(t: Table, id: nat, status: string, notes: Option<string>, now: Instant)
    : (r: (Table, ChangeOutcome))
    ensures id !in t.rows ==> r == (t, NoRowAffected)
    ensures id in t.rows ==> r.1 == Changed && r.0.nextId == t.nextId && r.0.rows.Keys == t.rows.Keys
    ensures id in t.rows ==> r.0.rows[id] == t.rows[id].(status := status, notes := notes, timeMarked := now)
    ensures forall k :: k in t.rows && k != id ==> r.0.rows[k] == t.rows[k]
    ensures Valid(t) ==> Valid(r.0)
  {
    if id in t.rows then
      (Table(t.rows[id := t.rows[id].(status := status, notes := notes, timeMarked := now)], t.nextId), Changed)
    else (t, NoRowAffected)
  }

  /** `delete_attendance`: removes row `id` only. */
  function DeleteAttendance(t: Table, id: nat): (r: (Table, ChangeOutcome))
    ensures id !in t.rows ==> r == (t, NoRowAffected)
    ensures id in t.rows ==> r.1 == Changed && r.0.rows.Keys == t.rows.Keys - {id}
    ensures forall k :: k in r.0.rows ==> k in t.rows && r.0.rows[k] == t.rows[k]
    ensures Valid(t) ==> Valid(r.0)
  {
    if id in t.rows then (Table(t.rows - {id}, t.nextId), Changed) else (t, NoRowAffected)
  }

  function UpdateMessage(o: ChangeOutcome): string {
    if o.Changed? then "Attendance updated successfully" else "Failed to update attendance"
  }

  function DeleteMessage(o: ChangeOutcome): string {
    if o.Changed? then "Attendance deleted successfully" else "Failed to delete attendance"
  }
}

=== FILE: face_store.dfy ===
/**
 * The face-encoding store of `FaceRecognitionManager`: three parallel lists
 * (encodings, names, ids) correlated only by index, held in memory and
 * mirrored to a pickle file after every successful add or remove.
 *
 * Face detection and encoding are outside the model: an enrolment photo is
 * represented by what detection returned for it (`Detection`).
 */
module FaceStore {
  import opened Wrappers

  /** A face encoding as the detector returns it; its components are never inspected here. */
  datatype Encoding = Encoding(components: seq<real>)

  datatype Store = Store(encodings: seq<Encoding>, names: seq<string>, ids: seq<string>)

  /** The three lists have equal length, so index i describes one enrolled face. */
  predicate Aligned(s: Store) {
    |s.encodings| == |s.names| == |s.ids|
  }

  const EmptyStore := Store([], [], [])

  /** The faces detection found in a photo, or the exception it raised with its text. */
  datatype Detection = Detected(faces: seq<Encoding>) | DetectionFailed(reason: string)

  /** The pickled dict: each of its three keys may be absent. */
  datatype Blob = Blob(encodings: Option<seq<Encoding>>, names: Option<seq<string>>, ids: Option<seq<string>>)

  /** The manager's in-memory lists and the content of its pickle file (`None`: no file). */
  datatype Manager = Manager(memory: Store, file: Option<Blob>)

  datatype FaceOutcome =
    | FaceAdded
    | FaceRemoved
    | NoFaceDetected
    | MultipleFacesDetected
    | ProcessingFailed(reason: string)
    | NotInDatabase
  {
    predicate Success() { FaceAdded? || FaceRemoved? }

    function Message(): string {
      match this
      case FaceAdded => "Face added successfully"
      case FaceRemoved => "Face removed successfully"
      case NoFaceDetected => "No face detected in the image"
      case MultipleFacesDetected => "Multiple faces detected. Please provide an image with a single face"
      case ProcessingFailed(reason) => "Error processing face: " + reason
      case NotInDatabase => "Student not found in face database"
    }
  }

  // ---------------------------------------------------------------------
  // Persistence
  // ---------------------------------------------------------------------

  /** `save_known_faces`: the dict written to the pickle file. */
  function Save(s: Store): (b: Blob)
    ensures b.encodings.Some? && b.names.Some? && b.ids.Some?
  {
    Blob(Some(s.encodings), Some(s.names), Some(s.ids))
  }

  /** `load_known_faces` on a fresh manager: a missing or unreadable file leaves
      the lists empty, and a missing key reads as an empty list. */
  function Load(file: Option<Blob>): (s: Store)
    ensures file.None? ==> s == EmptyStore
    ensures file.Some? && file.value.ids.Some? ==> s.ids == file.value.ids.value
  {
    match file
    case None => EmptyStore
    case Some(b) => Store(b.encodings.GetOr([]), b.names.GetOr([]), b.ids.GetOr([]))
  }

  /** Construction of the manager: memory starts as whatever the file holds. */
  function Open(file: Option<Blob>): Manager {
    Manager(Load(file), file)
  }

  /** Memory agrees with the file: reopening the manager would restore the same lists. */
  predicate Persisted(m: Manager) {
    Load(m.file) == m.memory
  }

  lemma SaveLoadRoundTrip(s: Store)
    ensures Load(Some(Save(s))) == s
    ensures Persisted(Manager(s, Some(Save(s))))
  {
  }

  /** The loader does not check alignment: a file lacking the 'names' key
      yields lists of different lengths as soon as any face is stored. */
  lemma LoadMayMisalign(e: Encoding, id: string)
    ensures !Aligned(Load(Some(Blob(Some([e]), None, Some([id])))))
  {
  }

  // ---------------------------------------------------------------------
  // Index helpers
  // ---------------------------------------------------------------------

  /** `ids.index(id)`: the first position holding `id`, `None` when absent. */
  function IndexOf(ids: seq<string>, id: string): (r: Option<nat>)
    ensures r.None? <==> id !in ids
    ensures r.Some? ==> r.value < |ids| && ids[r.value] == id
    ensures r.Some? ==> forall j :: 0 <= j < r.value ==> ids[j] != id
  {
    if |ids| == 0 then None
    else if ids[0] == id then Some(0)
    else
      match IndexOf(ids[1..], id)
      case None => None
      case Some(k) => Some(k + 1)
  }

  function Without<T>(s: seq<T>, i: nat): (r: seq<T>)
    requires i < |s|
    ensures |r| == |s| - 1
    ensures r[..i] == s[..i] && r[i..] == s[i + 1..]
  {
    s[..i] + s[i + 1..]
  }

  /** Pops index `i` from all three lists. */
  function RemoveAt(s: Store, i: nat): (r: Store)
    requires Aligned(s) && i < |s.ids|
    ensures Aligned(r) && |r.ids| == |s.ids| - 1
  {
    Store(Without(s.encodings, i), Without(s.names, i), Without(s.ids, i))
  }

  // ---------------------------------------------------------------------
  // Operations
  // ---------------------------------------------------------------------

  /** `add_student_face`: enrol the single face found in a photo. */
  function AddStudentFace(m: Manager, detection: Detection, studentId: string, name: string): (r: (Manager, FaceOutcome))
    ensures Aligned(m.memory) ==> Aligned(r.0.memory)
    ensures r.1.Success() <==> detection.Detected? && |detection.faces| == 1
    ensures r.1.Success() ==> r.1 == FaceAdded
    ensures detection.DetectionFailed? ==> r.1 == ProcessingFailed(detection.reason)
    ensures detection.Detected? && |detection.faces| == 0 ==> r.1 == NoFaceDetected
    ensures detection.Detected? && |detection.faces| > 1 ==> r.1 == MultipleFacesDetected
    // a failed enrolment changes neither memory nor file
    ensures !r.1.Success() ==> r.0 == m
    // a successful one appends one triple, keeps every earlier one, and is written out
    ensures r.1.Success() ==>
      && r.0.memory.encodings == m.memory.encodings + [detection.faces[0]]
      && r.0.memory.names == m.memory.names + [name]
      && r.0.memory.ids == m.memory.ids + [studentId]
      && Persisted(r.0)
  {
    match detection
    case DetectionFailed(reason) => (m, ProcessingFailed(reason))
    case Detected(faces) =>
      if |faces| == 0 then (m, NoFaceDetected)
      else if |faces| > 1 then (m, MultipleFacesDetected)
      else
        var s := m.memory;
        var s' := Store(s.encodings + [faces[0]], s.names + [name], s.ids + [studentId]);
        (Manager(s', Some(Save(s'))), FaceAdded)
  }

  /** `remove_student_face`: drop the first enrolment of `studentId`. */
  function RemoveStudentFace(m: Manager, studentId: string): (r: (Manager, FaceOutcome))
    requires Aligned(m.memory)
    ensures Aligned(r.0.memory)
    ensures studentId !in m.memory.ids ==> r == (m, NotInDatabase)
    ensures studentId in m.memory.ids ==>
      && r.1 == FaceRemoved
      && Persisted(r.0)
      && exists i :: 0 <= i < |m.memory.ids| && m.memory.ids[i] == studentId
           && (forall j :: 0 <= j < i ==> m.memory.ids[j] != studentId)
           && r.0.memory.ids == m.memory.ids[..i] + m.memory.ids[i + 1..]
           && r.0.memory.names == m.memory.names[..i] + m.memory.names[i + 1..]
           && r.0.memory.encodings == m.memory.encodings[..i] + m.memory.encodings[i + 1..]
  {
    match IndexOf(m.memory.ids, studentId)
    case None => (m, NotInDatabase)
    case Some(i) =>
      var s' := RemoveAt(m.memory, i);
      (Manager(s', Some(Save(s'))), FaceRemoved)
  }

  /** Removing deletes exactly one occurrence of the id and nothing else. */
  lemma RemoveDropsOneOccurrence(m: Manager, studentId: string)
    requires Aligned(m.memory) && studentId in m.memory.ids
    ensures multiset(RemoveStudentFace(m, studentId).0.memory.ids)
            == multiset(m.memory.ids) - multiset{studentId}
  {
    var i := IndexOf(m.memory.ids, studentId).value;
    var ids := m.memory.ids;
    assert ids == ids[..i] + [ids[i]] + ids[i + 1..];
    assert multiset(ids) == multiset(ids[..i]) + multiset{studentId} + multiset(ids[i + 1..]);
  }

  /** `update_student_face`: pop the first enrolment (memory only), then enrol the
      new photo under the popped name. When the new photo is rejected the entry
      stays removed in memory while the file still holds it. */
  function UpdateStudentFace(m: Manager, studentId: string, detection: Detection): (r: (Manager, FaceOutcome))
    requires Aligned(m.memory)
    ensures Aligned(r.0.memory)
    ensures studentId !in m.memory.ids ==> r == (m, NotInDatabase)
    ensures studentId in m.memory.ids ==>
      var i := IndexOf(m.memory.ids, studentId).value;
      var removed := RemoveAt(m.memory, i);
      && (r.1.Success() <==> detection.Detected? && |detection.faces| == 1)
      && (r.1.Success() ==>
            r.0.memory == Store(removed.encodings + [detection.faces[0]],
                                removed.names + [m.memory.names[i]],
                                removed.ids + [studentId])
            && Persisted(r.0))
      && (!r.1.Success() ==> r.0 == Manager(removed, m.file))
  {
    match IndexOf(m.memory.ids, studentId)
    case None => (m, NotInDatabase)
    case Some(i) =>
      var name := m.memory.names[i];
      AddStudentFace(Manager(RemoveAt(m.memory, i), m.file), detection, studentId, name)
  }

  /** A rejected re-enrolment leaves memory and file out of step: the face is
      gone from memory but would come back after a restart. */
  lemma UpdateFailureDiverges(m: Manager, studentId: string, detection: Detection)
    requires Aligned(m.memory) && Persisted(m) && studentId in m.memory.ids
    requires !(detection.Detected? && |detection.faces| == 1)
    ensures !Persisted(UpdateStudentFace(m, studentId, detection).0)
  {
    var r := UpdateStudentFace(m, studentId, detection).0;
    assert |r.memory.ids| == |m.memory.ids| - 1;
    assert Load(r.file) == m.memory;
  }

  /** Re-enrolling keeps the number of enrolled faces and moves the student's entry to the end. */
  lemma UpdateMovesEntryToEnd(m: Manager, studentId: string, face: Encoding)
    requires Aligned(m.memory) && studentId in m.memory.ids
    ensures var r := UpdateStudentFace(m, studentId, Detected([face]));
      && r.1 == FaceAdded
      && |r.0.memory.ids| == |m.memory.ids|
      && r.0.memory.ids[|r.0.memory.ids| - 1] == studentId
      && r.0.memory.encodings[|r.0.memory.ids| - 1] == face
  {
  }
}

=== FILE: file_validator.dfy ===
/**
 * `FileValidator`: the extension whitelist and the order of the checks
 * `validate_file` applies to an upload. Werkzeug's `secure_filename`, MIME
 * detection (python-magic) and the image integrity check (PIL) are
 * parameters; the upload is given by its filename and size.
 */
module FileValidator {
  import opened Wrappers
  import opened Text

  const AllowedExtensions: set<string> := {"png", "jpg", "jpeg", "gif"}

  /** `MAX_CONTENT_LENGTH`: 16 MiB. */
  const MaxContentLength: nat := 16 * 1024 * 1024

  /** `_is_allowed_extension`: the text after the last dot, lower-cased, is whitelisted. */
  function IsAllowedExtension(name: string, allowed: set<string>): (r: bool)
    ensures '.' !in name ==> !r
    ensures r ==> exists i :: 0 <= i < |name| && name[i] == '.' && Lower(name[i + 1..]) in allowed
  {
    if '.' !in name then false
    else
      var ext := AfterLast(name, '.');
      assert name[|name| - |ext| - 1] == '.' && name[|name| - |ext|..] == ext;
      Lower(ext) in allowed
  }

  /** For a base name and an extension without dots, the verdict depends on the extension alone. */
  lemma ExtensionDecides(base: string, ext: string, allowed: set<string>)
    requires '.' !in ext
    ensures IsAllowedExtension(base + "." + ext, allowed) <==> Lower(ext) in allowed
  {
    var name := base + "." + ext;
    assert name[|base|] == '.';
    var r := AfterLast(name, '.');
    assert r == ext;
  }

  /** Only the last extension counts: an allowed one before it changes nothing. */
  lemma OnlyLastExtensionCounts(base: string, inner: string, ext: string, allowed: set<string>)
    requires '.' !in ext
    ensures IsAllowedExtension(base + "." + inner + "." + ext, allowed) <==> Lower(ext) in allowed
  {
    ExtensionDecides(base + "." + inner, ext, allowed);
  }

  /** Case does not matter: an extension is allowed exactly when its lower-case form is. */
  lemma ExtensionCaseInsensitive(base: string, ext: string, allowed: set<string>)
    requires '.' !in ext
    ensures IsAllowedExtension(base + "." + ext, allowed) <==> IsAllowedExtension(base + "." + Lower(ext), allowed)
  {
    ExtensionDecides(base, ext, allowed);
    ExtensionDecides(base, Lower(ext), allowed);
    assert Lower(Lower(ext)) == Lower(ext);
  }

  datatype Upload = Upload(filename: string, size: nat)

  /** What MIME detection made of the first kilobyte, or that it raised. */
  datatype MimeDetection = Detected(mimeType: string) | DetectionFailed

  datatype Validation = Accepted(filename: string, size: nat, mimeType: string) | Rejected(message: string)

  const NoFileMessage := "No file provided"
  const TooLargeMessage := "File too large. Maximum size: 16.0MB"
  const CorruptImageMessage := "Invalid or corrupted image file"

  function ExtensionMessage(listing: seq<string>): string {
    "File type not allowed. Allowed types: " + Join(listing, ", ")
  }

  function MimeMessage(m: string): string {
    "MIME type " + m + " not allowed"
  }

  predicate IsImageType(m: string) {
    |m| >= 6 && m[..6] == "image/"
  }

  /** Every check passes, stated without their order. */
  predicate Acceptable(file: Option<Upload>, allowedTypes: seq<string>, secure: string -> string,
                       mime: MimeDetection, imageIntact: bool)
  {
    && file.Some? && file.value.filename != ""
    && file.value.size <= MaxContentLength
    && IsAllowedExtension(secure(file.value.filename), AllowedExtensions)
    && (mime.Detected? ==> |allowedTypes| == 0 || mime.mimeType in allowedTypes)
    && (mime.Detected? && IsImageType(mime.mimeType) ==> imageIntact)
  }

  /** `validate_file`. `allowedTypes` empty stands for both `None` and `[]`;
      `listing` is the whitelist in the order the set iterates. */
  function ValidateFile(file: Option<Upload>, allowedTypes: seq<string>, secure: string -> string,
                        listing: seq<string>, mime: MimeDetection, imageIntact: bool): (r: Validation)
    ensures r.Accepted? <==> Acceptable(file, allowedTypes, secure, mime, imageIntact)
    ensures r.Accepted? ==>
      && r.filename == secure(file.value.filename)
      && r.size == file.value.size
      && r.mimeType == (if mime.Detected? then mime.mimeType else "unknown")
    // the order of the checks
    ensures file.None? || file.value.filename == "" ==> r == Rejected(NoFileMessage)
    ensures file.Some? && file.value.filename != "" && file.value.size > MaxContentLength ==>
      r == Rejected(TooLargeMessage)
    ensures (file.Some? && file.value.filename != "" && file.value.size <= MaxContentLength
             && !IsAllowedExtension(secure(file.value.filename), AllowedExtensions)) ==>
      r == Rejected(ExtensionMessage(listing))
    ensures (file.Some? && file.value.filename != "" && file.value.size <= MaxContentLength
             && IsAllowedExtension(secure(file.value.filename), AllowedExtensions)
             && mime.Detected? && |allowedTypes| > 0 && mime.mimeType !in allowedTypes) ==>
      r == Rejected(MimeMessage(mime.mimeType))
    // a failed detection falls back to the extension verdict
    ensures mime.DetectionFailed? && file.Some? && file.value.filename != "" ==>
      (r.Accepted? <==> file.value.size <= MaxContentLength
                        && IsAllowedExtension(secure(file.value.filename), AllowedExtensions))
  {
    if file.None? || file.value.filename == "" then Rejected(NoFileMessage)
    else
      var name := secure(file.value.filename);
      var size := file.value.size;
      if size > MaxContentLength then Rejected(TooLargeMessage)
      else if !IsAllowedExtension(name, AllowedExtensions) then Rejected(ExtensionMessage(listing))
      else
        match mime
        case DetectionFailed => Accepted(name, size, "unknown")
        case Detected(m) =>
          if |allowedTypes| > 0 && m !in allowedTypes then Rejected(MimeMessage(m))
          else if IsImageType(m) && !imageIntact then Rejected(CorruptImageMessage)
          else Accepted(name, size, m)
  }
}

=== FILE: matching.dfy ===
/**
 * Group recognition (`recognize_faces_in_image`): every face detected in a
 * photo is compared with every enrolled encoding; the nearest one is taken
 * when it lies within the tolerance, and its confidence is 1 - distance.
 *
 * The face library's `face_distance` is modelled by a given distance
 * function and `compare_faces` by "distance <= tolerance", which is how the
 * library defines it.
 */
module Matching {
  import opened Wrappers
  import opened FaceStore

  /** FACE_RECOGNITION_TOLERANCE. */
  const Tolerance: real := 0.6

  /** One recognised face. */
  datatype Match = Match(studentId: string, studentName: string, confidence: real)

  /** The recognition report; on failure the route also reports zero counts. */
  datatype Recognition =
    | Recognised(totalFaces: nat, students: seq<Match>, unrecognised: nat)
    | RecognitionFailed(error: string)

  /** `face_distance(known, probe)`: one distance per enrolled encoding, in store order. */
  function FaceDistance(known: seq<Encoding>, probe: Encoding, distance: (Encoding, Encoding) -> real): (ds: seq<real>)
    ensures |ds| == |known|
    ensures forall i :: 0 <= i < |known| ==> ds[i] == distance(known[i], probe)
  {
    seq(|known|, i requires 0 <= i < |known| => distance(known[i], probe))
  }

  /** `compare_faces(known, probe, tolerance)`: which enrolled encodings lie within tolerance. */
  function CompareFaces(ds: seq<real>, tol: real): (matches: seq<bool>)
    ensures |matches| == |ds|
    ensures forall i :: 0 <= i < |ds| ==> (matches[i] <==> ds[i] <= tol)
  {
    seq(|ds|, i requires 0 <= i < |ds| => ds[i] <= tol)
  }

  /** `b` is where `np.argmin(ds)` lands: a minimal distance, and the first such one. */
  predicate IsArgMin(ds: seq<real>, b: int) {
    && 0 <= b < |ds|
    && (forall j :: 0 <= j < |ds| ==> ds[b] <= ds[j])
    && (forall j :: 0 <= j < b ==> ds[b] < ds[j])
  }

  function ArgMin(ds: seq<real>): (b: nat)
    requires |ds| > 0
    ensures IsArgMin(ds, b)
  {
    if |ds| == 1 then 0
    else
      var k := ArgMin(ds[..|ds| - 1]);
      if ds[|ds| - 1] < ds[k] then |ds| - 1 else k
  }

  /** The body of the per-face loop. */
  function MatchFace(store: Store, ds: seq<real>, tol: real): (r: Option<Match>)
    requires Aligned(store) && |ds| == |store.ids|
    // recognised exactly when some enrolled face lies within tolerance
    ensures r.Some? <==> exists j :: 0 <= j < |ds| && ds[j] <= tol
    // and then it is the nearest one, ties going to the lowest index
    ensures r.Some? ==> exists b :: (IsArgMin(ds, b)
      && r.value == Match(store.ids[b], store.names[b], 1.0 - ds[b]))
    ensures r.Some? ==> r.value.confidence >= 1.0 - tol
  {
    var matches := CompareFaces(ds, tol);
    if |ds| > 0 && true in matches then
      var b := ArgMin(ds);
      if matches[b] then Some(Match(store.ids[b], store.names[b], 1.0 - ds[b]))
      else None
    else None
  }

  /** The second test in `recognize_faces`, `matches[best_match_index]`, never fails once
      some face is within tolerance: the nearest face is then within it too. */
  lemma InnerToleranceCheckRedundant(ds: seq<real>, tol: real)
    requires true in CompareFaces(ds, tol)
    ensures CompareFaces(ds, tol)[ArgMin(ds)]
  {
    var m := CompareFaces(ds, tol);
    var j :| 0 <= j < |m| && m[j];
    assert ds[ArgMin(ds)] <= ds[j];
  }

  /** Reference definition: the matches of the probes, in probe order, without deduplication. */
  function MatchAll(store: Store, probes: seq<Encoding>, distance: (Encoding, Encoding) -> real, tol: real): (r: seq<Match>)
    requires Aligned(store)
    ensures |r| <= |probes|
    ensures forall i :: 0 <= i < |r| ==> r[i].studentId in store.ids && r[i].confidence >= 1.0 - tol
  {
    if |probes| == 0 then []
    else
      var last := probes[|probes| - 1];
      var earlier := MatchAll(store, probes[..|probes| - 1], distance, tol);
      match MatchFace(store, FaceDistance(store.encodings, last, distance), tol)
      case None => earlier
      case Some(m) => earlier + [m]
  }

  /** `recognize_faces_in_image` on the faces detection returned. */
  method RecognizeFaces(store: Store, detection: Detection, distance: (Encoding, Encoding) -> real, tol: real)
    returns (r: Recognition)
    requires Aligned(store)
    ensures detection.DetectionFailed? ==> r == RecognitionFailed(detection.reason)
    ensures detection.Detected? ==>
      && r.Recognised?
      && r.totalFaces == |detection.faces|
      && r.students == MatchAll(store, detection.faces, distance, tol)
      && r.totalFaces == |r.students| + r.unrecognised
  {
    match detection
    case DetectionFailed(reason) =>
      return RecognitionFailed(reason);
    case Detected(faces) =>
      var recognised: seq<Match> := [];
      var unrecognised: nat := |faces|;
      var k := 0;
      while k < |faces|
        invariant 0 <= k <= |faces|
        invariant recognised == MatchAll(store, faces[..k], distance, tol)
        invariant unrecognised == |faces| - |recognised|
      {
        assert faces[..k + 1][..k] == faces[..k];
        var ds := FaceDistance(store.encodings, faces[k], distance);
        var m := MatchFace(store, ds, tol);
        if m.Some? {
          recognised := recognised + [m.value];
          unrecognised := unrecognised - 1;
        }
        k := k + 1;
      }
      assert faces[..|faces|] == faces;
      return Recognised(|faces|, recognised, unrecognised);
  }

  /** With nothing enrolled, no face is ever recognised. */
  lemma {:induction false} EmptyStoreRecognisesNobody(store: Store, probes: seq<Encoding>, distance: (Encoding, Encoding) -> real, tol: real)
    requires Aligned(store) && |store.ids| == 0
    ensures MatchAll(store, probes, distance, tol) == []
  {
    if |probes| > 0 {
      EmptyStoreRecognisesNobody(store, probes[..|probes| - 1], distance, tol);
    }
  }

  /** Two faces of the same student in one photo are both reported. */
  lemma DuplicatesAreKept(store: Store, p: Encoding, q: Encoding, distance: (Encoding, Encoding) -> real, tol: real, m: Match)
    requires Aligned(store)
    requires MatchFace(store, FaceDistance(store.encodings, p, distance), tol) == Some(m)
    requires MatchFace(store, FaceDistance(store.encodings, q, distance), tol) == Some(m)
    ensures MatchAll(store, [p, q], distance, tol) == [m, m]
  {
    assert [p, q][..1] == [p];
    assert [p][..0] == [];
  }

  /** A probe identical to the only enrolled face is recognised with confidence 1. */
  lemma ExactFaceFullConfidence(e: Encoding, id: string, name: string, distance: (Encoding, Encoding) -> real)
    requires distance(e, e) == 0.0
    ensures MatchFace(Store([e], [name], [id]), FaceDistance([e], e, distance), Tolerance)
            == Some(Match(id, name, 1.0))
  {
    var ds := FaceDistance([e], e, distance);
    assert ds[0] == 0.0;
  }

  /** With non-negative distances a recognised face has confidence in [1 - tol, 1]. */
  lemma {:induction false} ConfidenceBounds(store: Store, probes: seq<Encoding>, distance: (Encoding, Encoding) -> real, tol: real)
    requires Aligned(store)
    requires forall a, b :: distance(a, b) >= 0.0
    ensures forall m :: m in MatchAll(store, probes, distance, tol) ==> 1.0 - tol <= m.confidence <= 1.0
  {
    if |probes| > 0 {
      var last := probes[|probes| - 1];
      ConfidenceBounds(store, probes[..|probes| - 1], distance, tol);
      var ds := FaceDistance(store.encodings, last, distance);
      var r := MatchFace(store, ds, tol);
      if r.Some? {
        var b :| IsArgMin(ds, b) && r.value == Match(store.ids[b], store.names[b], 1.0 - ds[b]);
        assert ds[b] == distance(store.encodings[b], last);
      }
    }
  }
}

=== FILE: ocr.dfy ===
/**
 * The text side of `OCRProcessor`: reading the fields of a student enrolment
 * form out of the text Tesseract produced, cleaning them and validating them.
 * Image preprocessing and the OCR engine are outside the model; an image is
 * represented by the text (or the error) extraction gave for it, and
 * `parse_date` is a given function.
 */
module Ocr {
  import opened Wrappers
  import opened Text

  datatype Field =
    | StudentName | FatherName | MotherName | RollNumber | StudentId
    | ClassName | Section | DateOfBirth | Address | Phone
  {
    /** The dict key `parse_student_form` uses for the field. */
    function Key(): string {
      match this
      case StudentName => "student_name"
      case FatherName => "father_name"
      case MotherName => "mother_name"
      case RollNumber => "roll_number"
      case StudentId => "student_id"
      case ClassName => "class"
      case Section => "section"
      case DateOfBirth => "date_of_birth"
      case Address => "address"
      case Phone => "phone"
    }

    /** The label patterns for the field, in the order they are tried. */
    function Patterns(): seq<string> {
      match this
      case StudentName => ["name", "student name", "full name"]
      case FatherName => ["father", "father name", "father's name"]
      case MotherName => ["mother", "mother name", "mother's name"]
      case RollNumber => ["roll", "roll no", "roll number"]
      case StudentId => ["student id", "id", "admission no"]
      case ClassName => ["class", "standard", "grade"]
      case Section => ["section", "division"]
      case DateOfBirth => ["dob", "date of birth", "birth date"]
      case Address => ["address", "residence"]
      case Phone => ["phone", "mobile", "contact"]
    }
  }

  /** The fields in the order the parser visits them. */
  const AllFields: seq<Field> :=
    [StudentName, FatherName, MotherName, RollNumber, StudentId, ClassName, Section, DateOfBirth, Address, Phone]

  const Separators: seq<char> := [':', '-', '=', '|']

  type FormData = map<Field, string>

  // ---------------------------------------------------------------------
  // extract_value_after_pattern
  // ---------------------------------------------------------------------

  /** One separator: when it occurs, keep only the stripped text after its last occurrence. */
  function DropSeparator(s: string, c: char): (r: string)
    ensures c !in r
    ensures Contains(s, r) && forall x :: x in r ==> x in s
    ensures c !in s ==> r == s
  {
    if c in s then
      var a := AfterLast(s, c);
      assert MatchesAt(s, a, |s| - |a|);
      ContainsTrans(s, a, Strip(a));
      ContainsChars(a, Strip(a));
      ContainsChars(s, Strip(a));
      Strip(a)
    else
      assert MatchesAt(s, s, 0);
      s
  }

  /** The separators in the order given. */
  function DropSeparators(s: string, seps: seq<char>): (r: string)
    ensures forall c :: c in seps ==> c !in r
    ensures Contains(s, r)
    ensures (forall c :: c in seps ==> c !in s) ==> r == s
  {
    if |seps| == 0 then
      assert MatchesAt(s, s, 0);
      s
    else
      var s1 := DropSeparator(s, seps[0]);
      var r := DropSeparators(s1, seps[1..]);
      ContainsTrans(s, s1, r);
      ContainsChars(s1, r);
      r
  }

  /** `extract_value_after_pattern`: the stripped text after the first occurrence
      of the pattern in the lower-cased line, with separators dropped, kept only
      when it is non-empty and shorter than 100 characters. */
  function ExtractValueAfterPattern(line: string, pattern: string): (r: Option<string>)
    ensures !Contains(Lower(line), pattern) ==> r.None?
    ensures r.Some? ==>
      && 0 < |r.value| < 100
      && Stripped(r.value)
      && (forall c :: c in Separators ==> c !in r.value)
      // a piece of the line itself, with its original case
      && Contains(line, r.value)
  {
    match Find(Lower(line), pattern)
    case None => None
    case Some(pos) => Kept(ValueAfter(line, pos + |pattern|))
  }

  /** A value is kept when it is non-empty and shorter than 100 characters. */
  function Kept(v: string): Option<string> {
    if 0 < |v| < 100 then Some(v) else None
  }

  /** A label followed by a separator and a value: with any whitespace around the
      separator, the value is what the first occurrence of the label yields. */
  lemma ExtractFindsValue(line: string, pattern: string, k: nat, g1: string, c: char, g2: string, v: string)
    requires MatchesAt(Lower(line), pattern, k)
    requires forall j :: 0 <= j < k ==> !MatchesAt(Lower(line), pattern, j)
    // the line is the text up to the end of the label, then g1 c g2 v
    requires line == line[..k + |pattern|] + (g1 + [c] + g2 + v)
    requires c in Separators
    requires forall i :: 0 <= i < |g1| ==> IsSpace(g1[i])
    requires forall i :: 0 <= i < |g2| ==> IsSpace(g2[i])
    requires |v| > 0 && Stripped(v) && forall d :: d in Separators ==> d !in v
    ensures ExtractValueAfterPattern(line, pattern) == if |v| < 100 then Some(v) else None
  {
    FindFirst(Lower(line), pattern, k);
    ExtractAt(line, pattern);
    var rest := g1 + [c] + g2 + v;
    DropPrefix(line, line[..k + |pattern|], rest, Find(Lower(line), pattern).value + |pattern|);
    SeparatorsAreNotSpaces();
    CleanedAfterLabel(rest, g1, c, g2, v, Separators);
  }

  /** Where the label is found, the value is the cleaned text after its first occurrence. */
  lemma ExtractAt(line: string, pattern: string)
    requires Find(Lower(line), pattern).Some?
    ensures Find(Lower(line), pattern).value + |pattern| <= |line|
    ensures ExtractValueAfterPattern(line, pattern) ==
      Kept(ValueAfter(line, Find(Lower(line), pattern).value + |pattern|))
  {
  }

  lemma CleanedAfterLabel(rest: string, g1: string, c: char, g2: string, v: string, seps: seq<char>)
    requires rest == g1 + [c] + g2 + v
    requires c in seps
    requires forall i :: 0 <= i < |g1| ==> IsSpace(g1[i])
    requires forall i :: 0 <= i < |g2| ==> IsSpace(g2[i])
    requires forall d :: d in seps ==> !IsSpace(d) && d !in v
    requires |v| > 0 && Stripped(v)
    ensures Strip(DropSeparators(Strip(rest), seps)) == v
  {
    calc {
      Strip(DropSeparators(Strip(rest), seps));
      { StripBeforeSeparator(rest, g1, c, g2, v); }
      Strip(DropSeparators([c] + g2 + v, seps));
      { DropSeparatorsAfterOne(c, g2, v, seps); }
      Strip(v);
    }
  }

  /** Stripping the text after a label removes only the whitespace before the separator. */
  lemma StripBeforeSeparator(rest: string, g1: string, c: char, g2: string, v: string)
    requires rest == g1 + [c] + g2 + v
    requires !IsSpace(c)
    requires forall i :: 0 <= i < |g1| ==> IsSpace(g1[i])
    requires |v| > 0 && Stripped(v)
    ensures Strip(rest) == [c] + g2 + v
  {
    var x := [c] + g2 + v;
    Regroup(g1, [c], g2);
    Regroup(g1, [c] + g2, v);
    assert x[0] == c && x[|x| - 1] == v[|v| - 1];
    StripPadded(g1, x);
  }

  lemma Regroup(a: string, b: string, c: string)
    ensures a + b + c == a + (b + c)
  {
  }

  lemma SeparatorsAreNotSpaces()
    ensures forall d :: d in Separators ==> !IsSpace(d)
  {
  }

  /** Dropping the separators from `c`, whitespace and a separator-free value leaves the value. */
  lemma {:induction false} DropSeparatorsAfterOne(c: char, g: string, v: string, seps: seq<char>)
    requires c in seps
    requires forall i :: 0 <= i < |g| ==> IsSpace(g[i])
    requires forall d :: d in seps ==> !IsSpace(d) && d !in v
    requires |v| > 0 && Stripped(v)
    ensures DropSeparators([c] + g + v, seps) == v
  {
    var x := [c] + g + v;
    if seps[0] == c {
      calc {
        DropSeparators(x, seps);
        DropSeparators(DropSeparator(x, c), seps[1..]);
        { DropTheSeparator(c, g, v); }
        DropSeparators(v, seps[1..]);
      }
    } else {
      calc {
        DropSeparators(x, seps);
        DropSeparators(DropSeparator(x, seps[0]), seps[1..]);
        { NotInSpaces(seps[0], g); NotInPiece(seps[0], c, g, v); }
        DropSeparators(x, seps[1..]);
        { DropSeparatorsAfterOne(c, g, v, seps[1..]); }
        v;
      }
    }
  }

  lemma NotInSpaces(d: char, g: string)
    requires !IsSpace(d)
    requires forall i :: 0 <= i < |g| ==> IsSpace(g[i])
    ensures d !in g
  {
  }

  lemma NotInPiece(d: char, c: char, g: string, v: string)
    requires d != c && d !in g && d !in v
    ensures d !in [c] + g + v
  {
  }

  lemma DropTheSeparator(c: char, g: string, v: string)
    requires !IsSpace(c) && c !in v
    requires forall i :: 0 <= i < |g| ==> IsSpace(g[i])
    requires |v| > 0 && Stripped(v)
    ensures DropSeparator([c] + g + v, c) == v
  {
    AfterLastOf([], c, g + v);
    assert [] + [c] + (g + v) == [c] + g + v;
    StripPadded(g, v);
  }

  /** What stripping, dropping the separators and stripping again leaves of a text. */
  lemma CleanPiece(after: string, seps: seq<char>)
    ensures var v := Strip(DropSeparators(Strip(after), seps));
      && Stripped(v)
      && (forall c :: c in seps ==> c !in v)
      && Contains(after, v)
  {
    var d := DropSeparators(Strip(after), seps);
    ContainsTrans(after, Strip(after), d);
    ContainsTrans(after, d, Strip(d));
    ContainsChars(d, Strip(d));
  }

  /** The text of the line after `start`: stripped, separators dropped, stripped again. */
  function ValueAfter(line: string, start: nat): (v: string)
    requires start <= |line|
    ensures Stripped(v)
    ensures forall c :: c in Separators ==> c !in v
    ensures Contains(line, v)
  {
    PieceOfLine(line, start, Separators);
    Strip(DropSeparators(Strip(line[start..]), Separators))
  }

  /** The cleaned tail of a line is a piece of the line. */
  lemma PieceOfLine(line: string, start: nat, seps: seq<char>)
    requires start <= |line|
    ensures var v := Strip(DropSeparators(Strip(line[start..]), seps));
      && Stripped(v)
      && (forall c :: c in seps ==> c !in v)
      && Contains(line, v)
  {
    CleanPiece(line[start..], seps);
    ContainsTail(line, start, Strip(DropSeparators(Strip(line[start..]), seps)));
  }

  // ---------------------------------------------------------------------
  // parse_student_form
  // ---------------------------------------------------------------------

  /** The first pattern of `ps` that `s` contains. */
  function FirstPattern(ps: seq<string>, s: string): (r: Option<string>)
    ensures r.None? <==> forall i :: 0 <= i < |ps| ==> !Contains(s, ps[i])
    ensures r.Some? ==> exists i :: (0 <= i < |ps| && ps[i] == r.value && Contains(s, ps[i])
      && forall j :: 0 <= j < i ==> !Contains(s, ps[j]))
  {
    if |ps| == 0 then None
    else if Contains(s, ps[0]) then Some(ps[0])
    else
      var r := FirstPattern(ps[1..], s);
      assert forall i :: 1 <= i < |ps| ==> ps[i] == ps[1..][i - 1];
      if r.Some? then
        var i :| 0 <= i < |ps[1..]| && ps[1..][i] == r.value && Contains(s, ps[1..][i])
          && forall j :: 0 <= j < i ==> !Contains(s, ps[1..][j]);
        assert ps[i + 1] == r.value && forall j :: 0 <= j < i + 1 ==> !Contains(s, ps[j]);
        r
      else r
  }

  /** What one line yields for one field: only the first pattern the stripped,
      lower-cased line contains is tried, even when it yields nothing. */
  function LineValue(line: string, f: Field): (r: Option<string>)
    ensures r.Some? ==> 0 < |r.value| < 100
  {
    match FirstPattern(f.Patterns(), Strip(Lower(line)))
    case None => None
    case Some(p) => ExtractValueAfterPattern(line, p)
  }

  /** How one line is read for one field; the parser uses `LineValue`. */
  type Reader = (string, Field) -> Option<string>

  /** The inner loop over the fields for one line: a field already read is never overwritten. */
  function ParseFields(line: string, fs: seq<Field>, acc: FormData, read: Reader): (r: FormData)
    ensures forall f :: f in acc ==> f in r && r[f] == acc[f]
    ensures forall f :: f in r && f !in acc ==> f in fs && read(line, f) == Some(r[f])
    ensures forall f :: f in fs && f !in acc && read(line, f).Some? ==> f in r
    decreases |fs|
  {
    if |fs| == 0 then acc
    else
      var f := fs[0];
      var acc' := match read(line, f)
        case Some(v) => if f in acc then acc else acc[f := v]
        case None => acc;
      var r := ParseFields(line, fs[1..], acc', read);
      assert forall g :: g in fs[1..] ==> g in fs;
      r
  }

  /** The outer loop over the lines. */
  function ParseLines(lines: seq<string>, acc: FormData, read: Reader): FormData
    decreases |lines|
  {
    if |lines| == 0 then acc
    else ParseLines(lines[1..], ParseFields(lines[0], AllFields, acc, read), read)
  }

  /** Reference definition: the value of the first line that yields one for `f`. */
  function FirstLineValue(lines: seq<string>, f: Field, read: Reader): (r: Option<string>)
    ensures r.None? <==> forall i :: 0 <= i < |lines| ==> read(lines[i], f).None?
    ensures r.Some? ==> exists i :: (0 <= i < |lines| && read(lines[i], f) == r
      && forall j :: 0 <= j < i ==> read(lines[j], f).None?)
  {
    if |lines| == 0 then None
    else if read(lines[0], f).Some? then read(lines[0], f)
    else
      var r := FirstLineValue(lines[1..], f, read);
      assert forall i :: 1 <= i < |lines| ==> lines[i] == lines[1..][i - 1];
      if r.Some? then
        var i :| 0 <= i < |lines[1..]| && read(lines[1..][i], f) == r
          && forall j :: 0 <= j < i ==> read(lines[1..][j], f).None?;
        assert read(lines[i + 1], f) == r && forall j :: 0 <= j < i + 1 ==> read(lines[j], f).None?;
        r
      else r
  }

  lemma AllFieldsListed(f: Field)
    ensures f in AllFields
  {
  }

  /** First value wins: the parsed form keeps a field read before, holds for any
      other field the value of the first line that yields one, and holds nothing
      for a field no line yields. */
  lemma {:induction false} ParseLinesFirstWins(lines: seq<string>, acc: FormData, read: Reader, f: Field)
    ensures f in acc ==> f in ParseLines(lines, acc, read) && ParseLines(lines, acc, read)[f] == acc[f]
    ensures f !in acc ==>
      && (f in ParseLines(lines, acc, read) <==> FirstLineValue(lines, f, read).Some?)
      && (f in ParseLines(lines, acc, read) ==> ParseLines(lines, acc, read)[f] == FirstLineValue(lines, f, read).value)
    decreases |lines|
  {
    if |lines| > 0 {
      var acc1 := ParseFields(lines[0], AllFields, acc, read);
      ParseLinesFirstWins(lines[1..], acc1, read, f);
      if f !in acc {
        AllFieldsListed(f);
        assert f in acc1 <==> read(lines[0], f).Some?;
      }
    }
  }


  /** The part of `parse_student_form` before cleaning. */
  function RawFormData(text: string): FormData {
    ParseLines(Split(text, '\n'), map[], LineValue)
  }

  // ---------------------------------------------------------------------
  // clean_form_data
  // ---------------------------------------------------------------------

  predicate IsNameField(f: Field) { f == StudentName || f == FatherName || f == MotherName }

  predicate LetterOrSpace(c: char) { IsAlpha(c) || IsSpace(c) }

  /** Letters and spaces kept, then whitespace runs collapsed to single spaces. */
  function CleanName(v: string): (r: string)
    ensures SingleSpacedLetters(r)
    ensures forall c :: c in r ==> c in v || c == ' '
    // every letter of the input survives, in order
    ensures Keep(r, IsAlpha) == Keep(v, IsAlpha)
  {
    CleanNameFacts(v);
    CleanNameKeepsLetters(v);
    Join(Words(Keep(v, LetterOrSpace)), " ")
  }

  /** Cleaning a name keeps its letters, all of them and in order. */
  lemma CleanNameKeepsLetters(v: string)
    ensures Keep(Join(Words(Keep(v, LetterOrSpace)), " "), IsAlpha) == Keep(v, IsAlpha)
  {
    var kept := Keep(v, LetterOrSpace);
    var ws := Words(kept);
    ClassesAreNotSpaces();
    calc {
      Keep(Join(ws, " "), IsAlpha);
      { KeepJoinSpaces(ws, IsAlpha); }
      Keep(Concat(ws), IsAlpha);
      { KeepWords(kept, IsAlpha); }
      Keep(kept, IsAlpha);
      { KeepKeep(v, IsAlpha, LetterOrSpace); }
      Keep(v, IsAlpha);
    }
  }

  lemma CleanNameFacts(v: string)
    ensures var r := Join(Words(Keep(v, LetterOrSpace)), " ");
      SingleSpacedLetters(r) && forall c :: c in r ==> c in v || c == ' '
  {
    var kept := Keep(v, LetterOrSpace);
    var ws := Words(kept);
    forall i, j | 0 <= i < |ws| && 0 <= j < |ws[i]| ensures IsAlpha(ws[i][j]) {
      assert WordOf(ws[i], kept);
      var c := ws[i][j];
      var m :| 0 <= m < |kept| && kept[m] == c;
      assert LetterOrSpace(kept[m]);
    }
    JoinLettersSingleSpaced(ws);
    JoinChars(ws, " ");
    forall c | c in Join(ws, " ") && c != ' ' ensures c in v {
      var k :| 0 <= k < |ws| && c in ws[k];
      assert WordOf(ws[k], kept);
      var j :| 0 <= j < |ws[k]| && ws[k][j] == c;
      assert c in kept;
      var m :| 0 <= m < |kept| && kept[m] == c;
    }
  }

  /** Every character of a join comes from a word or from the separator. */
  lemma {:induction false} JoinChars(ws: seq<string>, sep: string)
    ensures forall c :: c in Join(ws, sep) ==> c in sep || exists k :: 0 <= k < |ws| && c in ws[k]
  {
    if |ws| == 1 {
      assert forall c :: c in Join(ws, sep) ==> c in ws[0];
    } else if |ws| > 1 {
      var tail := Join(ws[1..], sep);
      JoinChars(ws[1..], sep);
      forall c | c in Join(ws, sep) && c !in sep ensures exists k :: 0 <= k < |ws| && c in ws[k] {
        assert Join(ws, sep) == ws[0] + sep + tail;
        if c !in ws[0] {
          assert c in tail;
          var k :| 0 <= k < |ws[1..]| && c in ws[1..][k];
          assert c in ws[k + 1];
        }
      }
    }
  }

  /** The per-field cleaning of one stripped value. */
  function CleanValue(f: Field, v: string, parseDate: string -> string): (r: string)
    ensures IsNameField(f) ==> SingleSpacedLetters(r)
    ensures f == RollNumber || f == StudentId ==> forall c :: c in r ==> IsAlnum(c)
    ensures f == Phone ==> forall c :: c in r ==> IsDigit(c)
    ensures f == DateOfBirth ==> r == parseDate(Strip(v))
    // other than a date, nothing is introduced but single spaces
    ensures f != DateOfBirth ==> forall c :: c in r ==> c in v || c == ' '
    ensures f == ClassName || f == Section || f == Address ==> Stripped(r) && (Stripped(v) ==> r == v)
    // which characters survive: every letter of a name, every letter and digit of
    // a roll number or student id, every digit of a phone number; the rest is stripped
    ensures IsNameField(f) ==> Keep(r, IsAlpha) == Keep(v, IsAlpha)
    ensures f == RollNumber || f == StudentId ==> r == Keep(v, IsAlnum)
    ensures f == Phone ==> r == Keep(v, IsDigit)
    ensures f == ClassName || f == Section || f == Address ==> r == Strip(v)
  {
    var s := Strip(v);
    ContainsChars(v, s);
    ClassesAreNotSpaces();
    KeepStrip(v, IsAlpha);
    KeepStrip(v, IsAlnum);
    KeepStrip(v, IsDigit);
    CleanStripped(f, s, parseDate)
  }

  /** The per-field cleaning once the value is stripped. */
  function CleanStripped(f: Field, s: string, parseDate: string -> string): (r: string)
    ensures IsNameField(f) ==> SingleSpacedLetters(r)
    ensures f == RollNumber || f == StudentId ==> forall c :: c in r ==> IsAlnum(c)
    ensures f == Phone ==> forall c :: c in r ==> IsDigit(c)
    ensures f == DateOfBirth ==> r == parseDate(s)
    ensures f != DateOfBirth ==> forall c :: c in r ==> c in s || c == ' '
    ensures f == ClassName || f == Section || f == Address ==> r == s
    ensures IsNameField(f) ==> Keep(r, IsAlpha) == Keep(s, IsAlpha)
    ensures f == RollNumber || f == StudentId ==> r == Keep(s, IsAlnum)
    ensures f == Phone ==> r == Keep(s, IsDigit)
  {
    if IsNameField(f) then CleanName(s)
    else if f == RollNumber || f == StudentId then Keep(s, IsAlnum)
    else if f == Phone then Keep(s, IsDigit)
    else if f == DateOfBirth then parseDate(s)
    else s
  }


  /** `clean_form_data`: every field cleaned, and fields that clean to the empty string dropped. */
  function CleanFormData(raw: FormData, parseDate: string -> string): (r: FormData)
    ensures forall f :: f in r <==> f in raw && raw[f] != "" && CleanValue(f, raw[f], parseDate) != ""
    ensures forall f :: f in r ==> r[f] == CleanValue(f, raw[f], parseDate)
  {
    map f | f in raw && raw[f] != "" && CleanValue(f, raw[f], parseDate) != "" :: CleanValue(f, raw[f], parseDate)
  }

  /** What parsing yields for field `f`: the cleaned value of the first line that
      yields one, unless it cleans to the empty string. */
  function FieldValue(text: string, f: Field, parseDate: string -> string): Option<string> {
    match FirstLineValue(Split(text, '\n'), f, LineValue)
    case None => None
    case Some(v) => if CleanValue(f, v, parseDate) == "" then None else Some(CleanValue(f, v, parseDate))
  }

  /** The entry for `f` in a form, if any. */
  function Entry(form: FormData, f: Field): Option<string> {
    if f in form then Some(form[f]) else None
  }

  /** `parse_student_form`. */
  function ParseStudentForm(text: string, parseDate: string -> string): (r: FormData)
    ensures forall f :: f in r ==> r[f] != ""
    ensures forall f :: f in r && IsNameField(f) ==> SingleSpacedLetters(r[f])
    ensures forall f :: f in r && (f == RollNumber || f == StudentId) ==> forall c :: c in r[f] ==> IsAlnum(c)
    ensures Phone in r ==> forall c :: c in r[Phone] ==> IsDigit(c)
    // which fields are present, and with which value
    ensures forall f :: Entry(r, f) == FieldValue(text, f, parseDate)
  {
    CleanedShapes(RawFormData(text), parseDate);
    ParsedEntries(text, parseDate);
    CleanFormData(RawFormData(text), parseDate)
  }

  /** Each field of the cleaned raw form is what parsing yields for it. */
  lemma ParsedEntries(text: string, parseDate: string -> string)
    ensures forall f :: Entry(CleanFormData(RawFormData(text), parseDate), f) == FieldValue(text, f, parseDate)
  {
    forall f ensures Entry(CleanFormData(RawFormData(text), parseDate), f) == FieldValue(text, f, parseDate) {
      ParsedEntry(text, parseDate, f);
    }
  }

  lemma ParsedEntry(text: string, parseDate: string -> string, f: Field)
    ensures Entry(CleanFormData(RawFormData(text), parseDate), f) == FieldValue(text, f, parseDate)
  {
    var lines := Split(text, '\n');
    var raw := ParseLines(lines, map[], LineValue);
    var clean := CleanFormData(raw, parseDate);
    ParseLinesFirstWins(lines, map[], LineValue, f);
    var first := FirstLineValue(lines, f, LineValue);
    if first.None? {
      assert f !in raw;
      assert f !in clean;
    } else {
      FirstLineValueNonEmpty(lines, f);
      var v := first.value;
      assert f in raw && raw[f] == v && v != "";
      if CleanValue(f, v, parseDate) == "" {
        assert f !in clean;
      } else {
        assert f in clean && clean[f] == CleanValue(f, v, parseDate);
      }
    }
  }

  /** A line never yields an empty value. */
  lemma {:induction false} FirstLineValueNonEmpty(lines: seq<string>, f: Field)
    ensures FirstLineValue(lines, f, LineValue).Some? ==> FirstLineValue(lines, f, LineValue).value != ""
    decreases |lines|
  {
    if |lines| > 0 && LineValue(lines[0], f).None? {
      FirstLineValueNonEmpty(lines[1..], f);
    }
  }

  /** The shape every cleaned field has, whatever the raw values were. */
  lemma CleanedShapes(raw: FormData, parseDate: string -> string)
    ensures var r := CleanFormData(raw, parseDate);
      && (forall f :: f in r ==> r[f] != "")
      && (forall f :: f in r && IsNameField(f) ==> SingleSpacedLetters(r[f]))
      && (forall f :: f in r && (f == RollNumber || f == StudentId) ==> forall c :: c in r[f] ==> IsAlnum(c))
      && (Phone in r ==> forall c :: c in r[Phone] ==> IsDigit(c))
  {
  }

  /** A field is present after parsing exactly when some line yields a value for it
      that does not clean to the empty string, and then it holds the cleaned value of
      the first such line. */
  lemma ParsedFieldComesFromFirstLine(text: string, parseDate: string -> string, f: Field)
    ensures f in ParseStudentForm(text, parseDate) <==>
      && FirstLineValue(Split(text, '\n'), f, LineValue).Some?
      && CleanValue(f, FirstLineValue(Split(text, '\n'), f, LineValue).value, parseDate) != ""
    ensures f in ParseStudentForm(text, parseDate) ==>
      ParseStudentForm(text, parseDate)[f] == CleanValue(f, FirstLineValue(Split(text, '\n'), f, LineValue).value, parseDate)
  {
    ParseLinesFirstWins(Split(text, '\n'), map[], LineValue, f);
  }

  /** The 'name' label of student_name occurs inside "father name", so a line labelled
      "Father Name" is read for student_name as well, through the pattern "name". */
  lemma FatherLineAlsoReadsStudentName(line: string)
    requires Contains(Strip(Lower(line)), "father name")
    ensures LineValue(line, StudentName) == ExtractValueAfterPattern(line, "name")
  {
    FatherLabelContainsName(Strip(Lower(line)));
  }

  lemma FatherLabelContainsName(s: string)
    requires Contains(s, "father name")
    ensures FirstPattern(StudentName.Patterns(), s) == Some("name")
  {
    var j :| 0 <= j <= |s| - 11 && MatchesAt(s, "father name", j);
    forall k | 0 <= k < 4 ensures s[j + 7 + k] == "name"[k] {
      assert s[j + 7 + k] == s[j..j + 11][7 + k];
    }
    assert s[j + 7..j + 11] == "name";
    assert MatchesAt(s, "name", j + 7);
  }


  // ---------------------------------------------------------------------
  // validate_form_data
  // ---------------------------------------------------------------------

  /** The field is absent or empty. */
  predicate Missing(d: FormData, f: Field) { f !in d || d[f] == "" }

  predicate NameLengthBad(d: FormData) { StudentName in d && (|d[StudentName]| < 2 || |d[StudentName]| > 50) }
  predicate RollBad(d: FormData) { RollNumber in d && (!AllAlnum(d[RollNumber]) || |d[RollNumber]| > 10) }
  predicate PhoneBad(d: FormData) { Phone in d && d[Phone] != "" && (|d[Phone]| < 10 || |d[Phone]| > 15) }

  /** The rules of `validate_form_data`; a failed rule contributes its message, in declaration order. */
  datatype FormError = MissingName | MissingRoll | NameLength | RollFormat | PhoneLength {
    function Message(): string {
      match this
      case MissingName => "Missing required field: student_name"
      case MissingRoll => "Missing required field: roll_number"
      case NameLength => "Student name should be 2-50 characters long"
      case RollFormat => "Roll number should be alphanumeric and max 10 characters"
      case PhoneLength => "Phone number should be 10-15 digits"
    }
  }

  function ValidationErrors(d: FormData): (errors: seq<FormError>)
    ensures Missing(d, StudentName) <==> MissingName in errors
    ensures Missing(d, RollNumber) <==> MissingRoll in errors
    ensures NameLengthBad(d) <==> NameLength in errors
    ensures RollBad(d) <==> RollFormat in errors
    ensures PhoneBad(d) <==> PhoneLength in errors
  {
    Failed(Missing(d, StudentName), Missing(d, RollNumber), NameLengthBad(d), RollBad(d), PhoneBad(d))
  }

  /** The failed rules, in declaration order, given which of them failed. */
  function Failed(name: bool, roll: bool, nameLength: bool, rollFormat: bool, phone: bool): (r: seq<FormError>)
    ensures MissingName in r <==> name
    ensures MissingRoll in r <==> roll
    ensures NameLength in r <==> nameLength
    ensures RollFormat in r <==> rollFormat
    ensures PhoneLength in r <==> phone
  {
    (if name then [MissingName] else [])
    + (if roll then [MissingRoll] else [])
    + (if nameLength then [NameLength] else [])
    + (if rollFormat then [RollFormat] else [])
    + (if phone then [PhoneLength] else [])
  }

  /** `validate_form_data`: valid iff the error list is empty, that is iff a name of
      2 to 50 characters and an alphanumeric roll number of at most 10 are present
      and the phone, when given, has 10 to 15 characters. */
  function ValidateFormData(d: FormData): (r: (bool, seq<string>))
    ensures r.0 <==> |r.1| == 0
    ensures r.0 <==>
      && StudentName in d && 2 <= |d[StudentName]| <= 50
      && RollNumber in d && AllAlnum(d[RollNumber]) && |d[RollNumber]| <= 10
      && (Phone in d && d[Phone] != "" ==> 10 <= |d[Phone]| <= 15)
    ensures |r.1| == |ValidationErrors(d)|
      && forall i :: 0 <= i < |r.1| ==> r.1[i] == ValidationErrors(d)[i].Message()
  {
    var errors := ValidationErrors(d);
    (|errors| == 0, seq(|errors|, i requires 0 <= i < |errors| => errors[i].Message()))
  }

  /** Cleaning has already reduced a parsed roll number to letters and digits, so
      validation's alphanumeric test fails on it only when it is empty (and then it
      was dropped): a parsed roll number can fail only on its length. */
  lemma ParsedRollFailsOnlyOnLength(text: string, parseDate: string -> string)
    ensures var d := ParseStudentForm(text, parseDate);
      RollBad(d) <==> RollNumber in d && |d[RollNumber]| > 10
  {
  }

  // ---------------------------------------------------------------------
  // extract_form_data, process_batch_forms
  // ---------------------------------------------------------------------

  /** What text extraction gave for one image: its text, or the error it reported. */
  datatype ImageText = TextRead(text: string) | TextFailed(error: string)

  /** `extract_form_data`. An empty error string counts as no error, and then no text was read. */
  function ExtractFormData(img: ImageText, parseDate: string -> string): (r: Result<FormData, string>)
    ensures img.TextFailed? && img.error != "" ==> r == Err(img.error)
    ensures (img.TextFailed? && img.error == "") || img == TextRead("") ==> r == Err("No text found in image")
    ensures r.Ok? <==> img.TextRead? && img.text != ""
    ensures r.Ok? ==> r.value == ParseStudentForm(img.text, parseDate)
  {
    match img
    case TextFailed(e) => if e != "" then Err(e) else Err("No text found in image")
    case TextRead(text) => if text == "" then Err("No text found in image") else Ok(ParseStudentForm(text, parseDate))
  }

  datatype FormResult =
    | FormFailed(error: string)
    | FormRead(data: FormData, isValid: bool, validationErrors: seq<string>)

  /** `process_batch_forms`: one result per image, in order. */
  function ProcessBatchForms(images: seq<ImageText>, parseDate: string -> string): (r: seq<FormResult>)
    ensures |r| == |images|
    // each image is processed on its own, as `ProcessForm` does it
    ensures forall i :: 0 <= i < |images| ==> r[i] == ProcessForm(images[i], parseDate)
    ensures forall i :: 0 <= i < |images| ==>
      (r[i].FormFailed? <==> ExtractFormData(images[i], parseDate).Err?)
    ensures forall i :: 0 <= i < |images| && r[i].FormRead? ==>
      && r[i].data == ExtractFormData(images[i], parseDate).value
      && (r[i].isValid <==> |r[i].validationErrors| == 0)
    ensures forall i :: 0 <= i < |images| && r[i].FormFailed? ==>
      r[i].error == ExtractFormData(images[i], parseDate).error
    ensures forall i :: 0 <= i < |images| && r[i].FormRead? ==>
      (r[i].isValid, r[i].validationErrors) == ValidateFormData(r[i].data)
  {
    var r := seq(|images|, i requires 0 <= i < |images| => ProcessForm(images[i], parseDate));
    assert forall i :: 0 <= i < |images| ==> r[i] == ProcessForm(images[i], parseDate);
    r
  }

  /** One image of the batch: the extraction error, or the data with its validation. */
  function ProcessForm(img: ImageText, parseDate: string -> string): (r: FormResult)
    ensures r.FormFailed? <==> ExtractFormData(img, parseDate).Err?
    ensures r.FormFailed? ==> r.error == ExtractFormData(img, parseDate).error
    ensures r.FormRead? ==>
      && r.data == ExtractFormData(img, parseDate).value
      && (r.isValid, r.validationErrors) == ValidateFormData(r.data)
      && (r.isValid <==> |r.validationErrors| == 0)
  {
    match ExtractFormData(img, parseDate)
    case Err(e) => FormFailed(e)
    case Ok(d) => var (ok, errors) := ValidateFormData(d); FormRead(d, ok, errors)
  }
}

=== FILE: qr_code.dfy ===
/**
 * The QR credential of `QRCodeManager`: the payload written into a student's
 * QR code and its check when scanned. The JSON text codec (`json.dumps`,
 * `json.loads`) is taken to be a faithful serialiser and is not modelled: a
 * generated payload is given as the JSON value it serialises, and a scanned
 * string as what `json.loads` made of it. Drawing the QR image and ID card is
 * represented only by whether saving the card succeeded.
 */
module QrCode {
  import opened Wrappers

  datatype Json =
    | JNull
    | JBool(b: bool)
    | JInt(i: int)
    | JFloat(f: real)
    | JString(s: string)
    | JArray(items: seq<Json>)
    | JObject(fields: map<string, Json>)

  /** The outcome of `json.loads` on a scanned string. */
  datatype JsonParse = Parsed(value: Json) | NotJson

  const RecordType := "student_attendance"

  /** The `student_data` dict the callers pass: a students row joined with its class. */
  type StudentData = map<string, string>

  /** The columns `generate_student_qr` reads. */
  const RequiredColumns: set<string> := {"student_id", "full_name", "class_name", "section", "roll_number"}

  /** The payload keys, with the `student_data` column each one is copied from. */
  const PayloadSources: map<string, string> :=
    map["student_id" := "student_id", "name" := "full_name", "class" := "class_name",
        "section" := "section", "roll_number" := "roll_number"]

  /** The payload of a generated QR code. */
  function Payload(sd: StudentData): (p: map<string, Json>)
    requires RequiredColumns <= sd.Keys
    ensures p.Keys == PayloadSources.Keys + {"type"}
    ensures p["type"] == JString(RecordType)
    ensures forall k :: k in PayloadSources ==> p[k] == JString(sd[PayloadSources[k]])
  {
    map["student_id" := JString(sd["student_id"]),
        "name" := JString(sd["full_name"]),
        "class" := JString(sd["class_name"]),
        "section" := JString(sd["section"]),
        "roll_number" := JString(sd["roll_number"]),
        "type" := JString(RecordType)]
  }

  datatype Generated = Generated(success: bool, filename: Option<string>, qrData: Option<Json>)

  /** `generate_student_qr`: a missing column (KeyError) or a failed save gives (False, None, None). */
  function GenerateStudentQr(sd: StudentData, cardSaved: bool): (r: Generated)
    ensures r.success <==> RequiredColumns <= sd.Keys && cardSaved
    ensures !r.success ==> r == Generated(false, None, None)
    ensures r.success ==>
      && r.filename == Some(sd["student_id"] + "_id_card.png")
      && r.qrData.Some? && r.qrData.value.JObject?
      && r.qrData.value.fields.Keys == {"student_id", "name", "class", "section", "roll_number", "type"}
      && r.qrData.value.fields["type"] == JString(RecordType)
  {
    if RequiredColumns <= sd.Keys && cardSaved then
      Generated(true, Some(sd["student_id"] + "_id_card.png"), Some(JObject(Payload(sd))))
    else Generated(false, None, None)
  }

  datatype DecodeError = InvalidType | InvalidFormat | Unexpected(detail: string) {
    function Message(): string {
      match this
      case InvalidType => "Invalid QR code type"
      case InvalidFormat => "Invalid QR code data format"
      case Unexpected(detail) => "Error decoding QR code: " + detail
    }
  }

  /** Python's name for the type of a parsed JSON value. */
  function TypeName(j: Json): string {
    match j
    case JNull => "NoneType"
    case JBool(_) => "bool"
    case JInt(_) => "int"
    case JFloat(_) => "float"
    case JString(_) => "str"
    case JArray(_) => "list"
    case JObject(_) => "dict"
  }

  /** The parsed value is an object whose 'type' is the attendance tag. */
  predicate IsAttendanceRecord(j: Json) {
    j.JObject? && "type" in j.fields && j.fields["type"] == JString(RecordType)
  }

  /** `decode_qr_data`. */
  function DecodeQrData(p: JsonParse): (r: Result<map<string, Json>, DecodeError>)
    ensures r.Ok? <==> p.Parsed? && IsAttendanceRecord(p.value)
    // the whole object comes back, with no check of its other fields
    ensures r.Ok? ==> r.value == p.value.fields
    ensures p.NotJson? ==> r == Err(InvalidFormat)
    ensures p.Parsed? && p.value.JObject? && !IsAttendanceRecord(p.value) ==> r == Err(InvalidType)
    // `.get` on a non-dict raises AttributeError
    ensures p.Parsed? && !p.value.JObject? ==> r.Err? && r.error.Unexpected?
  {
    match p
    case NotJson => Err(InvalidFormat)
    case Parsed(j) =>
      if !j.JObject? then Err(Unexpected("'" + TypeName(j) + "' object has no attribute 'get'"))
      else if "type" in j.fields && j.fields["type"] == JString(RecordType) then Ok(j.fields)
      else Err(InvalidType)
  }

  /** Scanning a code this module generated gives back every field it was generated with. */
  lemma GenerateDecodeRoundTrip(sd: StudentData)
    requires RequiredColumns <= sd.Keys
    ensures var g := GenerateStudentQr(sd, true);
      && g.success
      && var d := DecodeQrData(Parsed(g.qrData.value));
      && d.Ok?
      && d.value["student_id"] == JString(sd["student_id"])
      && d.value["name"] == JString(sd["full_name"])
      && d.value["class"] == JString(sd["class_name"])
      && d.value["section"] == JString(sd["section"])
      && d.value["roll_number"] == JString(sd["roll_number"])
  {
  }

  /** The tag is the only thing checked: a bare tag decodes successfully with no student id in it. */
  lemma BareTagAccepted()
    ensures DecodeQrData(Parsed(JObject(map["type" := JString(RecordType)]))).Ok?
  {
  }

  datatype BatchEntry = BatchEntry(studentId: string, success: bool, filename: Option<string>, qrData: Option<Json>)

  /** One student's entry: its id, and what generating its code gave. */
  function Entry(sd: StudentData, cardSaved: bool): (e: BatchEntry)
    requires "student_id" in sd
    ensures e.studentId == sd["student_id"]
    ensures e.success <==> RequiredColumns <= sd.Keys && cardSaved
    ensures e.success ==> e.qrData == Some(JObject(Payload(sd)))
    // the file name and the QR data are those `generate_student_qr` returned
    ensures e.filename == GenerateStudentQr(sd, cardSaved).filename
    ensures e.qrData == GenerateStudentQr(sd, cardSaved).qrData
    ensures e.success ==> e.filename == Some(sd["student_id"] + "_id_card.png")
    ensures !e.success ==> e.filename.None? && e.qrData.None?
  {
    var g := GenerateStudentQr(sd, cardSaved);
    BatchEntry(sd["student_id"], g.success, g.filename, g.qrData)
  }

  /** `batch_generate_qr_codes`; `cardSaved(i)` says whether saving student i's card succeeded.
      A student without 'student_id' makes the loop raise, so no list comes back. */
  function BatchGenerate(students: seq<StudentData>, cardSaved: nat -> bool): (r: Option<seq<BatchEntry>>)
    ensures r.Some? <==> forall i :: 0 <= i < |students| ==> "student_id" in students[i]
    ensures r.Some? ==> |r.value| == |students|
    ensures r.Some? ==> forall i :: 0 <= i < |students| ==>
      && r.value[i].studentId == students[i]["student_id"]
      && (r.value[i].success <==> RequiredColumns <= students[i].Keys && cardSaved(i))
    // every entry is the one generated for that student, file name and QR data included
    ensures r.Some? ==> forall i :: 0 <= i < |students| ==>
      && r.value[i] == Entry(students[i], cardSaved(i))
      && r.value[i].filename == GenerateStudentQr(students[i], cardSaved(i)).filename
      && r.value[i].qrData == GenerateStudentQr(students[i], cardSaved(i)).qrData
  {
    if forall i :: 0 <= i < |students| ==> "student_id" in students[i] then
      var es := seq(|students|, i requires 0 <= i < |students| => Entry(students[i], cardSaved(i)));
      assert forall i :: 0 <= i < |students| ==> es[i] == Entry(students[i], cardSaved(i));
      Some(es)
    else None
  }
}

=== FILE: reconcile.dfy ===
/**
 * The attendance routes of the teacher blueprint: the face-photo path
 * (`process_attendance`), the QR path (`scan_qr`) and today's present/absent
 * summary (`attendance_summary_api`). The `students` table is a roster
 * sequence in query order; the `attendance` table is the one of module
 * Attendance; `attendance_sessions` is a sequence of session rows.
 */
module Reconcile {
  import opened Wrappers
  import opened Seqs
  import opened Attendance
  import opened Matching
  import opened QrCode

  /** A `students` row, as far as these routes read it. */
  datatype StudentRow = StudentRow(
    key: StudentKey,
    studentId: string,
    fullName: string,
    rollNumber: string,
    classId: int,
    isActive: bool)

  type Roster = seq<StudentRow>

  // ---------------------------------------------------------------------
  // The face-photo path
  // ---------------------------------------------------------------------

  /** `(SELECT id FROM students WHERE student_id = %s)`: the row with that
      student_id, whatever its class and whether or not it is active. The
      student_id column is taken to be unique (a scalar subquery that meets two
      rows is an error in MySQL); on a roster that repeats one, the first is used. */
  function ResolveKey(roster: Roster, sid: string): (r: Option<StudentKey>)
    ensures r.None? <==> forall i :: 0 <= i < |roster| ==> roster[i].studentId != sid
    ensures r.Some? ==> exists i :: 0 <= i < |roster| && roster[i].studentId == sid && roster[i].key == r.value
  {
    if |roster| == 0 then None
    else if roster[0].studentId == sid then Some(roster[0].key)
    else
      var r := ResolveKey(roster[1..], sid);
      assert r.Some? ==> exists i :: 0 <= i < |roster[1..]| && roster[1..][i].studentId == sid && roster[1..][i].key == r.value;
      r
  }

  /** How many recognised entries name a student_id no row carries. */
  function CountUnresolved(roster: Roster, ms: seq<Match>): nat {
    if |ms| == 0 then 0
    else (if ResolveKey(roster, ms[0].studentId).None? then 1 else 0) + CountUnresolved(roster, ms[1..])
  }

  /** The record the face path inserts for one recognised student. */
  function FaceRecord(k: StudentKey, m: Match, classId: int, teacherId: int, today: Day, now: Instant, photo: string): Record {
    Record(k, classId, teacherId, today, Present, FaceRecognitionMethod, Some(m.confidence), Some(photo), None, now)
  }

  /** A record the face path may have written in this call. */
  predicate FaceRowOf(r: Record, classId: int, teacherId: int, today: Day, photo: string) {
    && r.classId == classId && r.teacherId == teacherId && r.date == today
    && r.status == Present && r.via == FaceRecognitionMethod && r.photo == Some(photo)
  }

  /** `t'` extends `t`: every old row is still there, unchanged, and new rows have fresh ids. */
  predicate Extends(t: Table, t': Table) {
    && t.nextId <= t'.nextId
    && (forall id :: id in t.rows ==> id in t'.rows && t'.rows[id] == t.rows[id])
    && (forall id :: id in t'.rows ==> id in t.rows || t.nextId <= id < t'.nextId)
  }

  lemma MarkedOnKept(t: Table, t': Table, s: StudentKey, d: Day)
    requires Extends(t, t') && MarkedOn(t, s, d)
    ensures MarkedOn(t', s, d)
  {
    var id :| id in t.rows && t.rows[id].student == s && t.rows[id].date == d;
    assert id in t'.rows && t'.rows[id].student == s && t'.rows[id].date == d;
  }

  /** One pass of the marking loop: look for a record of (student, today) and,
      when the lookup finds none, send the INSERT, which the database may refuse
      (`accepted`). The route ignores the INSERT's result, so the entry is counted
      whenever the lookup finds nothing, whether or not a row is written. An entry
      whose student_id resolves to no row finds nothing and writes nothing. */
  function MarkOne(
    t: Table, roster: Roster, m: Match, accepted: bool, classId: int, teacherId: int, today: Day, now: Instant, photo: string)
    : (r: (Table, nat))
    requires WellFormed(t)
    ensures WellFormed(r.0) && Extends(t, r.0)
    ensures Valid(t) ==> Valid(r.0)
    ensures forall id :: id in r.0.rows && id !in t.rows ==> FaceRowOf(r.0.rows[id], classId, teacherId, today, photo)
    // counted iff the lookup found no record
    ensures var k := ResolveKey(roster, m.studentId);
      r.1 == if k.Some? && MarkedOn(t, k.value, today) then 0 else 1
    // a row is written iff the student resolves, has no record today and the INSERT is accepted
    ensures var k := ResolveKey(roster, m.studentId);
      r.0.nextId - t.nextId == if k.Some? && !MarkedOn(t, k.value, today) && accepted then 1 else 0
    ensures forall x: StudentKey :: MarkedOn(r.0, x, today) <==>
      MarkedOn(t, x, today) || (accepted && ResolveKey(roster, m.studentId) == Some(x))
  {
    match ResolveKey(roster, m.studentId)
    case None => (t, 1)
    case Some(k) =>
      var (t1, o) := MarkAttendance(t, k, classId, teacherId, today, now, accepted,
                                    Present, FaceRecognitionMethod, Some(m.confidence), Some(photo), None);
      if o == Marked then
        MarkedAfterInsert(t, t1, k, today);
        (t1, 1)
      else (t1, if o == AlreadyMarked then 0 else 1)
  }

  /** After an INSERT of a record of (k, today), exactly the students marked before and k are marked. */
  lemma MarkedAfterInsert(t: Table, t1: Table, k: StudentKey, today: Day)
    requires t.nextId !in t.rows && t1.rows.Keys == t.rows.Keys + {t.nextId}
    requires forall id :: id in t.rows ==> t1.rows[id] == t.rows[id]
    requires t1.rows[t.nextId].student == k && t1.rows[t.nextId].date == today
    ensures forall x: StudentKey :: MarkedOn(t1, x, today) <==> MarkedOn(t, x, today) || x == k
  {
    forall x: StudentKey ensures MarkedOn(t1, x, today) <==> MarkedOn(t, x, today) || x == k {
      if MarkedOn(t1, x, today) {
        var id :| id in t1.rows && t1.rows[id].student == x && t1.rows[id].date == today;
        if id != t.nextId {
          assert id in t.rows && t.rows[id] == t1.rows[id];
        }
      }
      if MarkedOn(t, x, today) {
        var id :| id in t.rows && t.rows[id].student == x && t.rows[id].date == today;
        assert id in t1.rows && t1.rows[id] == t.rows[id];
      }
      if x == k {
        assert t.nextId in t1.rows;
      }
    }
  }

  /** The students whose INSERT the database accepts, for entries that resolve. */
  function AcceptedKeys(roster: Roster, ms: seq<Match>, accepted: seq<bool>): set<StudentKey>
    requires |accepted| == |ms|
  {
    if |ms| == 0 then {}
    else
      var k := ResolveKey(roster, ms[0].studentId);
      (if k.Some? && accepted[0] then {k.value} else {}) + AcceptedKeys(roster, ms[1..], accepted[1..])
  }

  /** How many entries resolve to a student who has no record today, neither from
      before the loop (`MarkedOn(t, ..)`) nor from an accepted INSERT earlier in it
      (`done`), and whose own INSERT is refused: rows the route counts but never writes. */
  function Refusals(t: Table, roster: Roster, ms: seq<Match>, accepted: seq<bool>, today: Day, done: set<StudentKey>): nat
    requires |accepted| == |ms|
  {
    if |ms| == 0 then 0
    else
      match ResolveKey(roster, ms[0].studentId)
      case None => Refusals(t, roster, ms[1..], accepted[1..], today, done)
      case Some(k) =>
        if MarkedOn(t, k, today) || k in done then Refusals(t, roster, ms[1..], accepted[1..], today, done)
        else if accepted[0] then Refusals(t, roster, ms[1..], accepted[1..], today, done + {k})
        else 1 + Refusals(t, roster, ms[1..], accepted[1..], today, done)
  }

  /** `Refusals` looks at a table only through who is marked today. */
  lemma {:induction false} RefusalsSeeOnlyMarked(
    t: Table, t': Table, roster: Roster, ms: seq<Match>, accepted: seq<bool>, today: Day,
    done: set<StudentKey>, done': set<StudentKey>)
    requires |accepted| == |ms|
    requires forall x: StudentKey :: MarkedOn(t, x, today) || x in done <==> MarkedOn(t', x, today) || x in done'
    ensures Refusals(t, roster, ms, accepted, today, done) == Refusals(t', roster, ms, accepted, today, done')
    decreases |ms|
  {
    if |ms| > 0 {
      match ResolveKey(roster, ms[0].studentId)
      case None =>
        RefusalsSeeOnlyMarked(t, t', roster, ms[1..], accepted[1..], today, done, done');
      case Some(k) =>
        if MarkedOn(t, k, today) || k in done {
          RefusalsSeeOnlyMarked(t, t', roster, ms[1..], accepted[1..], today, done, done');
        } else if accepted[0] {
          RefusalsSeeOnlyMarked(t, t', roster, ms[1..], accepted[1..], today, done + {k}, done' + {k});
        } else {
          RefusalsSeeOnlyMarked(t, t', roster, ms[1..], accepted[1..], today, done, done');
        }
    }
  }

  /** The student a first entry adds to `Refusals`' `done`: its own, when the
      INSERT is sent (no record yet) and accepted. */
  function SentAndAccepted(t: Table, roster: Roster, m: Match, accepted: bool, today: Day): set<StudentKey> {
    var k := ResolveKey(roster, m.studentId);
    if k.Some? && !MarkedOn(t, k.value, today) && accepted then {k.value} else {}
  }

  /** `Refusals` from the start of the loop, with the first entry unfolded. */
  lemma RefusalsFirst(t: Table, roster: Roster, ms: seq<Match>, accepted: seq<bool>, today: Day)
    requires |accepted| == |ms| > 0
    ensures var k := ResolveKey(roster, ms[0].studentId);
      var done := SentAndAccepted(t, roster, ms[0], accepted[0], today);
      && (forall x: StudentKey :: MarkedOn(t, x, today) || x in done <==>
            MarkedOn(t, x, today) || (accepted[0] && k == Some(x)))
      && Refusals(t, roster, ms, accepted, today, {}) ==
           (if k.Some? && !MarkedOn(t, k.value, today) && !accepted[0] then 1 else 0)
           + Refusals(t, roster, ms[1..], accepted[1..], today, done)
  {
    var done := SentAndAccepted(t, roster, ms[0], accepted[0], today);
    assert {} + done == done;
  }

  /** When the database accepts every INSERT, no entry is counted without a row. */
  lemma {:induction false} AllAcceptedNoRefusals(
    t: Table, roster: Roster, ms: seq<Match>, accepted: seq<bool>, today: Day, done: set<StudentKey>)
    requires |accepted| == |ms| && forall i :: 0 <= i < |accepted| ==> accepted[i]
    ensures Refusals(t, roster, ms, accepted, today, done) == 0
    decreases |ms|
  {
    if |ms| > 0 {
      assert forall i :: 0 <= i < |accepted[1..]| ==> accepted[1..][i] == accepted[i + 1];
      AllAcceptedNoRefusals(t, roster, ms[1..], accepted[1..], today, done);
      if ResolveKey(roster, ms[0].studentId).Some? {
        AllAcceptedNoRefusals(t, roster, ms[1..], accepted[1..], today, done + {ResolveKey(roster, ms[0].studentId).value});
      }
    }
  }

  /** The marking loop: `MarkOne` for each recognised entry in order, `accepted[i]`
      being the database's verdict on entry i's INSERT. */
  function MarkRecognised(
    t: Table, roster: Roster, ms: seq<Match>, accepted: seq<bool>,
    classId: int, teacherId: int, today: Day, now: Instant, photo: string)
    : (r: (Table, nat))
    requires WellFormed(t) && |accepted| == |ms|
    decreases |ms|
    ensures WellFormed(r.0) && Extends(t, r.0)
    ensures Valid(t) ==> Valid(r.0)
    // the count is the inserts performed, plus the unresolvable entries, plus the refused inserts
    ensures r.1 == (r.0.nextId - t.nextId) + CountUnresolved(roster, ms) + Refusals(t, roster, ms, accepted, today, {})
    // no class-membership check: every new row is filed under this class
    ensures forall id :: id in r.0.rows && id !in t.rows ==> FaceRowOf(r.0.rows[id], classId, teacherId, today, photo)
    // afterwards exactly the students marked before and those of an accepted INSERT have a record for today
    ensures forall x: StudentKey :: MarkedOn(r.0, x, today) <==> MarkedOn(t, x, today) || x in AcceptedKeys(roster, ms, accepted)
    ensures forall i :: 0 <= i < |ms| && accepted[i] && ResolveKey(roster, ms[i].studentId).Some? ==>
      MarkedOn(r.0, ResolveKey(roster, ms[i].studentId).value, today)
  {
    if |ms| == 0 then (t, 0)
    else
      var k := ResolveKey(roster, ms[0].studentId);
      var step := MarkOne(t, roster, ms[0], accepted[0], classId, teacherId, today, now, photo);
      var (t2, n) := MarkRecognised(step.0, roster, ms[1..], accepted[1..], classId, teacherId, today, now, photo);
      var done := SentAndAccepted(t, roster, ms[0], accepted[0], today);
      RefusalsFirst(t, roster, ms, accepted, today);
      RefusalsSeeOnlyMarked(step.0, t, roster, ms[1..], accepted[1..], today, {}, done);
      forall i | 0 <= i < |ms| && accepted[i] && ResolveKey(roster, ms[i].studentId).Some?
        ensures MarkedOn(t2, ResolveKey(roster, ms[i].studentId).value, today)
      {
        if i == 0 {
          MarkedOnKept(step.0, t2, k.value, today);
        } else {
          assert ms[1..][i - 1] == ms[i] && accepted[1..][i - 1] == accepted[i];
        }
      }
      (t2, step.1 + n)
  }

  /** The student_ids the recognition reported, duplicates included. */
  function RecognisedIds(ms: seq<Match>): (ids: seq<string>)
    ensures |ids| == |ms| && forall i :: 0 <= i < |ms| ==> ids[i] == ms[i].studentId
  {
    Map(ms, (m: Match) => m.studentId)
  }

  /** The reply's absent list: the class's active rows whose student_id is not
      among the recognised ids, in roster order. */
  function Absentees(roster: Roster, classId: int, ms: seq<Match>): (r: Roster)
    ensures forall row :: row in r <==>
      row in roster && row.classId == classId && row.isActive && row.studentId !in RecognisedIds(ms)
  {
    var ids := RecognisedIds(ms);
    Filter(roster, (row: StudentRow) => row.classId == classId && row.isActive && row.studentId !in ids)
  }

  /** An `attendance_sessions` row. */
  datatype SessionRow = SessionRow(
    classId: int, teacherId: int, date: Day, photo: string, detected: nat, recognised: nat, status: string)

  datatype Db = Db(attendance: Table, sessions: seq<SessionRow>)

  /** The uploaded file, by the name the browser sent. */
  datatype Upload = Upload(filename: string)

  datatype ProcessReply =
    | ProcessFailed(error: string)
    | Processed(sessionId: nat, totalDetected: nat, recognised: seq<Match>, attendanceMarked: nat,
                absent: Roster, unrecognised: nat)

  /** `process_attendance`. `classOwned` is whether the class belongs to the
      teacher; `photo` is the name the upload was stored under; `recognition`
      is what recognition reported for the stored photo; `sessionAccepted` is
      whether the session INSERT succeeded (a failed one makes the route raise);
      `accepted[i]` is the database's verdict on recognised entry i's INSERT.
      Session ids count from 1 and session rows are never deleted. */
  function ProcessAttendance(
    db: Db, roster: Roster, classOwned: bool, upload: Option<Upload>, photo: string,
    recognition: Recognition, sessionAccepted: bool, accepted: seq<bool>,
    classId: int, teacherId: int, today: Day, now: Instant)
    : (r: (Db, ProcessReply))
    requires WellFormed(db.attendance)
    requires recognition.Recognised? ==> |accepted| == |recognition.students|
    ensures WellFormed(r.0.attendance)
    ensures Valid(db.attendance) ==> Valid(r.0.attendance)
    // the guards, in order; each failure writes nothing
    ensures r.1.ProcessFailed? ==> r.0 == db
    ensures !classOwned ==> r.1 == ProcessFailed("Access denied")
    ensures classOwned && upload.None? ==> r.1 == ProcessFailed("No photo uploaded")
    ensures classOwned && upload.Some? && upload.value.filename == "" ==> r.1 == ProcessFailed("No photo selected")
    ensures classOwned && upload.Some? && upload.value.filename != "" && recognition.RecognitionFailed? ==>
      r.1 == ProcessFailed("Face recognition failed: " + recognition.error)
    ensures classOwned && upload.Some? && upload.value.filename != "" && recognition.Recognised? && !sessionAccepted ==>
      r.1 == ProcessFailed("Internal server error")
    ensures r.1.Processed? <==>
      classOwned && upload.Some? && upload.value.filename != "" && recognition.Recognised? && sessionAccepted
    ensures r.1.Processed? ==>
      var rec := recognition;
      && r.0.sessions == db.sessions + [SessionRow(classId, teacherId, today, photo, rec.totalFaces, |rec.students|, "completed")]
      && r.1.sessionId == |db.sessions| + 1
      && r.1.totalDetected == rec.totalFaces
      && r.1.recognised == rec.students
      && r.1.unrecognised == rec.unrecognised
      && r.1.absent == Absentees(roster, classId, rec.students)
      && Extends(db.attendance, r.0.attendance)
      && r.1.attendanceMarked == (r.0.attendance.nextId - db.attendance.nextId) + CountUnresolved(roster, rec.students)
           + Refusals(db.attendance, roster, rec.students, accepted, today, {})
      // the table and the count are those of the pass over the recognised students
      && (r.0.attendance, r.1.attendanceMarked) ==
           MarkRecognised(db.attendance, roster, rec.students, accepted, classId, teacherId, today, now, photo)
      && (forall i :: 0 <= i < |rec.students| && accepted[i] && ResolveKey(roster, rec.students[i].studentId).Some? ==>
            MarkedOn(r.0.attendance, ResolveKey(roster, rec.students[i].studentId).value, today))
      && (forall id :: id in r.0.attendance.rows && id !in db.attendance.rows ==>
            FaceRowOf(r.0.attendance.rows[id], classId, teacherId, today, photo))
  {
    if !classOwned then (db, ProcessFailed("Access denied"))
    else if upload.None? then (db, ProcessFailed("No photo uploaded"))
    else if upload.value.filename == "" then (db, ProcessFailed("No photo selected"))
    else
      match recognition
      case RecognitionFailed(e) => (db, ProcessFailed("Face recognition failed: " + e))
      case Recognised(total, students, unrecognised) =>
        if !sessionAccepted then (db, ProcessFailed("Internal server error"))
        else
          var session := SessionRow(classId, teacherId, today, photo, total, |students|, "completed");
          var (t, marked) := MarkRecognised(db.attendance, roster, students, accepted, classId, teacherId, today, now, photo);
          (Db(t, db.sessions + [session]),
           Processed(|db.sessions| + 1, total, students, marked, Absentees(roster, classId, students), unrecognised))
  }

  /** A student recognised twice in one photo ends up with one record for today. */
  lemma DuplicateRecognitionOneRecord(t: Table, roster: Roster, m: Match, classId: int, teacherId: int, today: Day, now: Instant, photo: string)
    requires Valid(t)
    requires ResolveKey(roster, m.studentId).Some?
    requires !MarkedOn(t, ResolveKey(roster, m.studentId).value, today)
    ensures var (t', n) := MarkRecognised(t, roster, [m, m], [true, true], classId, teacherId, today, now, photo);
      && t'.nextId == t.nextId + 1
      && n == 1
      && |RecordsFor(t', ResolveKey(roster, m.studentId).value, today)| == 1
  {
    var k := ResolveKey(roster, m.studentId).value;
    var (t1, n1) := MarkOne(t, roster, m, true, classId, teacherId, today, now, photo);
    assert n1 == 1 && t1.nextId == t.nextId + 1 && MarkedOn(t1, k, today);
    assert MarkOne(t1, roster, m, true, classId, teacherId, today, now, photo) == (t1, 0);
    assert [m, m][1..] == [m] && [true, true][1..] == [true];
    assert [m][1..] == [] && [true][1..] == [];
    assert MarkRecognised(t1, roster, [], [], classId, teacherId, today, now, photo) == (t1, 0);
    assert MarkRecognised(t1, roster, [m], [true], classId, teacherId, today, now, photo) == (t1, 0);
    assert MarkRecognised(t, roster, [m, m], [true, true], classId, teacherId, today, now, photo) == (t1, 1);
    AtMostOneRecord(t1, k, today);
  }

  /** A refused INSERT is still counted: the route appends the student to the
      marked list whatever the INSERT returned, though no row is written. */
  lemma RefusedInsertStillCounted(t: Table, roster: Roster, m: Match, classId: int, teacherId: int, today: Day, now: Instant, photo: string)
    requires WellFormed(t)
    requires ResolveKey(roster, m.studentId).Some?
    requires !MarkedOn(t, ResolveKey(roster, m.studentId).value, today)
    ensures MarkRecognised(t, roster, [m], [false], classId, teacherId, today, now, photo) == (t, 1)
  {
    assert MarkOne(t, roster, m, false, classId, teacherId, today, now, photo) == (t, 1);
    assert [m][1..] == [] && [false][1..] == [];
    assert MarkRecognised(t, roster, [], [], classId, teacherId, today, now, photo) == (t, 0);
  }

  /** The face path does no class-membership check: a student enrolled in another
      class is given a record under the class of the photo. */
  lemma NoMembershipCheck(t: Table, row: StudentRow, m: Match, classId: int, teacherId: int, today: Day, now: Instant, photo: string)
    requires WellFormed(t) && row.classId != classId && m.studentId == row.studentId
    requires !MarkedOn(t, row.key, today)
    ensures var (t', _) := MarkRecognised(t, [row], [m], [true], classId, teacherId, today, now, photo);
      && t.nextId in t'.rows
      && t'.rows[t.nextId].student == row.key
      && t'.rows[t.nextId].classId == classId
  {
    assert [m][1..] == [] && [true][1..] == [];
  }

  /** The absent list comes from recognition, not from stored records: a student
      already marked present today but missing from the photo is still reported absent. */
  lemma AbsentDespiteRecord(
    db: Db, roster: Roster, upload: Upload, photo: string, recognition: Recognition,
    accepted: seq<bool>, classId: int, teacherId: int, today: Day, now: Instant, row: StudentRow)
    requires WellFormed(db.attendance)
    requires upload.filename != "" && recognition.Recognised? && |accepted| == |recognition.students|
    requires row in roster && row.classId == classId && row.isActive
    requires forall i :: 0 <= i < |recognition.students| ==> recognition.students[i].studentId != row.studentId
    requires MarkedOn(db.attendance, row.key, today)
    ensures var (db', reply) := ProcessAttendance(db, roster, true, Some(upload), photo, recognition, true, accepted, classId, teacherId, today, now);
      && reply.Processed?
      && row in reply.absent
      && MarkedOn(db'.attendance, row.key, today)
  {
    var (db', reply) := ProcessAttendance(db, roster, true, Some(upload), photo, recognition, true, accepted, classId, teacherId, today, now);
    var ids := RecognisedIds(recognition.students);
    assert row.studentId !in ids by {
      forall i | 0 <= i < |ids| ensures ids[i] != row.studentId {
        assert ids[i] == recognition.students[i].studentId;
      }
    }
    MarkedOnKept(db.attendance, db'.attendance, row.key, today);
  }

  // ---------------------------------------------------------------------
  // The QR path
  // ---------------------------------------------------------------------

  /** The first active row of the class whose student_id equals the decoded one.
      A decoded id that is not a JSON string matches no row. */
  function FindInClass(roster: Roster, sid: Json, classId: int): (r: Option<StudentRow>)
    ensures r.None? <==> forall i :: 0 <= i < |roster| ==>
      !(JString(roster[i].studentId) == sid && roster[i].classId == classId && roster[i].isActive)
    ensures r.Some? ==> (r.value in roster && JString(r.value.studentId) == sid
      && r.value.classId == classId && r.value.isActive)
  {
    if |roster| == 0 then None
    else if JString(roster[0].studentId) == sid && roster[0].classId == classId && roster[0].isActive then Some(roster[0])
    else
      var r := FindInClass(roster[1..], sid, classId);
      assert forall i :: 1 <= i < |roster| ==> roster[i] == roster[1..][i - 1];
      r
  }

  /** `not qr_data or not class_id`. */
  predicate MissingData(qrData: Option<string>, classId: Option<int>) {
    qrData.None? || qrData.value == "" || classId.None? || classId.value == 0
  }

  /** The guards of `scan_qr` before the attendance lookup: the row to mark and its class, or the error. */
  function ScanGuards(roster: Roster, qrData: Option<string>, parsed: JsonParse, classId: Option<int>)
    : (r: Result<(StudentRow, int), string>)
    ensures MissingData(qrData, classId) ==> r == Err("Missing required data")
    ensures !MissingData(qrData, classId) && DecodeQrData(parsed).Err? ==>
      r == Err(DecodeQrData(parsed).error.Message())
    ensures !MissingData(qrData, classId) && DecodeQrData(parsed).Ok? && "student_id" !in DecodeQrData(parsed).value ==>
      r == Err("Internal server error")
    ensures (!MissingData(qrData, classId) && DecodeQrData(parsed).Ok? && "student_id" in DecodeQrData(parsed).value
      && FindInClass(roster, DecodeQrData(parsed).value["student_id"], classId.value).None?) ==>
      r == Err("Student not found in this class")
    // the student is verified to be an active member of the class
    ensures r.Ok? ==>
      && !MissingData(qrData, classId) && classId == Some(r.value.1)
      && DecodeQrData(parsed).Ok? && "student_id" in DecodeQrData(parsed).value
      && DecodeQrData(parsed).value["student_id"] == JString(r.value.0.studentId)
      && r.value.0 in roster && r.value.0.classId == r.value.1 && r.value.0.isActive
  {
    if MissingData(qrData, classId) then Err("Missing required data")
    else
      match DecodeQrData(parsed)
      case Err(e) => Err(e.Message())
      case Ok(fields) =>
        if "student_id" !in fields then Err("Internal server error")
        else
          match FindInClass(roster, fields["student_id"], classId.value)
          case None => Err("Student not found in this class")
          case Some(row) => Ok((row, classId.value))
  }

  datatype ScanReply = ScanFailed(error: string) | ScanMarked(name: string, studentId: string, rollNumber: string)

  /** The record the QR path inserts. */
  function QrRecord(row: StudentRow, classId: int, teacherId: int, today: Day, now: Instant): Record {
    Record(row.key, classId, teacherId, today, Present, QrCodeMethod, None, None, Some("QR code scan"), now)
  }

  /** `scan_qr`: `parsed` is what `json.loads` made of `qrData`; `accepted` is
      whether the INSERT affected a row. */
  function ScanQr(
    t: Table, roster: Roster, qrData: Option<string>, parsed: JsonParse, classId: Option<int>,
    teacherId: int, today: Day, now: Instant, accepted: bool)
    : (r: (Table, ScanReply))
    requires WellFormed(t)
    ensures WellFormed(r.0)
    ensures Valid(t) ==> Valid(r.0)
    ensures r.1.ScanFailed? ==> r.0 == t
    ensures ScanGuards(roster, qrData, parsed, classId).Err? ==>
      r == (t, ScanFailed(ScanGuards(roster, qrData, parsed, classId).error))
    ensures ScanGuards(roster, qrData, parsed, classId).Ok? ==>
      var (row, c) := ScanGuards(roster, qrData, parsed, classId).value;
      && (MarkedOn(t, row.key, today) ==> r.1 == ScanFailed("Attendance already marked for this student today"))
      && (!MarkedOn(t, row.key, today) && !accepted ==> r.1 == ScanFailed("Failed to mark attendance"))
      && (r.1.ScanMarked? <==> !MarkedOn(t, row.key, today) && accepted)
      && (r.1.ScanMarked? ==>
            && r.1 == ScanMarked(row.fullName, row.studentId, row.rollNumber)
            && t.nextId !in t.rows
            && r.0.rows == t.rows[t.nextId := QrRecord(row, c, teacherId, today, now)])
  {
    match ScanGuards(roster, qrData, parsed, classId)
    case Err(e) => (t, ScanFailed(e))
    case Ok((row, c)) =>
      var (t', o) := MarkAttendance(t, row.key, c, teacherId, today, now, accepted,
                                    Present, QrCodeMethod, None, None, Some("QR code scan"));
      if o == Marked then (t', ScanMarked(row.fullName, row.studentId, row.rollNumber))
      else (t, ScanFailed(o.Message()))
  }

  /** Scanning a freshly generated card of an active class member marks that student, by QR. */
  lemma ScanGeneratedCard(t: Table, row: StudentRow, sd: StudentData, teacherId: int, today: Day, now: Instant)
    requires WellFormed(t) && row.isActive && row.classId != 0 && !MarkedOn(t, row.key, today)
    requires RequiredColumns <= sd.Keys && sd["student_id"] == row.studentId
    ensures var qr := GenerateStudentQr(sd, true).qrData.value;
      var (t', reply) := ScanQr(t, [row], Some("<payload>"), Parsed(qr), Some(row.classId), teacherId, today, now, true);
      && reply == ScanMarked(row.fullName, row.studentId, row.rollNumber)
      && t'.rows[t.nextId].via == QrCodeMethod
      && t'.rows[t.nextId].classId == row.classId
  {
    GenerateDecodeRoundTrip(sd);
  }

  // ---------------------------------------------------------------------
  // Today's summary
  // ---------------------------------------------------------------------

  /** Some record of student `s` on day `d` has status 'present'. */
  predicate PresentRecord(t: Table, s: StudentKey, d: Day) {
    exists id :: id in t.rows && t.rows[id].student == s && t.rows[id].date == d && t.rows[id].status == Present
  }

  /** The present list: rows of the class (active or not) with a 'present' record today. */
  function PresentToday(roster: Roster, t: Table, classId: int, today: Day): (r: Roster)
    ensures forall row :: row in r <==> row in roster && row.classId == classId && PresentRecord(t, row.key, today)
  {
    Filter(roster, (row: StudentRow) => row.classId == classId && PresentRecord(t, row.key, today))
  }

  /** The absent list: active rows of the class with no 'present' record today. */
  function AbsentToday(roster: Roster, t: Table, classId: int, today: Day): (r: Roster)
    ensures forall row :: row in r <==> row in roster && row.classId == classId && row.isActive && !PresentRecord(t, row.key, today)
  {
    Filter(roster, (row: StudentRow) => row.classId == classId && row.isActive && !PresentRecord(t, row.key, today))
  }

  /** The two lists are disjoint, and every active row of the class is on exactly one of them. */
  lemma SummaryPartition(roster: Roster, t: Table, classId: int, today: Day)
    ensures forall row :: !(row in PresentToday(roster, t, classId, today) && row in AbsentToday(roster, t, classId, today))
    ensures forall row :: row in roster && row.classId == classId && row.isActive ==>
      (row in PresentToday(roster, t, classId, today) || row in AbsentToday(roster, t, classId, today))
  {
  }

  /** A face-path record makes the student present in the summary for that class. */
  lemma FaceMarkShowsPresent(
    db: Db, roster: Roster, upload: Upload, photo: string, recognition: Recognition,
    accepted: seq<bool>, classId: int, teacherId: int, today: Day, now: Instant, row: StudentRow, i: nat)
    requires WellFormed(db.attendance)
    requires upload.filename != "" && recognition.Recognised? && |accepted| == |recognition.students|
    requires row in roster && row.classId == classId
    requires i < |recognition.students| && ResolveKey(roster, recognition.students[i].studentId) == Some(row.key)
    requires accepted[i]
    requires !MarkedOn(db.attendance, row.key, today)
    ensures var (db', _) := ProcessAttendance(db, roster, true, Some(upload), photo, recognition, true, accepted, classId, teacherId, today, now);
      row in PresentToday(roster, db'.attendance, classId, today)
  {
    var (db', _) := ProcessAttendance(db, roster, true, Some(upload), photo, recognition, true, accepted, classId, teacherId, today, now);
    var t := db.attendance;
    var t' := db'.attendance;
    assert MarkedOn(t', row.key, today);
    var id :| id in t'.rows && t'.rows[id].student == row.key && t'.rows[id].date == today;
    assert id !in t.rows;
    assert FaceRowOf(t'.rows[id], classId, teacherId, today, photo);
  }
}

=== FILE: security.dfy ===
/**
 * `SecurityUtils`: password-strength rules, input sanitising, the
 * safe-filename predicate and salted password hashing. The key-derivation
 * function (PBKDF2-HMAC-SHA256 with 100000 iterations, hex-encoded) and the
 * random salt are parameters. Character classes are the ASCII ones of `Text`.
 */
module Security {
  import opened Wrappers
  import opened Text

  // ---------------------------------------------------------------------
  // validate_password_strength
  // ---------------------------------------------------------------------

  const MinPasswordLength := 8
  const SpecialChars := "!@#$%^&*()_+-=[]{}|;:,.<>?"

  predicate HasUpper(p: string) { exists i :: 0 <= i < |p| && IsUpper(p[i]) }
  predicate HasLower(p: string) { exists i :: 0 <= i < |p| && IsLower(p[i]) }
  predicate HasDigit(p: string) { exists i :: 0 <= i < |p| && IsDigit(p[i]) }
  predicate HasSpecial(p: string) { exists i :: 0 <= i < |p| && p[i] in SpecialChars }

  /** What a strong password is, independently of how the rules are checked. */
  predicate Strong(p: string) {
    |p| >= MinPasswordLength && HasUpper(p) && HasLower(p) && HasDigit(p) && HasSpecial(p)
  }

  /** The five rules, in the order they are checked. */
  datatype PasswordRule = Length | Uppercase | Lowercase | Digit | Special {
    predicate Holds(p: string) {
      match this
      case Length => |p| >= MinPasswordLength
      case Uppercase => HasUpper(p)
      case Lowercase => HasLower(p)
      case Digit => HasDigit(p)
      case Special => HasSpecial(p)
    }

    /** The rule's position in the checking order. */
    function Rank(): nat {
      match this
      case Length => 0
      case Uppercase => 1
      case Lowercase => 2
      case Digit => 3
      case Special => 4
    }

    function Message(): string {
      match this
      case Length => "Password must be at least 8 characters long"
      case Uppercase => "Password must contain at least one uppercase letter"
      case Lowercase => "Password must contain at least one lowercase letter"
      case Digit => "Password must contain at least one number"
      case Special => "Password must contain at least one special character"
    }
  }

  function Broken(rule: PasswordRule, p: string): seq<PasswordRule> {
    if rule.Holds(p) then [] else [rule]
  }

  /** The rules `p` breaks, each once, in checking order. */
  function PasswordErrors(p: string): (r: seq<PasswordRule>)
    ensures forall rule: PasswordRule :: rule in r <==> !rule.Holds(p)
    ensures forall i, j :: 0 <= i < j < |r| ==> r[i].Rank() < r[j].Rank()
    ensures |r| == 0 <==> Strong(p)
  {
    var r := Broken(Length, p) + Broken(Uppercase, p) + Broken(Lowercase, p) + Broken(Digit, p) + Broken(Special, p);
    RanksIncrease(Broken(Length, p), Broken(Uppercase, p), Broken(Lowercase, p), Broken(Digit, p), Broken(Special, p));
    r
  }

  lemma RanksIncrease(a: seq<PasswordRule>, b: seq<PasswordRule>, c: seq<PasswordRule>, d: seq<PasswordRule>, e: seq<PasswordRule>)
    requires a == [] || a == [Length]
    requires b == [] || b == [Uppercase]
    requires c == [] || c == [Lowercase]
    requires d == [] || d == [Digit]
    requires e == [] || e == [Special]
    ensures var r := a + b + c + d + e;
      forall i, j :: 0 <= i < j < |r| ==> r[i].Rank() < r[j].Rank()
  {
  }

  /** `validate_password_strength`: (is valid, the error messages). */
  function ValidatePasswordStrength(p: string): (r: (bool, seq<string>))
    ensures r.0 <==> |r.1| == 0
    ensures r.0 <==> Strong(p)
    ensures var errs := PasswordErrors(p);
      |r.1| == |errs| && forall i :: 0 <= i < |errs| ==> r.1[i] == errs[i].Message()
    ensures |p| < MinPasswordLength ==> !r.0 && r.1[0] == Length.Message()
  {
    var errs := PasswordErrors(p);
    assert |p| < MinPasswordLength ==> errs[0] == Length by {
      if |p| < MinPasswordLength {
        assert Length in errs;
      }
    }
    var msgs := seq(|errs|, i requires 0 <= i < |errs| => errs[i].Message());
    (|msgs| == 0, msgs)
  }

  // ---------------------------------------------------------------------
  // sanitize_input
  // ---------------------------------------------------------------------

  /** What the caller passes: a string, or any other value (given by its `str`). */
  datatype Input = Str(s: string) | NonString(repr: string)

  const DangerousChars: seq<char> := ['<', '>', '"', '\'', '&', '\0']

  /** The filter that drops the characters of `cs`. */
  function NotIn(cs: seq<char>): char -> bool {
    c => c !in cs
  }

  /** `s.replace(c, '')` for each `c` of `cs` in turn: one pass dropping every
      character of `cs`, the others kept in order. */
  function RemoveAll(s: string, cs: seq<char>): (r: string)
    ensures r == Keep(s, NotIn(cs))
    ensures forall c :: c in r <==> c in s && c !in cs
    decreases |cs|
  {
    if |cs| == 0 then
      assert Keep(s, NotIn(cs)) == s;
      s
    else
      var first := x => x != cs[0];
      var r := RemoveAll(Keep(s, first), cs[1..]);
      assert forall c :: c in cs <==> c == cs[0] || c in cs[1..];
      KeepBoth(s, NotIn(cs[1..]), first, NotIn(cs));
      r
  }

  /** Not one of the dangerous characters, spelt out. */
  predicate Harmless(c: char) {
    c != '<' && c != '>' && c != '"' && c != '\'' && c != '&' && c != '\0'
  }

  lemma HarmlessIsNotDangerous()
    ensures forall c :: Harmless(c) <==> NotIn(DangerousChars)(c)
  {
  }

  /** `sanitize_input`. */
  function SanitizeInput(x: Input): (r: string)
    ensures x.NonString? ==> r == x.repr
    // the dangerous characters are dropped, the rest kept in order, and the ends stripped
    ensures x.Str? ==> r == Strip(Keep(x.s, Harmless))
    ensures x.Str? ==>
      && Stripped(r)
      && (forall c :: c in DangerousChars ==> c !in r)
      && (forall c :: c in r ==> c in x.s)
      && (forall c :: c in x.s && c !in DangerousChars && !IsSpace(c) ==> c in r)
    ensures x.Str? && Stripped(x.s) && (forall c :: c in DangerousChars ==> c !in x.s) ==> r == x.s
  {
    match x
    case NonString(repr) => repr
    case Str(s) =>
      var kept := RemoveAll(s, DangerousChars);
      HarmlessIsNotDangerous();
      KeepSame(s, NotIn(DangerousChars), Harmless);
      ContainsChars(kept, Strip(kept));
      StripKeepsNonSpace(kept);
      Strip(kept)
  }

  /** Sanitising a sanitised string changes nothing. */
  lemma SanitizeIdempotent(s: string)
    ensures SanitizeInput(Str(SanitizeInput(Str(s)))) == SanitizeInput(Str(s))
  {
  }

  // ---------------------------------------------------------------------
  // is_safe_filename
  // ---------------------------------------------------------------------

  const DangerousPatterns: seq<string> := ["..", "/", "\\", ":", "*", "?", "\"", "<", ">", "|"]

  /** The single characters among the dangerous patterns. */
  const ForbiddenChars: seq<char> := ['/', '\\', ':', '*', '?', '"', '<', '>', '|']

  /** None of `ps` occurs in `name`. */
  function NoneOccur(name: string, ps: seq<string>): (r: bool)
    ensures r <==> forall i :: 0 <= i < |ps| ==> !Contains(name, ps[i])
  {
    if |ps| == 0 then true
    else !Contains(name, ps[0]) && NoneOccur(name, ps[1..])
  }

  /** `is_safe_filename`. */
  function IsSafeFilename(name: string): (r: bool)
    ensures r <==> |name| > 0 && forall i :: 0 <= i < |DangerousPatterns| ==> !Contains(name, DangerousPatterns[i])
  {
    |name| > 0 && NoneOccur(name, DangerousPatterns)
  }

  /** A name is safe iff it is non-empty, has none of the forbidden characters
      and no two dots in a row. */
  lemma SafeFilenameByCharacters(name: string)
    ensures IsSafeFilename(name) <==>
      && |name| > 0
      && (forall c :: c in ForbiddenChars ==> c !in name)
      && (forall i :: 0 <= i < |name| - 1 ==> !(name[i] == '.' && name[i + 1] == '.'))
  {
    var singles := seq(|ForbiddenChars|, i requires 0 <= i < |ForbiddenChars| => [ForbiddenChars[i]]);
    assert DangerousPatterns == [".."] + singles;
    SinglesAbsent(name, ForbiddenChars);
    DoubleDotAbsent(name);
  }

  lemma SinglesAbsent(name: string, cs: seq<char>)
    ensures var singles := seq(|cs|, i requires 0 <= i < |cs| => [cs[i]]);
      (forall i :: 0 <= i < |singles| ==> !Contains(name, singles[i])) <==> (forall c :: c in cs ==> c !in name)
  {
    var singles := seq(|cs|, i requires 0 <= i < |cs| => [cs[i]]);
    if forall i :: 0 <= i < |singles| ==> !Contains(name, singles[i]) {
      forall c | c in cs ensures c !in name {
        var i :| 0 <= i < |cs| && cs[i] == c;
        OneCharContains(name, c);
        assert !Contains(name, singles[i]);
      }
    }
    if forall c :: c in cs ==> c !in name {
      forall i | 0 <= i < |singles| ensures !Contains(name, singles[i]) {
        OneCharContains(name, cs[i]);
      }
    }
  }

  lemma OneCharContains(s: string, c: char)
    ensures Contains(s, [c]) <==> c in s
  {
    if c in s {
      var i :| 0 <= i < |s| && s[i] == c;
      assert MatchesAt(s, [c], i);
    }
    if Contains(s, [c]) {
      var j :| 0 <= j <= |s| - 1 && MatchesAt(s, [c], j);
      assert s[j] == s[j..j + 1][0];
    }
  }

  lemma DoubleDotAbsent(s: string)
    ensures !Contains(s, "..") <==> forall i :: 0 <= i < |s| - 1 ==> !(s[i] == '.' && s[i + 1] == '.')
  {
    if Contains(s, "..") {
      var j :| 0 <= j <= |s| - 2 && MatchesAt(s, "..", j);
      assert s[j] == s[j..j + 2][0] && s[j + 1] == s[j..j + 2][1];
    }
    if i :| 0 <= i < |s| - 1 && s[i] == '.' && s[i + 1] == '.' {
      assert s[i..i + 2] == "..";
      assert MatchesAt(s, "..", i);
    }
  }

  // ---------------------------------------------------------------------
  // hash_password / verify_password
  // ---------------------------------------------------------------------

  /** The key-derivation function, from (password, salt) to a hex digest. */
  type Kdf = (string, string) -> string

  /** `hash_password`: (digest, salt); without a salt, `freshSalt` (a random token) is used. */
  function HashPassword(kdf: Kdf, password: string, salt: Option<string>, freshSalt: string): (r: (string, string))
    ensures salt.Some? ==> r.1 == salt.value
    ensures salt.None? ==> r.1 == freshSalt
    ensures r.0 == kdf(password, r.1)
  {
    var s := salt.GetOr(freshSalt);
    (kdf(password, s), s)
  }

  /** `verify_password`: recompute under the stored salt and compare. */
  function VerifyPassword(kdf: Kdf, password: string, hash: string, salt: string): (r: bool)
    ensures r <==> kdf(password, salt) == hash
  {
    HashPassword(kdf, password, Some(salt), salt).0 == hash
  }

  /** A password verifies against the digest and salt hashing it produced. */
  lemma HashVerifyRoundTrip(kdf: Kdf, password: string, salt: Option<string>, freshSalt: string)
    ensures var (h, s) := HashPassword(kdf, password, salt, freshSalt);
      VerifyPassword(kdf, password, h, s)
  {
  }
}

=== FILE: seqs.dfy ===
/** List comprehensions the application writes inline. */
module Seqs {

  /** `[x for x in s if p(x)]`: the elements satisfying `p`, in their original order. */
  function Filter<T(!new)>(s: seq<T>, p: T -> bool): (r: seq<T>)
    ensures |r| <= |s|
    ensures forall x :: x in r <==> x in s && p(x)
  {
    if |s| == 0 then []
    else
      var rest := Filter(s[1..], p);
      assert forall x :: x in s <==> x == s[0] || x in s[1..];
      if p(s[0]) then [s[0]] + rest else rest
  }

  /** `[f(x) for x in s]`. */
  function Map<T, U>(s: seq<T>, f: T -> U): (r: seq<U>)
    ensures |r| == |s|
    ensures forall i :: 0 <= i < |s| ==> r[i] == f(s[i])
  {
    seq(|s|, i requires 0 <= i < |s| => f(s[i]))
  }
}

=== FILE: sql.dfy ===
/**
 * The parameterised SQL the models assemble by string concatenation: an
 * UPDATE whose SET list is built from the caller's fields, and a SELECT with
 * an optional extra condition. A statement is kept as a structured value; its
 * rendering gives the SQL text, and the driver binds the i-th `%s` to the
 * i-th parameter. A small evaluator gives each statement its meaning on rows
 * (maps from column name to value), with MySQL's rule that NULL compares
 * equal to nothing.
 */
module Sql {
  import opened Wrappers
  import opened Text

  datatype Value = Null | String(s: string) | Integer(i: int) | Boolean(b: bool) | DateValue(day: int)

  /** Python's truthiness of a parameter value. */
  predicate Truthy(v: Value) {
    match v
    case Null => false
    case String(s) => |s| > 0
    case Integer(i) => i != 0
    case Boolean(b) => b
    case DateValue(_) => true
  }

  /** SQL `a = b`: NULL on either side is not equal. */
  predicate SqlEq(a: Value, b: Value) {
    a != Null && b != Null && a == b
  }

  /** SQL `a != b`: NULL on either side is not unequal either. */
  predicate SqlNe(a: Value, b: Value) {
    a != Null && b != Null && a != b
  }

  type Row = map<string, Value>

  /** Column `c` has the same value (or the same absence) in both rows. */
  predicate SameColumn(row: Row, row': Row, c: string) {
    (c in row <==> c in row') && (c in row ==> row[c] == row'[c])
  }

  // ---------------------------------------------------------------------
  // UPDATE ... SET ... WHERE key = %s
  // ---------------------------------------------------------------------

  datatype Assignment = Assign(column: string) | TouchUpdatedAt {
    function Render(): string {
      match this
      case Assign(c) => c + " = %s"
      case TouchUpdatedAt => "updated_at = CURRENT_TIMESTAMP"
    }
  }

  /** The number of `%s` in a SET list. */
  function AssignmentSlots(assignments: seq<Assignment>): nat {
    if |assignments| == 0 then 0
    else (if assignments[0].Assign? then 1 else 0) + AssignmentSlots(assignments[1..])
  }

  datatype UpdateStatement = UpdateStatement(
    table: string, assignments: seq<Assignment>, keyColumn: string, params: seq<Value>)
  {
    function Render(): string {
      "UPDATE " + table + " SET " + Join(seq(|assignments|, i requires 0 <= i < |assignments| => assignments[i].Render()), ", ")
      + " WHERE " + keyColumn + " = %s"
    }

    /** One parameter per `%s`: those of the SET list, then the key's. */
    predicate WellBound() {
      AssignmentSlots(assignments) + 1 == |params|
    }

    /** The parameter bound to the WHERE clause. */
    function Key(): Value
      requires WellBound()
    {
      params[|params| - 1]
    }
  }

  /** The (column, value) pairs the SET list writes, binding the placeholders in order. */
  function Bind(assignments: seq<Assignment>, params: seq<Value>): (r: seq<(string, Value)>)
    requires AssignmentSlots(assignments) <= |params|
    ensures |r| == AssignmentSlots(assignments)
    ensures forall w :: w in r ==> Assign(w.0) in assignments
  {
    if |assignments| == 0 then []
    else
      match assignments[0]
      case TouchUpdatedAt => Bind(assignments[1..], params)
      case Assign(c) => [(c, params[0])] + Bind(assignments[1..], params[1..])
  }

  function SetList(writes: seq<(string, Value)>): seq<Assignment> {
    seq(|writes|, i requires 0 <= i < |writes| => Assign(writes[i].0))
  }

  function Values(writes: seq<(string, Value)>): seq<Value> {
    seq(|writes|, i requires 0 <= i < |writes| => writes[i].1)
  }

  /** The columns a list of writes names. */
  function ColumnsOf(writes: seq<(string, Value)>): set<string> {
    set w | w in writes :: w.0
  }

  /** The tail of the dynamic UPDATE builders: no writes means no statement;
      otherwise one `column = %s` per write, then the timestamp, then the key. */
  function BuildUpdate(table: string, keyColumn: string, writes: seq<(string, Value)>, key: Value)
    : (r: Option<UpdateStatement>)
    ensures r.None? <==> |writes| == 0
    ensures r.Some? ==>
      && r.value.table == table && r.value.keyColumn == keyColumn
      && r.value.WellBound()
      && r.value.Key() == key
      && |r.value.assignments| == |writes| + 1
      && r.value.assignments[|writes|] == TouchUpdatedAt
      && (forall c :: Assign(c) in r.value.assignments ==> c in ColumnsOf(writes))
      // each column receives the value written for it
      && Bind(r.value.assignments, r.value.params) == writes
  {
    if |writes| == 0 then None
    else
      var u := UpdateStatement(table, SetList(writes) + [TouchUpdatedAt], keyColumn, Values(writes) + [key]);
      BindSetList(writes, key);
      assert forall c :: Assign(c) in u.assignments ==> c in ColumnsOf(writes) by {
        forall c | Assign(c) in u.assignments ensures c in ColumnsOf(writes) {
          var i :| 0 <= i < |u.assignments| && u.assignments[i] == Assign(c);
          assert writes[i] in writes;
        }
      }
      Some(u)
  }

  lemma {:induction false} SetListSlots(writes: seq<(string, Value)>)
    ensures AssignmentSlots(SetList(writes) + [TouchUpdatedAt]) == |writes|
    decreases |writes|
  {
    var a := SetList(writes) + [TouchUpdatedAt];
    if |writes| == 0 {
      assert a[1..] == [];
    } else {
      SetListSlots(writes[1..]);
      assert a[1..] == SetList(writes[1..]) + [TouchUpdatedAt];
    }
  }

  lemma {:induction false} BindSetList(writes: seq<(string, Value)>, key: Value)
    ensures AssignmentSlots(SetList(writes) + [TouchUpdatedAt]) == |writes|
    ensures Bind(SetList(writes) + [TouchUpdatedAt], Values(writes) + [key]) == writes
    decreases |writes|
  {
    SetListSlots(writes);
    var a := SetList(writes) + [TouchUpdatedAt];
    if |writes| == 0 {
      assert a[1..] == [];
    } else {
      BindSetList(writes[1..], key);
      SetListCons(writes, key);
      BindCons(writes[0].0, SetList(writes[1..]) + [TouchUpdatedAt], writes[0].1, Values(writes[1..]) + [key]);
    }
  }

  /** The SET list and the parameters of non-empty writes, split at the first write. */
  lemma SetListCons(writes: seq<(string, Value)>, key: Value)
    requires |writes| > 0
    ensures SetList(writes) + [TouchUpdatedAt] == [Assign(writes[0].0)] + (SetList(writes[1..]) + [TouchUpdatedAt])
    ensures Values(writes) + [key] == [writes[0].1] + (Values(writes[1..]) + [key])
    ensures writes == [(writes[0].0, writes[0].1)] + writes[1..]
  {
  }

  /** Binding a leading `column = %s` consumes the first parameter. */
  lemma BindCons(c: string, a: seq<Assignment>, v: Value, p: seq<Value>)
    requires AssignmentSlots(a) <= |p|
    ensures AssignmentSlots([Assign(c)] + a) <= |[v] + p|
    ensures Bind([Assign(c)] + a, [v] + p) == [(c, v)] + Bind(a, p)
  {
    assert ([Assign(c)] + a)[1..] == a;
    assert ([v] + p)[1..] == p;
  }

  /** The row after the SET list's writes, in order. */
  function Assigned(row: Row, writes: seq<(string, Value)>): (r: Row)
    ensures forall c :: c !in ColumnsOf(writes) ==> SameColumn(row, r, c)
    decreases |writes|
  {
    if |writes| == 0 then row
    else
      assert ColumnsOf(writes) == {writes[0].0} + ColumnsOf(writes[1..]);
      Assigned(row[writes[0].0 := writes[0].1], writes[1..])
  }

  /** One row under the statement, when its key column equals the key. */
  function UpdatedRow(u: UpdateStatement, row: Row, now: Value): (r: Row)
    requires u.WellBound()
    ensures forall c :: Assign(c) !in u.assignments && c != "updated_at" ==> SameColumn(row, r, c)
  {
    var writes := Bind(u.assignments, u.params);
    assert forall c :: Assign(c) !in u.assignments ==> c !in ColumnsOf(writes);
    var row' := Assigned(row, writes);
    if TouchUpdatedAt in u.assignments then row'["updated_at" := now] else row'
  }

  /** Executing the statement: every row whose key column equals the key gets the writes
      and the new timestamp; the other rows stay as they were. */
  function ApplyUpdate(u: UpdateStatement, rows: seq<Row>, now: Value): (r: seq<Row>)
    requires u.WellBound()
    ensures |r| == |rows|
    ensures forall i :: 0 <= i < |rows| && !(u.keyColumn in rows[i] && SqlEq(rows[i][u.keyColumn], u.Key())) ==>
      r[i] == rows[i]
    // a column the statement does not name keeps its value in every row
    ensures forall c, i :: 0 <= i < |rows| && Assign(c) !in u.assignments && c != "updated_at" ==>
      SameColumn(rows[i], r[i], c)
  {
    seq(|rows|, i requires 0 <= i < |rows| =>
      if u.keyColumn in rows[i] && SqlEq(rows[i][u.keyColumn], u.Key()) then UpdatedRow(u, rows[i], now)
      else rows[i])
  }

  /** A statement whose SET list names only columns of `allowed` leaves the columns of
      `kept` (outside `allowed`, and not the timestamp) as they were, in every row. */
  lemma OnlyNamedColumnsChange(u: UpdateStatement, rows: seq<Row>, now: Value, allowed: set<string>, kept: set<string>)
    requires u.WellBound()
    requires forall c :: Assign(c) in u.assignments ==> c in allowed
    requires kept !! allowed && "updated_at" !in kept
    ensures forall c, i :: c in kept && 0 <= i < |rows| ==> SameColumn(rows[i], ApplyUpdate(u, rows, now)[i], c)
  {
  }

  // ---------------------------------------------------------------------
  // SELECT id FROM ... WHERE ...
  // ---------------------------------------------------------------------

  datatype Condition = Equals(column: string) | NotEquals(column: string) | IsTrue(column: string) {
    function Render(): string {
      match this
      case Equals(c) => c + " = %s"
      case NotEquals(c) => c + " != %s"
      case IsTrue(c) => c + " = TRUE"
    }
  }

  function ConditionSlots(conditions: seq<Condition>): nat {
    if |conditions| == 0 then 0
    else (if conditions[0].IsTrue? then 0 else 1) + ConditionSlots(conditions[1..])
  }

  datatype SelectStatement = SelectStatement(table: string, conditions: seq<Condition>, params: seq<Value>) {
    function Render(): string {
      "SELECT id FROM " + table + " WHERE "
      + Join(seq(|conditions|, i requires 0 <= i < |conditions| => conditions[i].Render()), " AND ")
    }

    predicate WellBound() {
      ConditionSlots(conditions) == |params|
    }
  }

  /** The row satisfies every condition, the placeholders bound in order. */
  predicate Satisfies(row: Row, conditions: seq<Condition>, params: seq<Value>)
    requires ConditionSlots(conditions) == |params|
  {
    if |conditions| == 0 then true
    else
      match conditions[0]
      case Equals(c) => c in row && SqlEq(row[c], params[0]) && Satisfies(row, conditions[1..], params[1..])
      case NotEquals(c) => c in row && SqlNe(row[c], params[0]) && Satisfies(row, conditions[1..], params[1..])
      case IsTrue(c) => c in row && row[c] == Boolean(true) && Satisfies(row, conditions[1..], params)
  }

  predicate Selects(q: SelectStatement, row: Row)
    requires q.WellBound()
  {
    Satisfies(row, q.conditions, q.params)
  }

  /** `len(result) > 0`: some row is selected. */
  predicate AnySelected(q: SelectStatement, rows: seq<Row>)
    requires q.WellBound()
  {
    exists i :: 0 <= i < |rows| && Selects(q, rows[i])
  }

  /** `if exclude: query += " AND <column> != %s"; params.append(exclude)`. */
  function Excluding(q: SelectStatement, column: string, exclude: Value): (r: SelectStatement)
    requires q.WellBound()
    ensures r.WellBound() && r.table == q.table
    ensures Truthy(exclude) ==> |r.params| == |q.params| + 1
    ensures !Truthy(exclude) ==> r == q
    // the meaning: a truthy value adds the condition, a falsy one is ignored
    ensures forall row :: Selects(r, row) <==>
      Selects(q, row) && (Truthy(exclude) ==> column in row && SqlNe(row[column], exclude))
  {
    if Truthy(exclude) then
      var r := SelectStatement(q.table, q.conditions + [NotEquals(column)], q.params + [exclude]);
      ConditionSlotsAppend(q.conditions, NotEquals(column));
      forall row ensures Selects(r, row) <==> Selects(q, row) && column in row && SqlNe(row[column], exclude) {
        SatisfiesAppend(row, q.conditions, q.params, column, exclude);
      }
      r
    else q
  }

  lemma {:induction false} SatisfiesAppend(row: Row, conditions: seq<Condition>, params: seq<Value>, column: string, v: Value)
    requires ConditionSlots(conditions) == |params|
    requires ConditionSlots(conditions + [NotEquals(column)]) == |params| + 1
    ensures Satisfies(row, conditions + [NotEquals(column)], params + [v]) <==>
      Satisfies(row, conditions, params) && column in row && SqlNe(row[column], v)
    decreases |conditions|
  {
    var cs := conditions + [NotEquals(column)];
    var ps := params + [v];
    if |conditions| == 0 {
      assert cs == [NotEquals(column)] && ps == [v];
      assert cs[1..] == [] && ps[1..] == [];
    } else {
      assert cs[1..] == conditions[1..] + [NotEquals(column)];
      ConditionSlotsAppend(conditions[1..], NotEquals(column));
      if conditions[0].IsTrue? {
        SatisfiesAppend(row, conditions[1..], params, column, v);
      } else {
        assert ps[1..] == params[1..] + [v];
        SatisfiesAppend(row, conditions[1..], params[1..], column, v);
      }
    }
  }

  lemma {:induction false} ConditionSlotsAppend(conditions: seq<Condition>, c: Condition)
    ensures ConditionSlots(conditions + [c]) == ConditionSlots(conditions) + ConditionSlots([c])
    decreases |conditions|
  {
    if |conditions| == 0 {
      assert conditions + [c] == [c];
    } else {
      assert (conditions + [c])[1..] == conditions[1..] + [c];
      ConditionSlotsAppend(conditions[1..], c);
    }
  }
}

=== FILE: student_model.dfy ===
/**
 * `StudentModel`: the statements it builds for creating and updating a
 * student, and the roll-number check with its optional exclusion. The
 * database's answer is an input: whether the statement affected a row, and
 * the id it assigned.
 */
module StudentModel {
  import opened Wrappers
  import opened Seqs
  import opened Sql

  // ---------------------------------------------------------------------
  // update_student
  // ---------------------------------------------------------------------

  /** The only columns `update_student` writes. */
  const UpdatableColumns: set<string> :=
    {"full_name", "father_name", "mother_name", "date_of_birth", "address", "phone",
     "photo_filename", "qr_code", "consent_given"}

  /** Columns that identify or place a student. */
  const ProtectedColumns: set<string> := {"student_id", "class_id", "roll_number", "is_active"}

  datatype UpdateOutcome = UpdateOutcome(success: bool, message: string, statement: Option<UpdateStatement>)

  /** The (column, value) pairs of `update_data`, in insertion order, that the loop keeps. */
  function StudentWrites(data: seq<(string, Value)>): (r: seq<(string, Value)>)
    ensures forall w :: w in r <==> w in data && w.0 in UpdatableColumns
    ensures ColumnsOf(r) <= UpdatableColumns
  {
    Filter(data, (w: (string, Value)) => w.0 in UpdatableColumns)
  }

  /** `update_student`; `affected` is whether the UPDATE changed a row. */
  function UpdateStudent(studentId: Value, data: seq<(string, Value)>, affected: bool): (r: UpdateOutcome)
    ensures r.statement.None? <==> forall w :: w in data ==> w.0 !in UpdatableColumns
    ensures r.statement.None? ==> r == UpdateOutcome(false, "No valid fields to update", None)
    ensures r.statement.Some? ==>
      var u := r.statement.value;
      && u.table == "students" && u.keyColumn == "student_id"
      && u.WellBound() && u.Key() == studentId
      && |u.assignments| > 0 && u.assignments[|u.assignments| - 1] == TouchUpdatedAt
      && (forall c :: Assign(c) in u.assignments ==> c in UpdatableColumns)
      // every kept field is bound to its own placeholder
      && (forall w :: w in Bind(u.assignments, u.params) <==> w in data && w.0 in UpdatableColumns)
    ensures r.success <==> r.statement.Some? && affected
    ensures r.statement.Some? ==>
      r.message == (if affected then "Student updated successfully" else "Failed to update student")
  {
    var writes := StudentWrites(data);
    if |writes| == 0 then
      UpdateOutcome(false, "No valid fields to update", None)
    else
      var u := BuildUpdate("students", "student_id", writes, studentId).value;
      assert writes[0] in data;
      UpdateOutcome(affected, if affected then "Student updated successfully" else "Failed to update student", Some(u))
  }

  /** However the update data is chosen, no row's student_id, class_id, roll_number
      or is_active changes when the statement runs. */
  lemma UpdateKeepsProtectedColumns(studentId: Value, data: seq<(string, Value)>, affected: bool,
                                    rows: seq<Row>, now: Value)
    requires exists w :: w in data && w.0 in UpdatableColumns
    ensures var u := UpdateStudent(studentId, data, affected).statement.value;
      var rows' := ApplyUpdate(u, rows, now);
      forall c, i :: c in ProtectedColumns && 0 <= i < |rows| ==> SameColumn(rows[i], rows'[i], c)
  {
    var u := UpdateStudent(studentId, data, affected).statement.value;
    ProtectedNotUpdatable();
    OnlyNamedColumnsChange(u, rows, now, UpdatableColumns, ProtectedColumns);
  }

  lemma ProtectedNotUpdatable()
    ensures ProtectedColumns !! UpdatableColumns && "updated_at" !in ProtectedColumns
  {
  }

  // ---------------------------------------------------------------------
  // create_student
  // ---------------------------------------------------------------------

  /** The INSERT's columns, in order. */
  const InsertColumns: seq<string> :=
    ["student_id", "full_name", "class_id", "roll_number", "father_name", "mother_name",
     "date_of_birth", "address", "phone", "photo_filename", "qr_code", "enrollment_date", "consent_given"]

  /** The columns read with `student_data[...]`; the others use `.get` with a default. */
  const RequiredCount := 4

  /** The default `.get` supplies for an optional column. */
  function Default(column: string, today: int): Value {
    if column in {"father_name", "mother_name", "address", "phone"} then String("")
    else if column == "enrollment_date" then DateValue(today)
    else if column == "consent_given" then Boolean(false)
    else Null
  }

  /** The INSERT's parameters. A missing required column raises KeyError, reported
      as the column name in quotes. */
  function CreateParams(data: map<string, Value>, today: int): (r: Result<seq<Value>, string>)
    ensures r.Ok? <==> forall i :: 0 <= i < RequiredCount ==> InsertColumns[i] in data
    ensures r.Err? ==> exists i :: 0 <= i < RequiredCount && InsertColumns[i] !in data
                                   && r.error == "'" + InsertColumns[i] + "'"
                                   && forall j :: 0 <= j < i ==> InsertColumns[j] in data
    ensures r.Ok? ==> |r.value| == |InsertColumns| && forall i :: 0 <= i < |InsertColumns| ==>
      r.value[i] == (if InsertColumns[i] in data then data[InsertColumns[i]] else Default(InsertColumns[i], today))
  {
    FirstMissing(data, 0, today)
  }

  function FirstMissing(data: map<string, Value>, k: nat, today: int): (r: Result<seq<Value>, string>)
    requires k <= RequiredCount
    requires forall j :: 0 <= j < k ==> InsertColumns[j] in data
    ensures r.Ok? <==> forall i :: 0 <= i < RequiredCount ==> InsertColumns[i] in data
    ensures r.Err? ==> exists i :: k <= i < RequiredCount && InsertColumns[i] !in data
                                   && r.error == "'" + InsertColumns[i] + "'"
                                   && forall j :: 0 <= j < i ==> InsertColumns[j] in data
    ensures r.Ok? ==> |r.value| == |InsertColumns| && forall i :: 0 <= i < |InsertColumns| ==>
      r.value[i] == (if InsertColumns[i] in data then data[InsertColumns[i]] else Default(InsertColumns[i], today))
    decreases RequiredCount - k
  {
    if k == RequiredCount then
      Ok(seq(|InsertColumns|, i requires 0 <= i < |InsertColumns| =>
        if InsertColumns[i] in data then data[InsertColumns[i]] else Default(InsertColumns[i], today)))
    else if InsertColumns[k] !in data then Err("'" + InsertColumns[k] + "'")
    else FirstMissing(data, k + 1, today)
  }

  datatype CreateOutcome = CreateOutcome(success: bool, message: string, id: Option<nat>)

  /** `create_student`; `affected` and `lastId` are the INSERT's answer. */
  function CreateStudent(data: map<string, Value>, today: int, affected: bool, lastId: nat): (r: CreateOutcome)
    ensures r.success <==> (forall i :: 0 <= i < RequiredCount ==> InsertColumns[i] in data) && affected
    ensures r.success ==> r == CreateOutcome(true, "Student created successfully", Some(lastId))
    ensures !r.success ==> r.id.None?
    ensures CreateParams(data, today).Err? ==> r.message == "Error: " + CreateParams(data, today).error
    ensures CreateParams(data, today).Ok? && !affected ==> r == CreateOutcome(false, "Failed to create student", None)
  {
    match CreateParams(data, today)
    case Err(e) => CreateOutcome(false, "Error: " + e, None)
    case Ok(_) =>
      if affected then CreateOutcome(true, "Student created successfully", Some(lastId))
      else CreateOutcome(false, "Failed to create student", None)
  }

  /** The defaults: with only the required columns given, the optional ones are
      '' for parents, address and phone, NULL for date of birth, photo and QR code,
      today for the enrolment date and false for consent. */
  lemma CreateDefaults(sid: Value, name: Value, classId: Value, roll: Value, today: int)
    ensures var data := map["student_id" := sid, "full_name" := name, "class_id" := classId, "roll_number" := roll];
      var r := CreateParams(data, today);
      && r.Ok?
      && r.value[..RequiredCount] == [sid, name, classId, roll]
      && forall i :: RequiredCount <= i < |InsertColumns| ==> r.value[i] == Default(InsertColumns[i], today)
  {
    var data := map["student_id" := sid, "full_name" := name, "class_id" := classId, "roll_number" := roll];
    assert forall i :: RequiredCount <= i < |InsertColumns| ==> InsertColumns[i] !in data;
  }

  // ---------------------------------------------------------------------
  // check_roll_number_exists
  // ---------------------------------------------------------------------

  /** The query `check_roll_number_exists` sends. */
  function RollNumberQuery(roll: Value, classId: Value, exclude: Value): (q: SelectStatement)
    ensures q.WellBound()
    ensures |q.params| == (if Truthy(exclude) then 3 else 2)
  {
    var base := SelectStatement("students", [Equals("roll_number"), Equals("class_id"), IsTrue("is_active")], [roll, classId]);
    assert base.conditions[1..][1..][1..] == [];
    Excluding(base, "student_id", exclude)
  }

  /** What the query selects: an active student of the class with that roll number,
      other than the excluded student when the exclusion value is truthy. */
  lemma RollNumberQueryMeaning(roll: Value, classId: Value, exclude: Value, row: Row)
    ensures Selects(RollNumberQuery(roll, classId, exclude), row) <==>
      && "roll_number" in row && SqlEq(row["roll_number"], roll)
      && "class_id" in row && SqlEq(row["class_id"], classId)
      && "is_active" in row && row["is_active"] == Boolean(true)
      && (Truthy(exclude) ==> "student_id" in row && SqlNe(row["student_id"], exclude))
  {
    var cs := [Equals("roll_number"), Equals("class_id"), IsTrue("is_active")];
    var base := SelectStatement("students", cs, [roll, classId]);
    assert cs[1..] == [Equals("class_id"), IsTrue("is_active")];
    assert cs[1..][1..] == [IsTrue("is_active")];
    assert cs[1..][1..][1..] == [];
    assert [roll, classId][1..] == [classId] && [classId][1..] == [];
    assert Satisfies(row, [IsTrue("is_active")], []) <==> "is_active" in row && row["is_active"] == Boolean(true);
    assert Satisfies(row, cs[1..], [classId]) <==>
      "class_id" in row && SqlEq(row["class_id"], classId) && Satisfies(row, [IsTrue("is_active")], []);
  }

  /** `check_roll_number_exists`: whether some row is selected. */
  function RollNumberExists(rows: seq<Row>, roll: Value, classId: Value, exclude: Value): (r: bool)
    ensures r <==> exists i :: 0 <= i < |rows| && Selects(RollNumberQuery(roll, classId, exclude), rows[i])
  {
    AnySelected(RollNumberQuery(roll, classId, exclude), rows)
  }

  /** An excluded student id of 0 or '' is falsy, so it excludes nobody. */
  lemma FalsyExclusionIgnored(rows: seq<Row>, roll: Value, classId: Value)
    ensures RollNumberExists(rows, roll, classId, Integer(0)) == RollNumberExists(rows, roll, classId, Null)
    ensures RollNumberExists(rows, roll, classId, String("")) == RollNumberExists(rows, roll, classId, Null)
  {
  }
}

=== FILE: text.dfy ===
/**
 * The handful of Python `str` operations the application relies on, as pure
 * functions on `string` (= `seq<char>`). Letters and digits are the ASCII
 * ones; whitespace is every character Python's `str.isspace` accepts.
 */
module Text {
  import opened Wrappers

  // ---------------------------------------------------------------------
  // Character classes
  // ---------------------------------------------------------------------

  /** Python's `str.isspace`, which `strip()` and `split()` use. */
  predicate IsSpace(c: char) {
    || '\t' <= c <= '\r' || '\U{001C}' <= c <= ' '
    || c == '\U{0085}' || c == '\U{00A0}' || c == '\U{1680}'
    || '\U{2000}' <= c <= '\U{200A}' || c == '\U{2028}' || c == '\U{2029}'
    || c == '\U{202F}' || c == '\U{205F}' || c == '\U{3000}'
  }

  predicate IsUpper(c: char) { 'A' <= c <= 'Z' }
  predicate IsLower(c: char) { 'a' <= c <= 'z' }
  predicate IsDigit(c: char) { '0' <= c <= '9' }
  predicate IsAlpha(c: char) { IsUpper(c) || IsLower(c) }
  predicate IsAlnum(c: char) { IsAlpha(c) || IsDigit(c) }

  /** Python's `s.isalnum()`: false on the empty string. */
  predicate AllAlnum(s: string) {
    |s| > 0 && forall c :: c in s ==> IsAlnum(c)
  }

  function ToLower(c: char): (r: char)
    ensures IsUpper(c) ==> IsLower(r)
    ensures !IsUpper(c) ==> r == c
  {
    if IsUpper(c) then (c as int - 'A' as int + 'a' as int) as char else c
  }

  /** `s.lower()`, restricted to ASCII letters, so it keeps every index in place. */
  function Lower(s: string): (r: string)
    ensures |r| == |s|
    ensures forall i :: 0 <= i < |s| ==> r[i] == ToLower(s[i])
  {
    seq(|s|, i requires 0 <= i < |s| => ToLower(s[i]))
  }

  // ---------------------------------------------------------------------
  // strip()
  // ---------------------------------------------------------------------

  /** Neither end of `s` is whitespace. */
  predicate Stripped(s: string) {
    |s| == 0 || (!IsSpace(s[0]) && !IsSpace(s[|s| - 1]))
  }

  function TrimLeft(s: string): (r: string)
    ensures |r| <= |s| && r == s[|s| - |r|..]
    ensures |r| > 0 ==> !IsSpace(r[0])
    ensures forall i :: 0 <= i < |s| - |r| ==> IsSpace(s[i])
  {
    if |s| > 0 && IsSpace(s[0]) then TrimLeft(s[1..]) else s
  }

  function TrimRight(s: string): (r: string)
    ensures |r| <= |s| && r == s[..|r|]
    ensures |r| > 0 ==> !IsSpace(r[|r| - 1])
    ensures forall i :: |r| <= i < |s| ==> IsSpace(s[i])
  {
    if |s| > 0 && IsSpace(s[|s| - 1]) then TrimRight(s[..|s| - 1]) else s
  }

  /** Containment is transitive. */
  lemma ContainsTrans(s: string, u: string, t: string)
    requires Contains(s, u) && Contains(u, t)
    ensures Contains(s, t)
  {
    var b :| 0 <= b <= |s| - |u| && MatchesAt(s, u, b);
    var a :| 0 <= a <= |u| - |t| && MatchesAt(u, t, a);
    assert u == s[b..b + |u|] && t == u[a..a + |t|];
    forall i | 0 <= i < |t| ensures t[i] == s[b + a + i] {
      assert t[i] == u[a + i];
    }
    assert t == s[b + a..b + a + |t|];
    assert MatchesAt(s, t, b + a);
  }

  /** A piece of a tail is a piece of the whole. */
  lemma ContainsTail(s: string, k: nat, t: string)
    requires k <= |s| && Contains(s[k..], t)
    ensures Contains(s, t)
  {
    assert MatchesAt(s, s[k..], k);
    ContainsTrans(s, s[k..], t);
  }

  /** Every character of a contained string occurs in the container. */
  lemma ContainsChars(s: string, t: string)
    requires Contains(s, t)
    ensures forall c :: c in t ==> c in s
  {
    var a :| 0 <= a <= |s| - |t| && MatchesAt(s, t, a);
    forall c | c in t ensures c in s {
      var i :| 0 <= i < |t| && t[i] == c;
      assert s[a + i] == c;
    }
  }

  /** Every character of `s` is whitespace. */
  predicate AllSpace(s: string) {
    forall i :: 0 <= i < |s| ==> IsSpace(s[i])
  }

  /** `s` is `r`, starting at `k`, with only whitespace before and after it. */
  predicate PaddedAt(s: string, r: string, k: int) {
    0 <= k <= |s| - |r| && s[k..k + |r|] == r && AllSpace(s[..k]) && AllSpace(s[k + |r|..])
  }

  /** `s.strip()`: `s` with its leading and trailing whitespace removed, so the
      piece of `s` between whitespace-only ends that itself has no whitespace at
      either end (`StripUnique` shows there is only one). */
  function Strip(s: string): (r: string)
    ensures Stripped(r)
    ensures exists k :: PaddedAt(s, r, k)
    ensures |r| <= |s| && Contains(s, r)
    ensures Stripped(s) ==> r == s
  {
    var t := TrimLeft(s);
    var r := TrimRight(t);
    PrefixOfSuffix(s, t, r);
    StripPaddedAt(s, t, r);
    r
  }

  /** A prefix of a suffix, with whitespace cut off at both ends, is padded. */
  lemma StripPaddedAt(s: string, t: string, r: string)
    requires |t| <= |s| && t == s[|s| - |t|..] && forall i :: 0 <= i < |s| - |t| ==> IsSpace(s[i])
    requires |r| <= |t| && r == t[..|r|] && forall i :: |r| <= i < |t| ==> IsSpace(t[i])
    ensures PaddedAt(s, r, |s| - |t|)
  {
    var k := |s| - |t|;
    var lead, trail := s[..k], s[k + |r|..];
    assert forall i :: 0 <= i < |lead| ==> lead[i] == s[i];
    assert forall i :: 0 <= i < |trail| ==> trail[i] == t[|r| + i];
  }

  /** Trailing whitespace does not change what `rstrip` leaves. */
  lemma {:induction false} TrimRightPadded(y: string, g: string)
    requires AllSpace(g)
    ensures TrimRight(y + g) == TrimRight(y)
  {
    if |g| == 0 {
      assert y + g == y;
    } else {
      var g' := g[..|g| - 1];
      assert (y + g)[..|y + g| - 1] == y + g';
      TrimRightPadded(y, g');
    }
  }

  /** The contract of `Strip` determines its result: the piece between
      whitespace-only ends that has no whitespace at either end is the stripped text. */
  lemma StripUnique(s: string, r: string, k: int)
    requires PaddedAt(s, r, k) && Stripped(r)
    ensures Strip(s) == r
  {
    var a, b := s[..k], s[k + |r|..];
    assert s == a + (r + b);
    TrimLeftPadded(a, r + b);
    if |r| == 0 {
      assert r + b == b && b + "" == b;
      TrimLeftPadded(b, "");
    } else {
      assert TrimLeft(r + b) == r + b;
      TrimRightPadded(r, b);
    }
  }

  /** A prefix of a suffix is a contiguous piece. */
  lemma PrefixOfSuffix(s: string, t: string, r: string)
    requires |t| <= |s| && t == s[|s| - |t|..]
    requires |r| <= |t| && r == t[..|r|]
    ensures Contains(s, r)
  {
    var k := |s| - |t|;
    assert r == s[k..k + |r|];
    assert MatchesAt(s, r, k);
  }

  /** Stripping removes whitespace only. */
  lemma StripKeepsNonSpace(s: string)
    ensures forall c :: c in s && !IsSpace(c) ==> c in Strip(s)
  {
    forall c | c in s && !IsSpace(c) ensures c in Strip(s) {
      var i :| 0 <= i < |s| && s[i] == c;
      StripKeepsIndex(s, i);
    }
  }

  lemma StripKeepsIndex(s: string, i: int)
    requires 0 <= i < |s| && !IsSpace(s[i])
    ensures s[i] in Strip(s)
  {
    var t := TrimLeft(s);
    var k := |s| - |t|;
    assert k <= i && t[i - k] == s[i];
    assert TrimRight(t)[i - k] == s[i];
  }

  /** Leading whitespace does not change what `strip` leaves. */
  lemma {:induction false} TrimLeftPadded(g: string, y: string)
    requires AllSpace(g)
    ensures TrimLeft(g + y) == TrimLeft(y)
  {
    if |g| == 0 {
      assert g + y == y;
    } else {
      assert (g + y)[1..] == g[1..] + y;
      TrimLeftPadded(g[1..], y);
    }
  }

  /** Stripping a text that is whitespace followed by a word-bounded text gives that text. */
  lemma StripPadded(g: string, y: string)
    requires forall i :: 0 <= i < |g| ==> IsSpace(g[i])
    requires |y| > 0 && !IsSpace(y[0]) && !IsSpace(y[|y| - 1])
    ensures Strip(g + y) == y
  {
    TrimLeftPadded(g, y);
  }

  // ---------------------------------------------------------------------
  // Substring search: `pat in s` and `s.find(pat)`
  // ---------------------------------------------------------------------

  predicate MatchesAt(s: string, pat: string, j: int) {
    0 <= j && j + |pat| <= |s| && s[j..j + |pat|] == pat
  }

  predicate Contains(s: string, pat: string) {
    exists j :: 0 <= j <= |s| - |pat| && MatchesAt(s, pat, j)
  }

  function FindFrom(s: string, pat: string, k: nat): (r: Option<nat>)
    requires k <= |s|
    ensures r.Some? ==> k <= r.value && MatchesAt(s, pat, r.value)
    ensures r.Some? ==> forall j :: k <= j < r.value ==> !MatchesAt(s, pat, j)
    ensures r.None? ==> forall j :: k <= j ==> !MatchesAt(s, pat, j)
    decreases |s| - k
  {
    if k + |pat| > |s| then None
    else if s[k..k + |pat|] == pat then Some(k)
    else if k == |s| then None
    else FindFrom(s, pat, k + 1)
  }

  /** What follows a prefix. */
  lemma DropPrefix(s: string, a: string, b: string, m: nat)
    requires s == a + b && m == |a|
    ensures s[m..] == b
  {
  }

  /** `find` returns the first occurrence. */
  lemma FindFirst(s: string, pat: string, k: nat)
    requires MatchesAt(s, pat, k)
    requires forall j :: 0 <= j < k ==> !MatchesAt(s, pat, j)
    ensures Find(s, pat) == Some(k)
  {
    assert Contains(s, pat);
  }

  /** `s.find(pat)`, with `None` for Python's -1: the lowest index where `pat` occurs. */
  function Find(s: string, pat: string): (r: Option<nat>)
    ensures r.Some? <==> Contains(s, pat)
    ensures r.Some? ==> MatchesAt(s, pat, r.value)
    ensures r.Some? ==> forall j :: 0 <= j < r.value ==> !MatchesAt(s, pat, j)
  {
    var r := FindFrom(s, pat, 0);
    assert r.Some? ==> r.value <= |s| - |pat| && MatchesAt(s, pat, r.value);
    r
  }

  // ---------------------------------------------------------------------
  // split(sep)[-1], split(sep), split(), join
  // ---------------------------------------------------------------------

  /** `s.split(c)[-1]`: the text after the last `c`, or all of `s` without one. */
  function AfterLast(s: string, c: char): (r: string)
    ensures c !in r
    ensures |r| <= |s| && r == s[|s| - |r|..]
    ensures c !in s ==> r == s
    ensures c in s ==> s[|s| - |r| - 1] == c
  {
    if |s| == 0 then s
    else if s[|s| - 1] == c then []
    else
      var r := AfterLast(s[..|s| - 1], c);
      assert c in s ==> c in s[..|s| - 1];
      r + [s[|s| - 1]]
  }

  /** The text after a `c` that the rest does not contain. */
  lemma AfterLastOf(a: string, c: char, b: string)
    requires c !in b
    ensures AfterLast(a + [c] + b, c) == b
  {
    var s := a + [c] + b;
    var r := AfterLast(s, c);
    assert s[|a|] == c;
    assert r == s[|a| + 1..];
  }

  /** `s.split(c)` for a one-character separator: at least one piece, none containing `c`. */
  function Split(s: string, c: char): (r: seq<string>)
    ensures |r| >= 1
    ensures forall i :: 0 <= i < |r| ==> c !in r[i]
  {
    if |s| == 0 then [""]
    else
      var rest := Split(s[1..], c);
      if s[0] == c then [""] + rest
      else [[s[0]] + rest[0]] + rest[1..]
  }

  /** The longest prefix of `s` holding no whitespace. */
  function Token(s: string): (r: string)
    ensures |r| <= |s| && r == s[..|r|]
    ensures forall i :: 0 <= i < |r| ==> !IsSpace(r[i])
    ensures |s| > 0 && !IsSpace(s[0]) ==> |r| > 0
  {
    if |s| == 0 || IsSpace(s[0]) then [] else [s[0]] + Token(s[1..])
  }

  /** `w` is a non-empty run of non-whitespace characters drawn from `s`. */
  predicate WordOf(w: string, s: string) {
    |w| > 0 && forall j :: 0 <= j < |w| ==> !IsSpace(w[j]) && w[j] in s
  }

  /** `s.split()`. The contract says each word is a non-empty run of
      non-whitespace characters drawn from `s`; `KeepWords` adds that together
      the words hold the non-whitespace characters of `s`, in order. */
  function Words(s: string): (r: seq<string>)
    ensures forall i :: 0 <= i < |r| ==> WordOf(r[i], s)
    decreases |s|
  {
    var t := TrimLeft(s);
    if |t| == 0 then []
    else
      var w := Token(t);
      var u := t[|w|..];
      assert |u| < |s|;
      var rest := Words(u);
      WordsStep(s, t, w, u, rest);
      [w] + rest
  }

  lemma WordsStep(s: string, t: string, w: string, u: string, rest: seq<string>)
    requires |t| <= |s| && t == s[|s| - |t|..]
    requires 0 < |w| <= |t| && w == t[..|w|] && u == t[|w|..]
    requires forall j :: 0 <= j < |w| ==> !IsSpace(w[j])
    requires forall i :: 0 <= i < |rest| ==> WordOf(rest[i], u)
    ensures forall i :: 0 <= i < |[w] + rest| ==> WordOf(([w] + rest)[i], s)
  {
    var k := |s| - |t|;
    forall j | 0 <= j < |w| ensures w[j] in s {
      assert w[j] == s[k + j];
    }
    forall c | c in u ensures c in s {
      var m :| 0 <= m < |u| && u[m] == c;
      assert c == s[k + |w| + m];
    }
    forall i | 0 <= i < |rest| ensures WordOf(rest[i], s) {
      assert WordOf(rest[i], u);
    }
  }

  /** `sep.join(ws)`. */
  function Join(ws: seq<string>, sep: string): string {
    if |ws| == 0 then ""
    else if |ws| == 1 then ws[0]
    else ws[0] + sep + Join(ws[1..], sep)
  }

  /** Every character is a letter or a space, no space at either end and
      never two spaces in a row. */
  predicate SingleSpacedLetters(s: string) {
    && (forall i :: 0 <= i < |s| ==> IsAlpha(s[i]) || s[i] == ' ')
    && (|s| > 0 ==> s[0] != ' ' && s[|s| - 1] != ' ')
    && (forall i :: 0 <= i < |s| - 1 && s[i] == ' ' ==> s[i + 1] != ' ')
  }

  lemma {:induction false} JoinLettersSingleSpaced(ws: seq<string>)
    requires forall i :: 0 <= i < |ws| ==> |ws[i]| > 0
    requires forall i, j :: 0 <= i < |ws| && 0 <= j < |ws[i]| ==> IsAlpha(ws[i][j])
    ensures SingleSpacedLetters(Join(ws, " "))
  {
    if |ws| <= 1 {
    } else {
      var tail := Join(ws[1..], " ");
      JoinLettersSingleSpaced(ws[1..]);
      assert ws[1] == ws[1..][0];
      assert |tail| > 0 && IsAlpha(tail[0]) by {
        if |ws[1..]| == 1 {
        } else {
          assert tail == ws[1] + " " + Join(ws[2..], " ") by { assert ws[2..] == ws[1..][1..]; }
        }
      }
      var s := ws[0] + " " + tail;
      assert Join(ws, " ") == s;
      forall i | 0 <= i < |s| ensures IsAlpha(s[i]) || s[i] == ' ' {
        if i < |ws[0]| {
          assert s[i] == ws[0][i];
        } else if i > |ws[0]| {
          assert s[i] == tail[i - |ws[0]| - 1];
        }
      }
      forall i | 0 <= i < |s| - 1 ensures s[i] == ' ' ==> s[i + 1] != ' ' {
        if i < |ws[0]| {
          assert s[i] == ws[0][i];
        } else if i == |ws[0]| {
          assert s[i + 1] == tail[0];
        } else {
          assert s[i] == tail[i - |ws[0]| - 1];
          assert s[i + 1] == tail[i - |ws[0]|];
        }
      }
      assert s[|s| - 1] == tail[|tail| - 1];
    }
  }

  // ---------------------------------------------------------------------
  // Character filtering: `''.join(c for c in s if p(c))`
  // ---------------------------------------------------------------------

  function Keep(s: string, p: char -> bool): (r: string)
    ensures |r| <= |s|
    ensures forall c :: c in r ==> p(c) && c in s
    ensures forall c :: c in s && p(c) ==> c in r
    ensures (forall c :: c in s ==> p(c)) ==> r == s
  {
    if |s| == 0 then []
    else
      var rest := Keep(s[1..], p);
      assert forall c :: c in s <==> c == s[0] || c in s[1..];
      (if p(s[0]) then [s[0]] else []) + rest
  }

  /** Letters and digits are never whitespace. */
  lemma ClassesAreNotSpaces()
    ensures forall c :: IsAlpha(c) ==> !IsSpace(c)
    ensures forall c :: IsDigit(c) ==> !IsSpace(c)
    ensures forall c :: IsAlnum(c) ==> !IsSpace(c)
  {
  }

  /** `''.join(ws)`. */
  function Concat(ws: seq<string>): string {
    if |ws| == 0 then "" else ws[0] + Concat(ws[1..])
  }

  /** Filtering distributes over concatenation. */
  lemma {:induction false} KeepAppend(a: string, b: string, p: char -> bool)
    ensures Keep(a + b, p) == Keep(a, p) + Keep(b, p)
  {
    if |a| == 0 {
      assert a + b == b;
    } else {
      assert (a + b)[1..] == a[1..] + b;
      KeepAppend(a[1..], b, p);
    }
  }

  /** A filter that keeps no whitespace keeps nothing of a run of whitespace. */
  lemma KeepSpaces(s: string, p: char -> bool)
    requires forall c :: p(c) ==> !IsSpace(c)
    requires forall i :: 0 <= i < |s| ==> IsSpace(s[i])
    ensures Keep(s, p) == []
  {
  }

  /** Filters that agree on every character keep the same. */
  lemma {:induction false} KeepSame(s: string, p: char -> bool, q: char -> bool)
    requires forall c :: p(c) == q(c)
    ensures Keep(s, p) == Keep(s, q)
  {
    if |s| > 0 {
      KeepSame(s[1..], p, q);
    }
  }

  /** Filtering by `q` and then by `p` is filtering by their conjunction `pq`. */
  lemma {:induction false} KeepBoth(s: string, p: char -> bool, q: char -> bool, pq: char -> bool)
    requires forall c :: pq(c) <==> p(c) && q(c)
    ensures Keep(Keep(s, q), p) == Keep(s, pq)
  {
    if |s| > 0 {
      var head: string := if q(s[0]) then [s[0]] else [];
      KeepAppend(head, Keep(s[1..], q), p);
      KeepBoth(s[1..], p, q, pq);
    }
  }

  /** Filtering by `p` after filtering by a weaker `q` is filtering by `p`. */
  lemma {:induction false} KeepKeep(s: string, p: char -> bool, q: char -> bool)
    requires forall c :: p(c) ==> q(c)
    ensures Keep(Keep(s, q), p) == Keep(s, p)
  {
    if |s| > 0 {
      var head: string := if q(s[0]) then [s[0]] else [];
      KeepAppend(head, Keep(s[1..], q), p);
      KeepKeep(s[1..], p, q);
    }
  }

  /** A filter that keeps no whitespace does not see `strip`. */
  lemma KeepStrip(s: string, p: char -> bool)
    requires forall c :: p(c) ==> !IsSpace(c)
    ensures Keep(Strip(s), p) == Keep(s, p)
  {
    var t := TrimLeft(s);
    KeepDropLead(s, |s| - |t|, p);
    KeepDropTrail(t, |TrimRight(t)|, p);
  }

  /** Dropping leading whitespace does not change what a whitespace-free filter keeps. */
  lemma KeepDropLead(s: string, k: nat, p: char -> bool)
    requires k <= |s| && forall i :: 0 <= i < k ==> IsSpace(s[i])
    requires forall c :: p(c) ==> !IsSpace(c)
    ensures Keep(s, p) == Keep(s[k..], p)
  {
    var lead := s[..k];
    assert forall i :: 0 <= i < |lead| ==> lead[i] == s[i];
    assert s == lead + s[k..];
    KeepSpacesThen(lead, s[k..], p);
  }

  /** Dropping trailing whitespace does not change what a whitespace-free filter keeps. */
  lemma KeepDropTrail(s: string, k: nat, p: char -> bool)
    requires k <= |s| && forall i :: k <= i < |s| ==> IsSpace(s[i])
    requires forall c :: p(c) ==> !IsSpace(c)
    ensures Keep(s, p) == Keep(s[..k], p)
  {
    var trail := s[k..];
    assert forall i :: 0 <= i < |trail| ==> trail[i] == s[k + i];
    assert s == s[..k] + trail;
    KeepThenSpaces(s[..k], trail, p);
  }

  lemma KeepSpacesThen(a: string, b: string, p: char -> bool)
    requires forall i :: 0 <= i < |a| ==> IsSpace(a[i])
    requires forall c :: p(c) ==> !IsSpace(c)
    ensures Keep(a + b, p) == Keep(b, p)
  {
    KeepAppend(a, b, p);
    KeepSpaces(a, p);
    assert [] + Keep(b, p) == Keep(b, p);
  }

  lemma KeepThenSpaces(a: string, b: string, p: char -> bool)
    requires forall i :: 0 <= i < |b| ==> IsSpace(b[i])
    requires forall c :: p(c) ==> !IsSpace(c)
    ensures Keep(a + b, p) == Keep(a, p)
  {
    KeepAppend(a, b, p);
    KeepSpaces(b, p);
    assert Keep(a, p) + [] == Keep(a, p);
  }

  /** A filter that keeps no space does not see where `join` put the spaces. */
  lemma {:induction false} KeepJoinSpaces(ws: seq<string>, p: char -> bool)
    requires !p(' ')
    ensures Keep(Join(ws, " "), p) == Keep(Concat(ws), p)
  {
    if |ws| == 1 {
      assert Concat(ws) == ws[0] + Concat([]) && ws[0] + "" == ws[0];
    } else if |ws| > 1 {
      KeepJoinSpaces(ws[1..], p);
      KeepJoinStep(ws[0], Join(ws[1..], " "), Concat(ws[1..]), p);
    }
  }

  lemma KeepJoinStep(a: string, j: string, c: string, p: char -> bool)
    requires !p(' ') && Keep(j, p) == Keep(c, p)
    ensures Keep(a + " " + j, p) == Keep(a + c, p)
  {
    var ka := Keep(a, p);
    calc {
      Keep(a + " " + j, p);
      { KeepAppend(a + " ", j, p); }
      Keep(a + " ", p) + Keep(j, p);
      { KeepAppend(a, " ", p); assert Keep(" ", p) == []; assert ka + [] == ka; }
      ka + Keep(c, p);
      { KeepAppend(a, c, p); }
      Keep(a + c, p);
    }
  }

  /** A filter that keeps no whitespace sees the same characters in `s.split()` as in `s`. */
  lemma {:induction false} KeepWords(s: string, p: char -> bool)
    requires forall c :: p(c) ==> !IsSpace(c)
    ensures Keep(Concat(Words(s)), p) == Keep(s, p)
    decreases |s|
  {
    var t := TrimLeft(s);
    KeepDropLead(s, |s| - |t|, p);
    if |t| > 0 {
      var w := Token(t);
      var u := t[|w|..];
      assert Words(s) == [w] + Words(u);
      KeepWords(u, p);
      KeepConcatCons(w, Words(u), p);
      KeepSplit(t, |w|, p);
    }
  }

  lemma KeepConcatCons(w: string, ws: seq<string>, p: char -> bool)
    ensures Keep(Concat([w] + ws), p) == Keep(w, p) + Keep(Concat(ws), p)
  {
    assert ([w] + ws)[1..] == ws;
    KeepAppend(w, Concat(ws), p);
  }

  lemma KeepSplit(s: string, k: nat, p: char -> bool)
    requires k <= |s|
    ensures Keep(s, p) == Keep(s[..k], p) + Keep(s[k..], p)
  {
    assert s == s[..k] + s[k..];
    KeepAppend(s[..k], s[k..], p);
  }

}

=== FILE: user_model.dfy ===
/**
 * `UserModel`: the UPDATE `update_user` builds, the guards of
 * `change_password`, and the username and e-mail checks with their optional
 * exclusion. Werkzeug's `generate_password_hash` and `check_password_hash`
 * are parameters; the users table is a map from id to the stored hash and
 * active flag.
 */
module UserModel {
  import opened Wrappers
  import opened Seqs
  import opened Sql

  // ---------------------------------------------------------------------
  // update_user
  // ---------------------------------------------------------------------

  /** The columns written as given. */
  const UpdatableColumns: set<string> := {"full_name", "email", "role"}

  /** Every column `update_user` can name in its SET list. */
  const WrittenColumns: set<string> := UpdatableColumns + {"password_hash"}

  /** Columns that identify a user or decide whether the account is live. */
  const IdentityColumns: set<string> := {"username", "id", "is_active"}

  datatype UpdateOutcome = UpdateOutcome(success: bool, message: string, statement: Option<UpdateStatement>)

  /** The entries the loop of `update_user` keeps. */
  predicate Writable(kv: (string, string)) {
    kv.0 in UpdatableColumns || kv.0 == "password"
  }

  /** What a kept entry writes: itself, or the hash of the new password. */
  function Translate(kv: (string, string), hash: string -> string): (string, Value) {
    if kv.0 == "password" then ("password_hash", String(hash(kv.1))) else (kv.0, String(kv.1))
  }

  /** The loop of `update_user` over `update_data`, in insertion order. */
  function UserWrites(data: seq<(string, string)>, hash: string -> string): (r: seq<(string, Value)>)
    ensures |r| <= |data|
    ensures ColumnsOf(r) <= WrittenColumns
    ensures |r| == 0 <==> forall kv :: kv in data ==> kv.0 !in UpdatableColumns && kv.0 != "password"
    ensures forall k, v :: (k, v) in data && k in UpdatableColumns ==> (k, String(v)) in r
    ensures forall v :: ("password", v) in data ==> ("password_hash", String(hash(v))) in r
    // a password reaches the statement only hashed
    ensures forall w :: w in r && w.0 == "password_hash" ==>
      exists v :: ("password", v) in data && w.1 == String(hash(v))
    ensures forall w :: w in r && w.0 != "password_hash" ==>
      w.0 in UpdatableColumns && w.1.String? && (w.0, w.1.s) in data
  {
    var kept := Filter(data, Writable);
    var r := Map(kept, kv => Translate(kv, hash));
    TranslateFacts(kept, r, hash);
    assert |r| == 0 ==> forall kv :: kv in data ==> !Writable(kv);
    assert |r| > 0 ==> kept[0] in data && Writable(kept[0]);
    r
  }

  lemma TranslateFacts(kept: seq<(string, string)>, r: seq<(string, Value)>, hash: string -> string)
    requires forall kv :: kv in kept ==> Writable(kv)
    requires |r| == |kept| && forall i :: 0 <= i < |kept| ==> r[i] == Translate(kept[i], hash)
    ensures ColumnsOf(r) <= WrittenColumns
    ensures forall kv :: kv in kept ==> Translate(kv, hash) in r
    ensures forall w :: w in r ==> exists kv :: kv in kept && w == Translate(kv, hash)
  {
    forall kv | kv in kept ensures Translate(kv, hash) in r {
      var i :| 0 <= i < |kept| && kept[i] == kv;
      assert r[i] == Translate(kv, hash);
    }
    forall w | w in r ensures exists kv :: kv in kept && w == Translate(kv, hash) {
      var i :| 0 <= i < |r| && r[i] == w;
      assert kept[i] in kept;
    }
  }

  /** `update_user`; `affected` is whether the UPDATE changed a row. */
  function UpdateUser(userId: Value, data: seq<(string, string)>, hash: string -> string, affected: bool)
    : (r: UpdateOutcome)
    ensures r.statement.None? <==> forall kv :: kv in data ==> kv.0 !in UpdatableColumns && kv.0 != "password"
    ensures r.statement.None? ==> r == UpdateOutcome(false, "No valid fields to update", None)
    ensures r.statement.Some? ==>
      var u := r.statement.value;
      && u.table == "users" && u.keyColumn == "id"
      && u.WellBound() && u.Key() == userId
      && |u.assignments| > 0 && u.assignments[|u.assignments| - 1] == TouchUpdatedAt
      && (forall c :: Assign(c) in u.assignments ==> c in WrittenColumns)
      && Bind(u.assignments, u.params) == UserWrites(data, hash)
    ensures r.success <==> r.statement.Some? && affected
    ensures r.statement.Some? ==>
      r.message == (if affected then "User updated successfully" else "Failed to update user")
  {
    var writes := UserWrites(data, hash);
    if |writes| == 0 then UpdateOutcome(false, "No valid fields to update", None)
    else
      var u := BuildUpdate("users", "id", writes, userId).value;
      UpdateOutcome(affected, if affected then "User updated successfully" else "Failed to update user", Some(u))
  }

  /** A user's username, id and active flag never change through `update_user`. */
  lemma UpdateKeepsUsername(userId: Value, data: seq<(string, string)>, hash: string -> string, affected: bool,
                            rows: seq<Row>, now: Value)
    requires exists kv :: kv in data && Writable(kv)
    ensures var u := UpdateUser(userId, data, hash, affected).statement.value;
      var rows' := ApplyUpdate(u, rows, now);
      forall c, i :: c in IdentityColumns && 0 <= i < |rows| ==> SameColumn(rows[i], rows'[i], c)
  {
    var u := UpdateUser(userId, data, hash, affected).statement.value;
    IdentityNotWritten();
    OnlyNamedColumnsChange(u, rows, now, WrittenColumns, IdentityColumns);
  }

  lemma IdentityNotWritten()
    ensures IdentityColumns !! WrittenColumns && "updated_at" !in IdentityColumns
  {
  }

  // ---------------------------------------------------------------------
  // change_password
  // ---------------------------------------------------------------------

  datatype UserRow = UserRow(passwordHash: string, isActive: bool)

  type Users = map<int, UserRow>

  /** `check_password_hash(hash, password)`. */
  type HashCheck = (string, string) -> bool

  /** `get_user_by_id` finds only active users. */
  predicate Found(users: Users, id: int) {
    id in users && users[id].isActive
  }

  datatype PasswordChange = PasswordChange(users: Users, success: bool, message: string)

  /** `change_password`; `newHash` is `generate_password_hash(new_password)` and
      `affected` whether the UPDATE changed a row. */
  function ChangePassword(users: Users, id: int, current: string, newHash: string, check: HashCheck, affected: bool)
    : (r: PasswordChange)
    ensures !Found(users, id) ==> r == PasswordChange(users, false, "User not found")
    ensures Found(users, id) && !check(users[id].passwordHash, current) ==>
      r == PasswordChange(users, false, "Current password is incorrect")
    ensures r.success <==> Found(users, id) && check(users[id].passwordHash, current) && affected
    ensures r.success ==>
      && r.users == users[id := users[id].(passwordHash := newHash)]
      && r.message == "Password changed successfully"
    ensures !r.success ==> r.users == users
    ensures Found(users, id) && check(users[id].passwordHash, current) && !affected ==>
      r == PasswordChange(users, false, "Failed to change password")
  {
    if !Found(users, id) then PasswordChange(users, false, "User not found")
    else if !check(users[id].passwordHash, current) then PasswordChange(users, false, "Current password is incorrect")
    else if affected then
      PasswordChange(users[id := users[id].(passwordHash := newHash)], true, "Password changed successfully")
    else PasswordChange(users, false, "Failed to change password")
  }

  /** After a successful change, the new password is the current one: a second change
      passes both guards (given that the new hash checks against the new password). */
  lemma ChangeThenChangeAgain(users: Users, id: int, current: string, newPassword: string, newHash: string,
                              check: HashCheck, laterHash: string, laterAffected: bool)
    requires check(newHash, newPassword)
    requires ChangePassword(users, id, current, newHash, check, true).success
    ensures var r := ChangePassword(users, id, current, newHash, check, true);
      var r2 := ChangePassword(r.users, id, newPassword, laterHash, check, laterAffected);
      r2.message != "User not found" && r2.message != "Current password is incorrect"
  {
    var r := ChangePassword(users, id, current, newHash, check, true);
    assert r.users[id] == UserRow(newHash, true);
  }

  // ---------------------------------------------------------------------
  // check_username_exists / check_email_exists
  // ---------------------------------------------------------------------

  /** `SELECT id FROM users WHERE <column> = %s AND is_active = TRUE`, with the optional exclusion. */
  function ActiveUserQuery(column: string, v: Value, exclude: Value): (q: SelectStatement)
    ensures q.WellBound() && q.table == "users"
    ensures |q.params| == (if Truthy(exclude) then 2 else 1)
  {
    var cs := [Equals(column), IsTrue("is_active")];
    assert cs[1..] == [IsTrue("is_active")] && cs[1..][1..] == [];
    assert ConditionSlots(cs[1..][1..]) == 0;
    assert ConditionSlots(cs[1..]) == 0;
    Excluding(SelectStatement("users", cs, [v]), "id", exclude)
  }

  /** What the query selects: an active user with that value, other than the excluded id
      when the exclusion value is truthy. */
  lemma ActiveUserQueryMeaning(column: string, v: Value, exclude: Value, row: Row)
    ensures Selects(ActiveUserQuery(column, v, exclude), row) <==>
      && column in row && SqlEq(row[column], v)
      && "is_active" in row && row["is_active"] == Boolean(true)
      && (Truthy(exclude) ==> "id" in row && SqlNe(row["id"], exclude))
  {
    var cs := [Equals(column), IsTrue("is_active")];
    assert cs[1..] == [IsTrue("is_active")] && cs[1..][1..] == [];
    assert [v][1..] == [];
    assert Satisfies(row, [IsTrue("is_active")], []) <==> "is_active" in row && row["is_active"] == Boolean(true);
    assert Satisfies(row, cs, [v]) <==>
      column in row && SqlEq(row[column], v) && Satisfies(row, [IsTrue("is_active")], []);
  }

  /** `check_username_exists`. */
  function UsernameExists(rows: seq<Row>, username: Value, exclude: Value): (r: bool)
    ensures r <==> exists i :: 0 <= i < |rows| && Selects(ActiveUserQuery("username", username, exclude), rows[i])
  {
    AnySelected(ActiveUserQuery("username", username, exclude), rows)
  }

  /** `check_email_exists`. */
  function EmailExists(rows: seq<Row>, email: Value, exclude: Value): (r: bool)
    ensures r <==> exists i :: 0 <= i < |rows| && Selects(ActiveUserQuery("email", email, exclude), rows[i])
  {
    AnySelected(ActiveUserQuery("email", email, exclude), rows)
  }

  /** Excluding a user's own id: their own row never makes their username count as taken. */
  lemma OwnRowNotCounted(row: Row, username: Value, id: Value)
    requires Truthy(id) && "id" in row && row["id"] == id
    ensures !Selects(ActiveUserQuery("username", username, id), row)
  {
    ActiveUserQueryMeaning("username", username, id, row);
  }
}

=== FILE: wrappers.dfy ===
/** Small failure-carrying datatypes shared by every module of the model. */
module Wrappers {

  /** Python's `None` or a present value. */
  datatype Option<+T> = None | Some(value: T) {
    function GetOr(default: T): T {
      match this
      case Some(v) => v
      case None => default
    }
  }

  /** A value or an error, for the `(success, payload)` tuples the application's helpers return. */
  datatype Result<+R, +E> = Ok(value: R) | Err(error: E)
}
